=== FILE: README.md ===
# loom, modelled in Dafny

loom is a Go library for managing, running and evaluating prompts for large
language models. This project models its resilient execution pipeline and
the helpers around it as immutable datatypes and pure functions, and proves
what the code promises about them.

- **Prompts.** A prompt is a versioned template with typed variables.
  - Variables are checked against a dynamic value (`Variables`).
  - Input is validated and prompts are copied (`Prompts`).
  - The template engine validates, merges defaults and executes (`Template`).
  - A fluent builder assembles prompts (`Loom`).
- **Running prompts.** A provider answers completion requests (`Provider`).
  - Middleware wraps it (`Middleware`): logging, metrics counters, a response cache with expiry, a token-bucket rate limiter and a three-state circuit breaker.
  - The executor renders a prompt, builds the request and retries failed calls with an exponential backoff (`Executor`).
  - Chains run steps in order, or as parallel groups, with retries, a fallback and conditions (`Chain`).
- **Storage.** An in-memory registry stores versions, stages, a production pointer and tags, and lists them with filters and pages (`Registry`).
- **Evaluation.**
  - Evaluators score outputs (`Scores`, `Evaluators`).
  - An LLM judge parses a model's verdict (`Judge`).
  - Test suites tally cases (`Suite`).
- **Around the pipeline.**
  - A run store keeps recent runs and aggregates them (`Analytics`).
  - A/B experiments pick variants by weight and announce a winner (`Optimizer`).
  - Token counting and cost tracking (`Cost`).
  - The byte find-and-replace of the dashboard command (`Dashboard`).

Shared pieces live in a few small modules:
- `Wrappers`: `Option`/`Result`.
- `Errors`: Go error values, with `errors.Is` and the context state.
- `Strings`: the `strings` functions the code calls.

Go's mutation becomes returned state. Everything nondeterministic is a parameter:
- the clock: `now`, in nanoseconds, with 0 for the zero time;
- the provider's answers: an oracle per call or attempt;
- the order Go walks a map;
- the order goroutines deliver their results;
- which ready case a `select` takes;
- the random draw of `rand.Float64`.

## Model

| member | source | states |
|---|---|---|
| Variables.Validate | core/variable.go:30-67 | a nil value fails exactly when the variable is required; otherwise a value of the wrong dynamic type fails with the type's message, and only a well-typed value reaches the custom validation, whose verdict is returned |
| Variables.ValidateAcceptsIff | core/variable.go:30-67 | a value is accepted iff it is nil and not required, or it is well typed and the custom validation (if any) accepts it |
| Variables.ValidationRunsAfterTypeCheck | core/variable.go:37-66 | a custom validation can never change the outcome for a value of the wrong type |
| Variables.ValidateExamples | core/variable.go:38-61 | a required string rejects nil, an int variable accepts every Go integer kind and rejects a string, a float variable rejects an int, and `any` accepts anything |
| Variables.ApplyOptions | core/variable.go:72-98 | options apply in order: `Required` makes the variable required, and the last `Default`, `WithDescription` and `WithValidation` win, while name and type are kept |
| Variables.NewVariable | core/variable.go:101-143 | a constructor gives the chosen type and an empty name, required iff some option says so, with no default or validation unless an option sets one |
| Variables.StringRequiredExample | core/variable.go:72-107 | `String(Required())` named later is a required string that rejects a missing value |
| Variables.CoerceToString | core/variable.go:152-158 | nil coerces to the empty string and a string to itself |
| Prompts.VariableMap | core/prompt.go:84-90 | every declared name is a key, every entry is a declared variable under its own name, and for a repeated name the last declaration wins |
| Prompts.ValidateFrom | core/prompt.go:71-80 | the validation loop succeeds iff every visited variable passes on its input value or default, and an error names a variable that fails |
| Prompts.ValidateInput | core/prompt.go:66-81 | input is valid iff every declared variable passes against its input value, or its default when the key is absent; an error comes from a failing variable |
| Prompts.ValidateFromReports | core/prompt.go:66-81 | walking the declarations finds exactly the failures that walking the variable map finds |
| Prompts.UndeclaredKeysIgnored | core/prompt.go:66-81 | adding or changing an input key no variable declares never changes whether the input is valid |
| Prompts.ValidateInputExample | core/prompt.go:66-81 | a required string variable rejects an empty input and accepts one that supplies it |
| Prompts.Copy | core/prompt.go:93-103 | the copy keeps every field and the metadata entries, always has a metadata map, and has no renderer |
| Prompts.CopyIdempotent | core/prompt.go:93-103 | copying a copy changes nothing |
| Template.ApplyEngineOptions | template/engine.go:25-39 | the last `WithDelims` decides the delimiters, and the function names are the defaults plus those of every `WithFuncMap` |
| Template.NewEngine | template/engine.go:42-52 | a new engine has `{{`/`}}` unless an option replaces them, and always offers the default functions |
| Template.DefaultFunc | template/engine.go:65-70 | `default` yields the fallback exactly when the value is nil or the empty string |
| Template.DefaultsLoop | template/engine.go:88-95 | the defaults loop enters a key only for an input key or a declared variable with a non-nil default, and gives each absent declared variable its last non-nil default |
| Template.RenderData | template/engine.go:88-98 | input always wins: every input key maps to its input value, and any other key is a declared variable with a default |
| Template.ExecuteTemplate | template/engine.go:115-128 | an empty template renders to the empty string without being parsed; any other template is run by the engine |
| Template.Render | template/engine.go:78-112 | a done context fails with its error before validation, invalid input fails, and a rendering keeps the caller's input |
| Template.RenderOutcome | template/engine.go:84-111 | invalid input fails wrapping the validation sentinel; a system or user template failure wraps the render sentinel; otherwise both texts come from the merged data |
| Template.EmptyTemplatesRender | template/engine.go:99-111 | with valid input, empty system and user templates always render to empty texts |
| Template.RenderPrompt | core/prompt.go:58-63 | a prompt without a renderer fails with the no-renderer error; otherwise its renderer decides |
| Template.CopyCannotRender | core/prompt.go:93-103 | a copied prompt can never render, since copying drops the renderer |
| Loom.DefaultEngine | loom.go:26-35 | the shared default engine uses the standard delimiters and default functions |
| Loom.New | loom.go:51-59 | a new builder has the id, version "1.0.0" and empty metadata, variables and examples |
| Loom.WithVersion | loom.go:61-65 | sets the version and changes nothing else in the builder |
| Loom.WithName | loom.go:67-71 | sets the name and changes nothing else in the builder |
| Loom.WithDescription | loom.go:73-77 | sets the description and changes nothing else in the builder |
| Loom.WithSystem | loom.go:79-83 | sets the system text and changes nothing else in the builder |
| Loom.WithTemplate | loom.go:85-89 | sets the template and changes nothing else in the builder |
| Loom.WithVariable | loom.go:92-96 | the variable is appended under the given name, after the earlier ones, and nothing else changes |
| Loom.WithExample | loom.go:99-102 | the example is appended with weight 1.0 |
| Loom.WithExampleWeight | loom.go:105-108 | the example is appended with the given weight |
| Loom.WithMetadata | loom.go:111-116 | metadata keys are merged, and new values overwrite old ones |
| Loom.WithMetadataTwice | loom.go:111-116 | merging twice is merging the union once, with the later map winning |
| Loom.Build | loom.go:120-143 | the prompt carries every builder field, equal creation and update times, and the given engine, or the default one when none is given, as its renderer |
| Loom.BuildRendersWithEngine | loom.go:120-143 | a built prompt renders through its engine, and its copy differs from it only in having no renderer |
| Loom.QuickStartValidation | loom.go:4-16 | the documented quick-start prompt rejects input without `text` and validates input with it |
| Provider.StreamToWriter | provider/provider.go:60-80 | the writer receives the chunks' contents in order up to the stopping chunk; a done context, a chunk error or a write error is returned; a done chunk or the end of the stream ends without error |
| Provider.FirstDone | provider/provider.go:75-77 | the position of the first chunk marked done, or the length when there is none |
| Provider.StreamWithoutFailures | provider/provider.go:60-80 | without failures the writer gets every chunk up to and including the first done one, or all of them |
| Middleware.AddU64 | middleware/middleware.go:96-97 | adding to a `uint64` counter is addition modulo 2^64, and exact while the sum fits |
| Middleware.Count | middleware/middleware.go:89-99 | each call adds one request; a failure adds one error and nothing else; a success adds its token usage |
| Middleware.CountAllTotals | middleware/middleware.go:89-99 | after a series of calls the counters hold the numbers of calls and failures and the token sums of the successes, modulo 2^64 |
| Middleware.EffectiveTTL | middleware/middleware.go:123-126 | a non-positive time to live becomes one hour |
| Middleware.CacheGet | middleware/middleware.go:177-185 | a lookup hits iff the key is present and its expiry is not yet past, and then returns the stored value |
| Middleware.CacheSet | middleware/middleware.go:187-192 | storing overwrites the key with expiry `now + ttl` and leaves other keys alone |
| Middleware.CacheSetThenGet | middleware/middleware.go:177-192 | a stored value reads back exactly until its expiry |
| Middleware.CacheKeyInjective | middleware/middleware.go:133 | with NUL-free model and system texts, two requests share a cache key iff they agree on model, system and prompt |
| Middleware.CacheKeyCollision | middleware/middleware.go:133 | a NUL inside the model lets two different requests share a cache key |
| Middleware.CacheKeyIgnoresSampling | middleware/middleware.go:133 | temperature, token limit and top-p never change the cache key |
| Middleware.NewLimiter | middleware/middleware.go:210-215 | a limiter exists iff the limit is positive, and it starts with a full bucket |
| Middleware.TruncDiv | middleware/middleware.go:217 | integer division truncates toward zero |
| Middleware.RefillTick | middleware/middleware.go:217-220 | the refill period is the window divided by the limit, at least one millisecond |
| Middleware.Tick | middleware/middleware.go:221-226 | a refill adds a permit only below capacity, so the bucket stays within 0 and the limit |
| Middleware.Acquire | middleware/middleware.go:232-237 | a call takes exactly one permit when the bucket has one and the select picks it; otherwise it waits for a refill or returns the context's error, leaving the bucket unchanged |
| Middleware.RunLimiter | middleware/middleware.go:210-239 | any mix of refills and calls keeps the bucket valid |
| Middleware.WithoutFirstTick | middleware/middleware.go:221-226 | a waiting call takes exactly one refill tick out of the trace, and there is one to take exactly when a tick is left |
| Middleware.ServedBounded | middleware/middleware.go:210-239 | every call let through, from the bucket or by a tick it waited for, plus the permits left, never outnumbers the initial permits plus the refill ticks |
| Middleware.NewBreaker | middleware/middleware.go:269-273 | a new breaker is closed with zero counters |
| Middleware.Admit | middleware/middleware.go:276-285 | an open breaker refuses until its deadline and touches nothing; otherwise the request is counted and an open breaker becomes half-open |
| Middleware.Settle | middleware/middleware.go:286-306 | a failure reopens a half-open breaker, or opens a breaker with at least ten requests whose failure rate reaches the threshold, and counters are never reset; a success closes a half-open breaker |
| Middleware.BreakerNeedsTenRequests | middleware/middleware.go:293-298 | with fewer than ten requests a failure never opens a closed breaker |
| Middleware.BreakerRecovery | middleware/middleware.go:276-305 | after the timeout one success closes an open breaker and one failure reopens it for another timeout |
| Middleware.Chain | middleware/middleware.go:17-23 | wrapping from the last middleware to the first makes the first outermost; with none the provider is returned unchanged |
| Middleware.NestKeepsBase | middleware/middleware.go:17-23 | chaining keeps the base provider and stacks the layers in the order given |
| Middleware.NestAppend | middleware/middleware.go:17-23 | chaining twice is chaining the concatenated middlewares once |
| Middleware.Complete | middleware/middleware.go:41-307 | through any stack a call returns the base provider's answer when it reaches it; otherwise a cached response or an error raised by a layer itself; the layers keep their shape and valid state |
| Middleware.ObservingIsTransparent | middleware/middleware.go:41-99 | logging and metrics layers never change a call's result |
| Middleware.LoggingBrackets | middleware/middleware.go:41-50 | logging records the model and prompt length before the call and one outcome line after it |
| Middleware.MetricsCountsEachCall | middleware/middleware.go:89-99 | a metrics layer counts each call that reaches it once, with its outcome |
| Middleware.CacheStoresOnlySuccess | middleware/middleware.go:132-152 | a cache hit or a failed call to the next provider leaves the store unchanged and returns that failure; the store changes only by adding the next provider's successful response under the request's key |
| Middleware.CacheServesRepeat | middleware/middleware.go:132-152 | after a successful miss the same request within the time to live is answered from the cache without reaching the next provider |
| Middleware.OpenBreakerFailsFast | middleware/middleware.go:276-281 | an open breaker before its deadline fails with a deadline error without calling the next provider |
| Middleware.Delegate | middleware/middleware.go:52-58 | streaming and model-info calls reach the base provider through every layer with their argument unchanged |
| Executor.WrapInt64 | executor/executor.go:28 | `int64` arithmetic wraps modulo 2^64 into the signed range |
| Executor.BackoffDelay | executor/executor.go:25-34 | the intended delay is `base * 2^attempt`, capped at `max` |
| Executor.BackoffDelayMonotone | executor/executor.go:25-34 | with non-negative base and cap the delay never shrinks from one attempt to the next and never exceeds the cap |
| Executor.BackoffAgreesWithoutOverflow | executor/executor.go:26-34 | the code as written and the intended delay agree while the product fits in 64 bits |
| Executor.BackoffOverflowExample | executor/executor.go:26-34 | with the default 500ms and 30s, attempt 35 gives a negative delay as written but 30s as intended |
| Executor.BackoffAsWrittenLater | executor/executor.go:26-34 | as written, with the 500ms base and 30s cap, attempt 38 gets the cap and every attempt from 56 on gets a delay of 0 |
| Executor.ExponentialBackoff | executor/executor.go:26-34 | the backoff function returns the intended capped delay for every attempt |
| Executor.ApplyOptions | executor/executor.go:40-52 | the last `WithRetry` sets retries and backoff, and the last `WithTimeout` the base timeout; a field no option sets is kept |
| Executor.New | executor/executor.go:55-65 | a new executor has no retries, no timeout and the 500ms..30s exponential backoff unless options replace them |
| Executor.EffectiveTimeout | executor/executor.go:96-104 | the request's timeout wins unless it is zero, then the executor's; a non-positive result sets no deadline |
| Executor.BuildRequest | executor/executor.go:105-116 | the request takes user and system text from the rendering and the prompt's metadata; an empty model becomes "gpt-3.5-turbo" |
| Executor.Retry | executor/executor.go:117-138 | the loop stops at the first success or after the last allowed attempt, every earlier call failed, and it sleeps between attempts only, with the attempt index |
| Executor.Attempts | executor/executor.go:117-139 | at most `maxRetries + 1` calls are made; a failure means all were made; a negative retry count makes none |
| Executor.Finish | executor/executor.go:122-139 | a success reports its content and attempt count; a failure wraps the last error with the attempt count |
| Executor.Prepare | executor/executor.go:89-116 | a nil prompt or a failed rendering fails before any call; otherwise the request is built from the rendering |
| Executor.Outcome | executor/executor.go:88-116 | a missing or unrenderable prompt makes no call and fails with the prompt or render error; otherwise the request built from the rendered prompt is sent under the effective timeout |
| Executor.OutcomeAttempts | executor/executor.go:117-139 | a success is the first successful attempt's content after failed ones and counts the attempts; a failure made every attempt, slept the backoff between them and wraps the last error with the attempt count; no attempt at all only with a negative retry count |
| Executor.Execute | executor/executor.go:88-140 | the Go loop computes exactly the outcome above |
| Executor.RetryLoop | executor/executor.go:117-139 | the loop's calls, sleeps and last answer are exactly those of the attempt function |
| Executor.SucceedsFirstTime | executor/executor.go:119-130 | a provider that always answers is called once, with no sleep |
| Executor.FailsAfterAllAttempts | executor/executor.go:117-139 | a provider that always fails is called `maxRetries + 1` times and the error wraps its error |
| Chain.Get | chain/chain.go:21-26 | a step's output, or the empty string for an unknown step or a nil map |
| Chain.All | chain/chain.go:29-38 | a nil map stays nil; otherwise a copy with the same entries |
| Chain.ApplyStepOptions | chain/chain.go:44-70 | name and prompt are kept; the last `WithRetry` decides retries and backoff, the last `WithTimeout`, `WithFallback` and `WithCondition` their fields; a field no option sets is kept |
| Chain.ChainStep | chain/chain.go:156-165 | a step has no retries, backoff, timeout, fallback or condition unless an option sets them, and otherwise the last such option decides |
| Chain.NewChain | chain/chain.go:114-117 | a new chain has its name, no nodes, no executor and no default model |
| Chain.WithExecutor | chain/chain.go:119-123 | sets the executor and changes nothing else |
| Chain.WithDefaultModel | chain/chain.go:125-129 | sets the default model and changes nothing else |
| Chain.Step | chain/chain.go:132-139 | a sequential node with the one step is appended, and nothing else changes |
| Chain.Parallel | chain/chain.go:143-153 | an empty group adds nothing; otherwise one parallel node with the steps is appended |
| Chain.StepRequest | chain/chain.go:209-214 | a step's request carries its prompt, the current input, its timeout and the chain's default model |
| Chain.StopAt | chain/chain.go:217-241 | the loop stops at an attempt it reaches: one whose main call succeeds, whose backoff wait is cut short, or the last |
| Chain.LoopFromReached | chain/chain.go:217-241 | once the loop reaches an attempt, its result is the result from that attempt on |
| Chain.LoopSpec | chain/chain.go:217-241 | the loop succeeds iff a reached attempt's main call succeeds or, all failing, the fallback succeeds; the output is the first successful main call's; on failure every reached call failed; a cut-short wait ends it with the context's error; after the last failure the fallback decides, wrapping the main error if it fails too |
| Chain.Answer | chain/chain.go:218-221 | an executor call yields its content when it succeeds and its error otherwise |
| Chain.RunStepAttempts | chain/chain.go:201-241 | with an executor, a step succeeds iff some attempt it reaches succeeds or the fallback does after all fail; the output is the first successful attempt's content; a failed step had every reached attempt fail |
| Chain.RunStep | chain/chain.go:201-249 | without an executor the step's output is the rendered user text, or the rendering error |
| Chain.RunStepEnds | chain/chain.go:223-239 | when every attempt fails, the fallback decides the step's result and its failure reports the last main error; a backoff wait cut short ends the step with the context's error, unwrapped |
| Chain.Launched | chain/chain.go:260-270 | exactly the steps whose condition holds against the current result are launched, in order |
| Chain.Drain | chain/chain.go:273-279 | draining fails iff some arrival failed, with the first failure to arrive; otherwise every arrived name has an output |
| Chain.DrainOrderIndependent | chain/chain.go:273-279 | with distinct names and no failure, each step's output is its own whatever the arrival order |
| Chain.RunParallel | chain/chain.go:251-280 | a parallel group merges outputs only when no launched step failed, and the names are those of the launched steps |
| Chain.DrainArrival | chain/chain.go:273-279 | in any arrival order the group fails iff some step failed |
| Chain.RunParallelFacts | chain/chain.go:251-280 | a group fails iff some launched step fails, and otherwise its outputs are named by the enabled steps |
| Chain.RunParallelFails | chain/chain.go:251-280 | some outcome fails iff some enabled step's run fails |
| Chain.RunParallelNames | chain/chain.go:251-280 | the merged names are exactly the enabled steps' names |
| Chain.RunParallelValues | chain/chain.go:251-280 | with distinct step names, in a successful group every enabled step succeeded on the shared input snapshot and its output is the group's value under its name |
| Chain.Overlay | chain/chain.go:180-183 | the next input is the current one with each output written over it under the step's name |
| Chain.FoldStops | chain/chain.go:177-178 | once a step has failed no later step runs: the result is that failure |
| Chain.FoldGrows | chain/chain.go:180-183 | with steps that never drop an output, what is present after `k` steps is present after any later step |
| Chain.FoldFirstFailure | chain/chain.go:177-178 | a failed run failed at a step it reached after the earlier ones succeeded, and that step's error is the run's |
| Chain.FoldKeeps | chain/chain.go:174-197 | a property of the outputs kept by every successful step holds after the whole run |
| Chain.SkippedStepWritesNothing | chain/chain.go:186-188 | a reached step whose condition fails is not run, whatever it would answer, and changes no output |
| Chain.RanStepWrites | chain/chain.go:189-194 | a reached enabled step that succeeds writes its output under its name, over an earlier output of that name, and keeps every other output |
| Chain.FailedStepEndsChain | chain/chain.go:189-192 | a reached enabled step that fails ends the chain: no later step or node runs and the chain's error is the step's, wrapped with its quoted name |
| Chain.RanStepSucceeded | chain/chain.go:189-192 | in a successful chain every step that ran succeeded |
| Chain.RanStepInNode | chain/chain.go:189-194 | a step that ran and succeeded is among its node's outputs when the node succeeds |
| Chain.RanStepListed | chain/chain.go:185-198 | every step that ran in a successful chain succeeded and its name is among the chain's outputs |
| Chain.SequentialFailure | chain/chain.go:185-192 | a chain without parallel groups fails only at a reached enabled step that fails, with that step's error wrapped with its name |
| Chain.GroupEffect | chain/chain.go:175-183 | a reached parallel group that fails ends the chain with its error unwrapped; one that succeeds merges its outputs over the earlier ones |
| Chain.RunSequentialNode | chain/chain.go:185-195 | a sequential node's steps run in order: the node yields exactly the fold of its steps' effects, skipped steps writing nothing and the first failure wrapped with its step's name |
| Chain.ExecuteWith | chain/chain.go:168-199 | the loop succeeds iff the fold of its nodes does, yields exactly the fold's outputs and the input overlaid with them, and otherwise fails with the error that ended the fold |
| Chain.Execute | chain/chain.go:168-199 | with `runStep` and `runParallel` as the steps, the chain succeeds iff the reference fold `ChainRun` does, and its outputs, next input and error are the fold's |
| Chain.ChainOutputsNamed | chain/chain.go:180-194 | every output of a successful chain is named by one of its steps |
| Chain.NodeNamed | chain/chain.go:180-194 | a node run keeps the outputs named by the chain's steps |
| Registry.NewIsValid | registry/memory.go:21-28 | a new registry is empty and keeps the registry invariant |
| Registry.StoreStage | registry/memory.go:50-55 | storing a new version gives it the dev stage; storing an existing one keeps its stage |
| Registry.Store | registry/memory.go:35-57 | nil or unidentified prompts are refused without change; otherwise a copy is stored under id and version and nothing else moves |
| Registry.Get | registry/memory.go:60-72 | a stored version reads back as a copy, and anything else is not found |
| Registry.GetProduction | registry/memory.go:75-91 | found iff a production pointer exists and names a stored version, and then it is that version |
| Registry.ProductionNeverDangles | registry/memory.go:75-91 | in a valid registry every production pointer leads to a stored version |
| Registry.Promote | registry/memory.go:161-179 | a missing version is not found; otherwise only its stage changes, and the production pointer moves only for the production stage |
| Registry.PromoteThenGetProduction | registry/memory.go:161-179 | promoting to production makes that version the one production returns |
| Registry.Delete | registry/memory.go:182-201 | removes the version, its stage and its tags; clears production only when it named that version; a missing version is not found |
| Registry.Tag | registry/memory.go:204-216 | replaces the tag list of a stored version only, and a missing version is not found |
| Registry.TagIsolated | registry/memory.go:204-216 | tagging one version leaves every other version's tags as they were |
| Registry.StoreThenGet | registry/memory.go:35-72 | what is stored reads back as its copy |
| Registry.RestoreKeepsStage | registry/memory.go:50-55 | storing a version again keeps the stage it was promoted to |
| Registry.Contains | registry/memory.go:222-229 | true iff the string is in the slice |
| Registry.HasAll | registry/memory.go:231-245 | true iff every needed tag is present; an empty need is always met |
| Registry.EffectiveLimit | registry/memory.go:98-102 | a non-positive limit becomes 1000 |
| Registry.Selected | registry/memory.go:103-124 | the walk selects matching versions, in walk order |
| Registry.SelectedMembers | registry/memory.go:103-124 | everything selected is a copy of a walked version that passes the filters |
| Registry.Page | registry/memory.go:120-127 | a page never holds more than the limit |
| Registry.List | registry/memory.go:94-131 | the listing skips `offset` matches and returns at most the limit, in walk order |
| Registry.ListReturnsMatches | registry/memory.go:94-131 | everything listed is a stored version matching the id, stage and tag filters |
| Registry.UnfilteredListsAll | registry/memory.go:94-131 | without filters every stored version is selected |
| Registry.ListVersions | registry/memory.go:134-158 | given a walk of the id's versions (each stored version once), one entry per stored version of the id, with its stage (dev when the id has no stage map), tags and creation and update times; an unknown id gives none |
| Registry.ListVersionsComplete | registry/memory.go:134-158 | a version is listed exactly when it is stored under the id, and no version is listed twice |
| Registry.TwoVersionsListed | registry/memory.go:134-158 | two stored versions of one id are both listed |
| Registry.KeyAsWritten | registry/memory.go:30-32 | the tag key is id, a colon and version |
| Registry.TagAsWritten | registry/memory.go:214 | tags are written under that joined key |
| Registry.TagKeyCollision | registry/memory.go:30-32 | two different versions share a tag key when an id or version contains a colon |
| Registry.VersionKeyInjective | registry/memory.go:204-216 | the corrected key tells every two versions apart |
| Strings.TrimSpace | evaluator/evaluator.go:41-42 | trimming removes white space from both ends, leaving a contiguous part of the text |
| Strings.Split | evaluator/llmjudge.go:65 | the parts rejoin to the text, and none contains the separator |
| Strings.ToUpper | evaluator/llmjudge.go:79 | upper-casing maps each character and keeps the length |
| Strings.Utf8Len | middleware/middleware.go:42 | the byte length of a text lies between one and four bytes per character |
| Evaluators.ExactMatchScore | evaluator/evaluator.go:40-49 | passes iff the trimmed texts are equal, with value 1 on a pass and 0 otherwise |
| Evaluators.FirstMissing | evaluator/evaluator.go:62-66 | the first substring not contained, or none when all are |
| Evaluators.ContainsAllScore | evaluator/evaluator.go:57-68 | checks the own substrings, or the expected ones when it has none; passes iff all occur, and otherwise reports the first missing one |
| Evaluators.Evaluate | evaluator/evaluator.go:40-75 | each evaluator scores as its kind does, and only a function evaluator can return an error, which is returned as it is |
| Evaluators.ExactMatchAcceptsExpected | evaluator/evaluator.go:40-49 | the expected output, and anything equal to it after trimming, passes |
| Evaluators.ContainsAllAcceptsConcat | evaluator/evaluator.go:57-68 | a text made of all the checked substrings passes |
| Evaluators.ContainsAllRejectsShortText | evaluator/evaluator.go:62-66 | a checked substring longer than the text makes it fail |
| Judge.JudgeRequest | evaluator/llmjudge.go:31-49 | empty system, criteria and model fall back to the defaults, and the prompt holds expected output, actual output and criteria |
| Judge.Evaluate | evaluator/llmjudge.go:30-57 | a failed call gives a failing zero score with the call's error as reason; otherwise the trimmed reply is parsed; the value is always within 0 and 1 |
| Judge.ScoreCapture | evaluator/llmjudge.go:60 | the capture is the number after the leftmost case-insensitive `score:`, or none when there is no match |
| Judge.ParseDecimal | evaluator/llmjudge.go:73 | a run of digits and dots parses iff it has at most one dot and a digit, and then has its decimal value |
| Judge.LineScore | evaluator/llmjudge.go:72-76 | a line sets a score only when its captured number parses and lies within 0 and 1 |
| Judge.ScanValue | evaluator/llmjudge.go:70-76 | the value is the last accepted line score, or 0 when no line has one |
| Judge.ScanHasVerdict | evaluator/llmjudge.go:77-80 | a verdict is seen iff some line has the word PASS or FAIL |
| Judge.ScanVerdict | evaluator/llmjudge.go:77-80 | the last line with PASS or FAIL decides the verdict |
| Judge.Lines | evaluator/llmjudge.go:65-71 | the reply's lines, each trimmed |
| Judge.ParseJudgeResponse | evaluator/llmjudge.go:64-88 | the reason is the whole reply, the value the last accepted score or 0, and the verdict the last PASS/FAIL line, or a score of at least 0.7 when there is none |
| Judge.VerdictOverridesScore | evaluator/llmjudge.go:82-87 | an explicit verdict line wins over the score |
| Judge.ScoreLineExample | evaluator/llmjudge.go:24-27 | the reply line the default system prompt asks for sets its score |
| Judge.OutOfRangeScoreIgnored | evaluator/llmjudge.go:73 | a score above 1 is ignored |
| Judge.VerdictWordExamples | evaluator/llmjudge.go:61 | PASS and FAIL count case-insensitively and as whole words only |
| Suite.NewTestSuite | evaluator/suite.go:23-25 | a new suite has the exact match as its only evaluator, and no prompt, executor or cases |
| Suite.WithPrompt | evaluator/suite.go:27-32 | sets the prompt under test and its version label and changes nothing else |
| Suite.WithExecutor | evaluator/suite.go:34-38 | sets the executor and changes nothing else |
| Suite.AddCase | evaluator/suite.go:41-44 | the case is appended, and nothing else changes |
| Suite.WithEvaluator | evaluator/suite.go:47-50 | the evaluator is appended after the others |
| Suite.EvalAllScores | evaluator/suite.go:124-138 | the loop ends without error iff every evaluator succeeds, and then holds one score per evaluator, in order |
| Suite.EvalAllPasses | evaluator/suite.go:124-138 | without an error the case passes iff every score passes |
| Suite.EvalAllStops | evaluator/suite.go:124-131 | the first evaluator error stops the loop, is the loop's error and keeps the scores before it |
| Suite.ActualOutput | evaluator/suite.go:114-121 | without an executor the output is the rendered user text, or the rendering error |
| Suite.RunCase | evaluator/suite.go:100-139 | a case passes iff its output was produced and every evaluator passes it; a failed output gives an error and no scores; an evaluator error keeps the scores before it |
| Suite.PassCount | evaluator/suite.go:90-94 | the passes never outnumber the results |
| Suite.Run | evaluator/suite.go:75-98 | a suite without a prompt is refused; otherwise one result per case in order, with passes counted and passes plus failures equal to the total |
| Suite.DefaultSuiteComparesRendering | evaluator/suite.go:23-25 | a fresh suite without an executor passes a case iff the rendering equals the expected output after trimming |
| Suite.MoreEvaluatorsPassLess | evaluator/suite.go:124-137 | adding an evaluator never turns a failing case into a passing one |
| Analytics.NewMemoryStore | analytics/analytics.go:55-57 | a new store is empty with the given bound |
| Analytics.Stamp | analytics/analytics.go:61-63 | a record without a time gets the clock's reading, and nothing else changes |
| Analytics.Record | analytics/analytics.go:60-71 | the stamped record is appended, and a bounded store keeps only its newest `max` records |
| Analytics.RecordAll | analytics/analytics.go:60-73 | recording a batch adds every record to an unbounded store, and fills a bounded store that is within its bound up to that bound |
| Analytics.RetainedCount | analytics/analytics.go:66-69 | a bounded store holds the smaller of the records given and its bound; an unbounded one holds all |
| Analytics.RetainsNewest | analytics/analytics.go:66-69 | the records held are the newest of those given, in arrival order |
| Analytics.UnboundedKeepsAll | analytics/analytics.go:66 | an unbounded store keeps every record in arrival order |
| Analytics.GroupKey | analytics/analytics.go:94-106 | grouping by prompt uses the id, by version `id@version`, and any unknown grouping "all" |
| Analytics.Members | analytics/analytics.go:81-106 | the members of a group are the matching records that fall in it |
| Analytics.Successes | analytics/analytics.go:112-114 | the successes never outnumber the runs |
| Analytics.AddRunSummarises | analytics/analytics.go:110-117 | folding one more run into a summary with the incremental mean gives the summary of the longer list |
| Analytics.Groups | analytics/analytics.go:107-118 | every group holds at least one run |
| Analytics.GroupsSummarise | analytics/analytics.go:80-118 | a group exists iff some matching record falls in it, and it counts its runs and successes, sums its tokens and averages its latency |
| Analytics.GroupsAllSummarise | analytics/analytics.go:80-118 | every group summarises its members |
| Analytics.EffectiveLimit | analytics/analytics.go:123-126 | a non-positive limit becomes 100 |
| Analytics.QueryAggregates | analytics/analytics.go:74-131 | the answer lists groups in walk order up to the limit, each summarising its members |
| Analytics.QueryReportsEveryGroup | analytics/analytics.go:119-130 | below the limit every group with a matching record is reported |
| Analytics.SuccessesBounded | analytics/analytics.go:111-114 | a group never counts more successes than runs |
| Analytics.UngroupedCountsAll | analytics/analytics.go:81-106 | without filters and with an unknown grouping every record falls in "all" |
| Optimizer.NewExperiment | optimizer/optimizer.go:37-39 | a new experiment has no variants, a 0.95 confidence and has not fired |
| Optimizer.AddVariant | optimizer/optimizer.go:42-49 | the variant is appended with zero counters, so the lists stay aligned |
| Optimizer.WithMinSampleSize | optimizer/optimizer.go:51-57 | sets the minimum sample size, changes nothing else and keeps the experiment's counters aligned |
| Optimizer.WithConfidenceLevel | optimizer/optimizer.go:59-65 | stores the confidence level, changes nothing else and keeps the counters aligned |
| Optimizer.WithOnWinner | optimizer/optimizer.go:67-73 | sets whether a winner callback is present, changes nothing else and keeps the counters aligned |
| Optimizer.RateInUnit | optimizer/optimizer.go:165 | a success rate lies within 0 and 1 |
| Optimizer.Best | optimizer/optimizer.go:159-173 | the leader is the first variant of highest rate among those with events, or none when no variant has events |
| Optimizer.WinnerLocked | optimizer/optimizer.go:158-186 | a winner exists iff there is a leader that beats every other variant with events |
| Optimizer.HasWinner | optimizer/optimizer.go:143-156 | true iff there are two variants, each sampled enough, and a winner |
| Optimizer.GetWinner | optimizer/optimizer.go:189-197 | the winner's name when there is one |
| Optimizer.FindVariant | optimizer/optimizer.go:121-122 | the first variant of the name, or none |
| Optimizer.Count | optimizer/optimizer.go:121-126 | the first variant of the name gets one more event, and one more success only on success; an unknown name changes nothing |
| Optimizer.RecordSuccessAsWritten | optimizer/optimizer.go:118-140 | the callback fires on a winner without the sample-size check |
| Optimizer.WinnerFiresBeforeSampleSize | optimizer/optimizer.go:116-140 | one success with a minimum sample of 100 already fires the callback while there is no winner |
| Optimizer.RecordSuccess | optimizer/optimizer.go:116-117 | the outcome is counted; the fired flag is set exactly when the callback fires, and never cleared |
| Optimizer.RecordSuccessFires | optimizer/optimizer.go:116-117 | the callback fires exactly when a known variant's outcome makes `HasWinner` true before it has fired and a callback is set, and it announces the leader |
| Optimizer.FiresAtMostOnce | optimizer/optimizer.go:127-135 | over any series of outcomes the callback fires at most once, and never after it has fired |
| Optimizer.SelectWeightedIndex | optimizer/optimizer.go:98-114 | a non-positive sum picks 0; otherwise the pick is in range and is the first index whose running sum reaches the draw |
| Optimizer.Execute | optimizer/optimizer.go:76-96 | no variants give nothing; otherwise a variant is rendered and named |
| Optimizer.Promote | optimizer/optimizer.go:200-209 | the prompt of the first variant of the name, or nil |
| Optimizer.Stats | optimizer/optimizer.go:212-224 | three aligned lists of names, successes and totals |
| Optimizer.UnknownVariantIgnored | optimizer/optimizer.go:118-140 | recording for an unknown name changes nothing |
| Optimizer.RecordCounts | optimizer/optimizer.go:121-126 | recording raises its variant's events by one and its successes by one exactly on success |
| Cost.CountTokens | cost/cost.go:29-38 | the smallest count with four code points per token, and 0 only for the empty text |
| Cost.CountsRunesNotBytes | cost/cost.go:29-38 | counting is by code point: four two-byte letters make one token |
| Cost.CountMonotone | cost/cost.go:29-38 | a longer text never counts fewer tokens |
| Cost.NewEstimator | cost/cost.go:51-62 | the simple counter unless an option replaces it, the last option winning |
| Cost.EstimateCost | cost/cost.go:65-74 | the input side is the counted system and user tokens priced per thousand, the output side the expected tokens priced per thousand, and the total their sum; `Cost.EstimateMatchesRecord` ties it to what `Record` charges and `Cost.EstimateMonotone` orders it by expected output |
| Cost.EstimateMatchesRecord | cost/cost.go:65-74 | an estimate at a model's registered prices costs exactly what recording the counted input tokens and the expected output tokens charges |
| Cost.EstimateMonotone | cost/cost.go:65-74 | with a non-negative output price, expecting more output tokens never lowers the estimate |
| Cost.DefaultEstimatorCounts | cost/cost.go:51-69 | a default estimator counts system and user text with the simple counter |
| Cost.ToUint64 | cost/cost.go:99-100 | converting to `uint64` is reduction modulo 2^64 |
| Cost.NewTracker | cost/cost.go:86-88 | a new tracker has no pricing and zero totals |
| Cost.RegisterModel | cost/cost.go:91-95 | the model's pricing is replaced and other models are untouched |
| Cost.Record | cost/cost.go:98-110 | tokens are always added, wrapping at 2^64; an unpriced model costs 0 and leaves the total cost alone |
| Cost.RecordAllTotals | cost/cost.go:98-110 | after a series, the input total is the sum of prompt tokens modulo 2^64 and the cost total is the cost of the priced events |
| Dashboard.Equal | cmd/dashboard/main.go:65-75 | true iff same length and the same byte at every position |
| Dashboard.IndexBytes | cmd/dashboard/main.go:56-63 | the first position where the pattern occurs, -1 iff none, and 0 for an empty pattern |
| Dashboard.FirstAtIsFirst | cmd/dashboard/main.go:56-63 | the reference search finds the first occurrence, and -1 exactly when there is none |
| Dashboard.BytesReplace | cmd/dashboard/main.go:42-54 | every non-overlapping occurrence is replaced left to right, and the length changes by the count times the length difference |
| Dashboard.ReplaceAllLength | cmd/dashboard/main.go:42-54 | each replacement changes the length by the difference of the lengths |
| Dashboard.NoOccurrenceCopies | cmd/dashboard/main.go:45-48 | without an occurrence the input comes back unchanged |
| Dashboard.ReplaceBySelf | cmd/dashboard/main.go:42-54 | replacing a pattern by itself changes nothing |
| Dashboard.PlaceholderReplaced | cmd/dashboard/main.go:34 | a page that is exactly the placeholder becomes the address |

## Left out

- Concurrency is left out: goroutines, channels, mutexes and atomics. Each operation runs as one atomic step. A parallel group's launched steps finish in an arbitrary order, given as a parameter.
- Floats are exact reals. This covers weights, rates, scores, average latencies and costs, so rounding is not modelled.
- Time and randomness are parameters: `time.Now`, `time.After`, `time.Tick` and `rand.Float64`. Each call sees a single clock reading.
- Go's `text/template` parsing and execution is an abstract function that may fail. This includes the `join`, `upper`, `lower`, `trim` and `json` functions; only `default` is modelled.
- The day and hour keys of analytics grouping come from `time.Format`. They are a parameter.
- The cache's JSON encoding and decoding are taken as the identity. So a decode failure, which falls through to the next provider, is not modelled.
- Caches other than the in-memory one are left out.
- `Metrics` shares its counters between every provider it wraps; each metrics layer here owns its counters.
- Middleware.Chain: a middleware value here stands for one constructor call applied once. A Go `Metrics` middleware keeps one `next` pointer, so applying it to a second provider reroutes the first wrapping, and applying it twice in one chain makes `next` point to itself, so every call recurses without end; neither is modelled. Cache layers built on one shared `Cache` read and write one store in Go, but each cache layer here holds its own copy of the store, so a response cached through one stack never answers another.
- Logging formats its lines with `%v`/`%+v`, and the breaker can be half-open under concurrent calls; neither is modelled.
- `%q` quoting of variable names in error messages is not modelled; the name is kept as it is.
- `fmt.Stringer` and `fmt.Sprint` coercion is a parameter of `CoerceToString`.
- Upper-casing maps ASCII and a few special letters only; the rest of Unicode case mapping is left out.
- `CountTokens` counts code points. Invalid UTF-8, which Go counts as one rune per bad byte, is not modelled.
- The analytics token sums do not model `int64` overflow.
- The breaker's request and failure counters do not model `uint64` wrap-around.
- `Expected.Evaluators` is carried but unused, as in the package.
- The wall-clock duration of a suite run is not modelled.
- The storage back ends of the registry and the analytics store are left out: files, Redis, Postgres and S3. So are the provider HTTP clients, the Kubernetes operator and the command-line programs.
- The z-test of `winnerLocked` is an abstract `Separation` predicate on the two rates and counts.
- `WithConfidenceLevel` stores a level that the winner test never reads: the code always uses 1.96.
- `Executor.Execute` models the executor's uncancellable sleep as a recorded list of delays.
- Provider.StreamToWriter: a failing write writes nothing of its chunk; Go's `io.Writer` may write some bytes before it returns the error.
- Middleware.Chain: requires every rate-limit middleware to have a positive limit, because building one with a non-positive limit makes Go panic.
- Chain.Execute: requires every render-only step to have a prompt, because rendering a nil prompt dereferences a nil pointer and the model has no outcome for that panic; the requirement also excludes chains whose prompt-less steps Go never renders, because their condition is false or an earlier step fails first.
- Optimizer.Execute: requires every variant to have a prompt, because rendering a nil prompt panics.
- Optimizer.Execute: states that some variant is rendered, not which one the draw picks; `SelectWeightedIndex` states that.
- Dashboard.BytesReplace: requires a non-empty pattern, because with an empty one the Go loop never ends.
- Suite.ActualOutput: states the render-only case; the executor case is the executor's outcome, stated by `Executor.Outcome` and `Executor.OutcomeAttempts`.
- Cost.EstimateCost: a nil rendered prompt, which makes Go panic, is not modelled.
- Executor.ExponentialBackoff: computes the corrected delay `min(base * 2^attempt, max)`, not Go's wrapping `int64` product, which with the defaults first wraps negative at attempt 35 and afterwards gives a negative delay, the cap or, from attempt 56 on, 0; `Executor.BackoffAsWritten` models the wrapping code (see Findings).
- Executor.New: its default backoff is the corrected capped delay, not the wrapping one (see Findings).
- Registry.Tag: keeps each version's tags under the pair of prompt id and version, not under the joined `id:version` string, which can collide (see Findings); `Registry.TagAsWritten` models the joined key.
- Registry.Delete: drops the tags of the deleted version by the same per-version key, so it never drops the tags of another prompt whose joined key collides (see Findings).
- Registry.List: its tag filter reads each version's tags by the per-version key, so a filter never matches a version through tags written for another prompt whose joined `id:version` key collides (see Findings); `Registry.TagsOfAsWritten` is the read by the joined key.
- Registry.ListVersions: reports each version's tags by the same per-version key, never tags written for a colliding joined key (see Findings).
- Optimizer.RecordSuccess: fires the winner callback when `HasWinner` becomes true, not on the z-test alone (see Findings); `Optimizer.WinnerFiresBeforeSampleSize` shows the written behaviour.

## Findings

| source | as written | input that shows it | evidently intended | confidence | as-written member | corrected member |
|---|---|---|---|---|---|---|
| executor/executor.go:26-34 | `base * Duration(2^attempt)` overflows `int64` for large attempts: with the defaults the delay first wraps negative at attempt 35, is negative or the cap at later attempts, and is 0 from attempt 56 on, so it no longer grows with the attempt (the same code is in chain/chain.go:283-291) | base 500ms, max 30s, attempt 35 gives -1266874889709551616ns | `min(base * 2^attempt, max)`, so the delay never shrinks and never exceeds the cap | high; not executed | Executor.BackoffOverflowExample | Executor.BackoffDelayMonotone |
| registry/memory.go:30-32 | tags are keyed by `id + ":" + version`, so distinct versions can share one tag list | tagging version "b:c" of prompt "a" also tags version "c" of prompt "a:b" | each version has its own tags | medium; not executed | Registry.TagKeyCollision | Registry.TagIsolated |
| optimizer/optimizer.go:118-140 | the winner callback fires as soon as the z-test passes, without the sample-size and variant-count checks of `HasWinner` | two variants, minimum sample 100, one success recorded for the first | the callback fires when `HasWinner` becomes true, as the comment at lines 116-117 says | medium; not executed | Optimizer.WinnerFiresBeforeSampleSize | Optimizer.RecordSuccessFires |

=== FILE: analytics.dfy ===
/** The in-memory run store of the analytics package (analytics/analytics.go):
    bounded retention of run records and grouped aggregate queries.
    Times are integers (nanoseconds), and 0 is the zero time; the calendar
    formatting of the day and hour keys is a parameter. */
module Analytics {
  import opened Wrappers

  type Time = int

  /** Go's zero `time.Time`, which means "unset" for a record and "no bound"
      for a query. */
  const ZeroTime: Time := 0

  /** `RunRecord`. */
  datatype RunRecord = RunRecord(
    promptId: string,
    version: string,
    latencyMs: int,
    inputTokens: int,
    outputTokens: int,
    success: bool,
    at: Time)

  /** `MemoryStore`: at most `max` records when `max > 0`, unbounded otherwise. */
  datatype MemoryStore = MemoryStore(max: int, records: seq<RunRecord>)

  function NewMemoryStore(max: int): (m: MemoryStore)
    ensures m.max == max && m.records == []
  {
    MemoryStore(max, [])
  }

  /** A record without a time gets the clock's `now`. */
  function Stamp(r: RunRecord, now: Time): (s: RunRecord)
    ensures s.at == (if r.at == ZeroTime then now else r.at)
    ensures s.(at := r.at) == r
  {
    if r.at == ZeroTime then r.(at := now) else r
  }

  function Min(a: int, b: int): int {
    if a <= b then a else b
  }

  /** `Record`: the stamped record is appended, and a bounded store then
      keeps only its newest `max` records, in arrival order. */
  function Record(m: MemoryStore, r: RunRecord, now: Time): (u: MemoryStore)
    ensures u.max == m.max
    ensures m.max <= 0 ==> u.records == m.records + [Stamp(r, now)]
    ensures m.max > 0 ==> |u.records| == Min(|m.records| + 1, m.max)
    ensures |u.records| <= |m.records| + 1
    ensures u.records == (m.records + [Stamp(r, now)])[|m.records| + 1 - |u.records|..]
    ensures u.records[|u.records| - 1] == Stamp(r, now)
  {
    var all := m.records + [Stamp(r, now)];
    if m.max > 0 && |all| > m.max then MemoryStore(m.max, all[|all| - m.max..])
    else MemoryStore(m.max, all)
  }

  /** Records `rs` one after another, all at clock reading `now`. */
  function RecordAll(m: MemoryStore, rs: seq<RunRecord>, now: Time): (u: MemoryStore)
    ensures u.max == m.max
    ensures m.max <= 0 ==> |u.records| == |m.records| + |rs|
    ensures 0 < m.max && |m.records| <= m.max ==> |u.records| == Min(|m.records| + |rs|, m.max)
    decreases |rs|
  {
    if |rs| == 0 then m else Record(RecordAll(m, rs[..|rs| - 1], now), rs[|rs| - 1], now)
  }

  function StampAll(rs: seq<RunRecord>, now: Time): (s: seq<RunRecord>)
    ensures |s| == |rs|
  {
    if |rs| == 0 then [] else StampAll(rs[..|rs| - 1], now) + [Stamp(rs[|rs| - 1], now)]
  }

  /** Record `i` of the stamped series is record `i`, stamped. */
  lemma {:induction false} StampAllAt(rs: seq<RunRecord>, now: Time, i: nat)
    requires i < |rs|
    ensures StampAll(rs, now)[i] == Stamp(rs[i], now)
  {
    if i < |rs| - 1 {
      StampAllAt(rs[..|rs| - 1], now, i);
    }
  }

  /** A suffix of `xs` followed by `x`, cut to a shorter suffix, is a
      suffix of `xs + [x]`. */
  lemma SuffixStep<T>(xs: seq<T>, held: seq<T>, x: T, next: seq<T>)
    requires |held| <= |xs| && held == xs[|xs| - |held|..]
    requires |next| <= |held| + 1 && next == (held + [x])[|held| + 1 - |next|..]
    ensures next == (xs + [x])[|xs| + 1 - |next|..]
  {
    assert held + [x] == (xs + [x])[|xs| - |held|..];
  }

  /** A bounded store holds `max` records once it has been given that
      many; an unbounded one holds every record it was given. */
  lemma {:induction false} RetainedCount(max: int, rs: seq<RunRecord>, now: Time)
    ensures max <= 0 ==> |RecordAll(NewMemoryStore(max), rs, now).records| == |rs|
    ensures max > 0 ==> |RecordAll(NewMemoryStore(max), rs, now).records| == Min(|rs|, max)
    decreases |rs|
  {
    if |rs| > 0 {
      var n := |rs|;
      RetainedCount(max, rs[..n - 1], now);
      var m0 := RecordAll(NewMemoryStore(max), rs[..n - 1], now);
      assert RecordAll(NewMemoryStore(max), rs, now) == Record(m0, rs[n - 1], now);
    }
  }

  /** `held` is the last `|held|` elements of `all`. */
  ghost predicate IsSuffix<T>(held: seq<T>, all: seq<T>) {
    |held| <= |all| && held == all[|all| - |held|..]
  }

  /** The records a store holds are the newest of those it was given,
      oldest first. */
  lemma {:induction false} RetainsNewest(max: int, rs: seq<RunRecord>, now: Time)
    ensures IsSuffix(RecordAll(NewMemoryStore(max), rs, now).records, StampAll(rs, now))
    decreases |rs|
  {
    if |rs| > 0 {
      RetainsNewest(max, rs[..|rs| - 1], now);
      RetainsNewestStep(NewMemoryStore(max), rs, now);
    } else {
      assert RecordAll(NewMemoryStore(max), rs, now).records == [];
    }
  }

  /** Recording one more run keeps the held records a suffix of the stamped
      series. */
  lemma RetainsNewestStep(m: MemoryStore, rs: seq<RunRecord>, now: Time)
    requires |rs| > 0
    requires IsSuffix(RecordAll(m, rs[..|rs| - 1], now).records, StampAll(rs[..|rs| - 1], now))
    ensures IsSuffix(RecordAll(m, rs, now).records, StampAll(rs, now))
  {
    var n := |rs|;
    var m0 := RecordAll(m, rs[..n - 1], now);
    var xs := StampAll(rs[..n - 1], now);
    RecordKeepsSuffix(m0, xs, rs[n - 1], now);
    assert RecordAll(m, rs, now) == Record(m0, rs[n - 1], now);
    assert StampAll(rs, now) == xs + [Stamp(rs[n - 1], now)];
  }

  /** Recording `r` keeps the held records a suffix of the series `xs`
      extended with `r` stamped. */
  lemma RecordKeepsSuffix(m0: MemoryStore, xs: seq<RunRecord>, r: RunRecord, now: Time)
    requires IsSuffix(m0.records, xs)
    ensures IsSuffix(Record(m0, r, now).records, xs + [Stamp(r, now)])
  {
    SuffixStep(xs, m0.records, Stamp(r, now), Record(m0, r, now).records);
  }

  /** An unbounded store holds every record it was given, in order. */
  lemma UnboundedKeepsAll(max: int, rs: seq<RunRecord>, now: Time)
    requires max <= 0
    ensures RecordAll(NewMemoryStore(max), rs, now).records == StampAll(rs, now)
  {
    RetainedCount(max, rs, now);
    RetainsNewest(max, rs, now);
  }

  /** `Query`. */
  datatype Query = Query(promptId: string, version: string, from: Time, to: Time, groupBy: string, limit: int)

  /** `Aggregate`; the running mean of the latencies is a real. */
  datatype Aggregate = Aggregate(
    key: string,
    runs: int,
    successCount: int,
    avgLatencyMs: real,
    totalInputTokens: int,
    totalOutputTokens: int)

  /** The calendar formatting of a time as a day ("2006-01-02") and as an
      hour ("2006-01-02-15"). */
  datatype TimeFormat = TimeFormat(day: Time -> string, hour: Time -> string)

  /** The filters of `Query`: an empty id or version and a zero bound do not
      filter; both time bounds are inclusive. */
  predicate Matches(q: Query, r: RunRecord) {
    (q.promptId == "" || r.promptId == q.promptId)
    && (q.version == "" || r.version == q.version)
    && (q.from == ZeroTime || r.at >= q.from)
    && (q.to == ZeroTime || r.at <= q.to)
  }

  /** The group a record falls in. */
  function GroupKey(q: Query, fmt: TimeFormat, r: RunRecord): (k: string)
    ensures q.groupBy == "prompt" ==> k == r.promptId
    ensures q.groupBy == "version" ==> k == r.promptId + "@" + r.version
    ensures q.groupBy !in {"prompt", "version", "day", "hour"} ==> k == "all"
  {
    match q.groupBy
    case "prompt" => r.promptId
    case "version" => r.promptId + "@" + r.version
    case "day" => fmt.day(r.at)
    case "hour" => fmt.hour(r.at)
    case _ => "all"
  }

  /** The records of group `k` that pass the filters, in store order. */
  function Members(rs: seq<RunRecord>, q: Query, fmt: TimeFormat, k: string): (g: seq<RunRecord>)
    ensures |g| <= |rs|
    decreases |rs|
  {
    if |rs| == 0 then []
    else
      var last := rs[|rs| - 1];
      Members(rs[..|rs| - 1], q, fmt, k) + if Matches(q, last) && GroupKey(q, fmt, last) == k then [last] else []
  }

  function Successes(rs: seq<RunRecord>): (n: nat)
    ensures n <= |rs|
  {
    if |rs| == 0 then 0 else Successes(rs[..|rs| - 1]) + if rs[|rs| - 1].success then 1 else 0
  }

  function SumLatency(rs: seq<RunRecord>): int {
    if |rs| == 0 then 0 else SumLatency(rs[..|rs| - 1]) + rs[|rs| - 1].latencyMs
  }

  function SumInput(rs: seq<RunRecord>): int {
    if |rs| == 0 then 0 else SumInput(rs[..|rs| - 1]) + rs[|rs| - 1].inputTokens
  }

  function SumOutput(rs: seq<RunRecord>): int {
    if |rs| == 0 then 0 else SumOutput(rs[..|rs| - 1]) + rs[|rs| - 1].outputTokens
  }

  /** `a` summarises the records `rs`: their count, successes, token sums,
      and a mean latency that times the count gives the latency sum. */
  predicate Summarises(a: Aggregate, rs: seq<RunRecord>) {
    a.runs == |rs| && a.successCount == Successes(rs)
    && a.avgLatencyMs * (|rs| as real) == SumLatency(rs) as real
    && a.totalInputTokens == SumInput(rs) && a.totalOutputTokens == SumOutput(rs)
  }

  /** One more run folded into an aggregate, the mean updated incrementally. */
  function AddRun(a: Aggregate, r: RunRecord): Aggregate
    requires a.runs >= 0
  {
    var runs := a.runs + 1;
    Aggregate(
      a.key, runs,
      a.successCount + if r.success then 1 else 0,
      (a.avgLatencyMs * (a.runs as real) + r.latencyMs as real) / (runs as real),
      a.totalInputTokens + r.inputTokens,
      a.totalOutputTokens + r.outputTokens)
  }

  lemma AddRunSummarises(a: Aggregate, rs: seq<RunRecord>, r: RunRecord)
    requires Summarises(a, rs)
    ensures Summarises(AddRun(a, r), rs + [r])
  {
    var rs' := rs + [r];
    assert rs'[..|rs'| - 1] == rs;
    var n := |rs| as real;
    var s := a.avgLatencyMs * n + r.latencyMs as real;
    assert s == SumLatency(rs') as real;
    assert AddRun(a, r).avgLatencyMs == s / (n + 1.0);
    assert (s / (n + 1.0)) * (n + 1.0) == s;
  }

  /** The aggregation loop of `Query`, one entry per group met. */
  function Groups(rs: seq<RunRecord>, q: Query, fmt: TimeFormat): (g: map<string, Aggregate>)
    ensures forall k :: k in g ==> g[k].runs > 0
    decreases |rs|
  {
    if |rs| == 0 then map[]
    else
      var prev := Groups(rs[..|rs| - 1], q, fmt);
      var r := rs[|rs| - 1];
      if !Matches(q, r) then prev
      else
        var k := GroupKey(q, fmt, r);
        var a := if k in prev then prev[k] else Aggregate(k, 0, 0, 0.0, 0, 0);
        prev[k := AddRun(a, r)]
  }

  /** A group exists iff some matching record falls in it, and it holds the
      summary of exactly those records. */
  lemma {:induction false} GroupsSummarise(rs: seq<RunRecord>, q: Query, fmt: TimeFormat, k: string)
    ensures k in Groups(rs, q, fmt) <==> |Members(rs, q, fmt, k)| > 0
    ensures k in Groups(rs, q, fmt) ==> Groups(rs, q, fmt)[k].key == k
    ensures k in Groups(rs, q, fmt) ==> Summarises(Groups(rs, q, fmt)[k], Members(rs, q, fmt, k))
    decreases |rs|
  {
    if |rs| > 0 {
      var init := rs[..|rs| - 1];
      var r := rs[|rs| - 1];
      GroupsSummarise(init, q, fmt, k);
      var prev := Groups(init, q, fmt);
      var m := Members(init, q, fmt, k);
      if Matches(q, r) && GroupKey(q, fmt, r) == k {
        assert Members(rs, q, fmt, k) == m + [r];
        var a := if k in prev then prev[k] else Aggregate(k, 0, 0, 0.0, 0, 0);
        assert Summarises(a, m);
        AddRunSummarises(a, m, r);
      } else {
        assert Members(rs, q, fmt, k) == m;
      }
    }
  }

  /** The group keys, each once, in the order the map is walked. */
  predicate Enumerates(order: seq<string>, keys: set<string>) {
    (forall i :: 0 <= i < |order| ==> order[i] in keys)
    && (forall k :: k in keys ==> k in order)
    && forall i, j :: 0 <= i < j < |order| ==> order[i] != order[j]
  }

  /** A limit of zero or less means 100. */
  function EffectiveLimit(limit: int): (n: int)
    ensures n > 0
    ensures limit > 0 ==> n == limit
  {
    if limit <= 0 then 100 else limit
  }

  /** `Query`, with the map walked in the arbitrary order `order`: the
      aggregates of the first groups met, at most the limit of them. */
  function QueryAggregates(m: MemoryStore, q: Query, fmt: TimeFormat, order: seq<string>): (out: seq<Aggregate>)
    requires Enumerates(order, Groups(m.records, q, fmt).Keys)
    ensures |out| == Min(|order|, EffectiveLimit(q.limit))
    ensures forall i :: 0 <= i < |out| ==> out[i].key == order[i]
    ensures forall i :: 0 <= i < |out| ==> out[i].key in Groups(m.records, q, fmt)
    ensures forall i :: 0 <= i < |out| ==> Summarises(out[i], Members(m.records, q, fmt, out[i].key))
  {
    var g := Groups(m.records, q, fmt);
    var n := Min(|order|, EffectiveLimit(q.limit));
    GroupsAllSummarise(m.records, q, fmt);
    seq(n, i requires 0 <= i < n => g[order[i]])
  }

  /** `GroupsSummarise` for every group at once. */
  lemma GroupsAllSummarise(rs: seq<RunRecord>, q: Query, fmt: TimeFormat)
    ensures forall k :: k in Groups(rs, q, fmt) ==>
      Groups(rs, q, fmt)[k].key == k && Summarises(Groups(rs, q, fmt)[k], Members(rs, q, fmt, k))
  {
    forall k | k in Groups(rs, q, fmt)
      ensures Groups(rs, q, fmt)[k].key == k && Summarises(Groups(rs, q, fmt)[k], Members(rs, q, fmt, k))
    {
      GroupsSummarise(rs, q, fmt, k);
    }
  }

  /** When the limit is not reached, every group with a matching record is
      reported. */
  lemma QueryReportsEveryGroup(m: MemoryStore, q: Query, fmt: TimeFormat, order: seq<string>, k: string)
    requires Enumerates(order, Groups(m.records, q, fmt).Keys)
    requires |order| <= EffectiveLimit(q.limit)
    requires |Members(m.records, q, fmt, k)| > 0
    ensures exists i :: 0 <= i < |QueryAggregates(m, q, fmt, order)| && QueryAggregates(m, q, fmt, order)[i].key == k
  {
    GroupsSummarise(m.records, q, fmt, k);
    var i :| 0 <= i < |order| && order[i] == k;
    assert QueryAggregates(m, q, fmt, order)[i].key == k;
  }

  /** A group never counts more successes than runs. */
  lemma SuccessesBounded(a: Aggregate, rs: seq<RunRecord>)
    requires Summarises(a, rs)
    ensures 0 <= a.successCount <= a.runs
  {
  }

  /** Without filters and with an unknown grouping, all records fall in the
      single group "all". */
  lemma {:induction false} UngroupedCountsAll(rs: seq<RunRecord>, fmt: TimeFormat, groupBy: string)
    requires groupBy !in {"prompt", "version", "day", "hour"}
    ensures Members(rs, Query("", "", ZeroTime, ZeroTime, groupBy, 0), fmt, "all") == rs
    decreases |rs|
  {
    if |rs| > 0 {
      UngroupedCountsAll(rs[..|rs| - 1], fmt, groupBy);
      assert rs[..|rs| - 1] + [rs[|rs| - 1]] == rs;
    }
  }
}

=== FILE: chain.dfy ===
/** Multi-step prompt chains (chain/chain.go): sequential steps whose outputs
    feed the following steps' input, parallel groups whose outputs are merged,
    per-step retries with backoff, fallback prompts and conditions. */
module Chain {
  import opened Wrappers
  import opened Errors
  import opened Variables
  import opened Prompts
  import opened Template
  import opened Provider
  import opened Executor

  /** `ChainResult`; `None` stands for a nil output map. */
  datatype ChainResult = ChainResult(outputs: Option<map<string, string>>)

  /** `Get`: a step's output, or the empty string for an unknown step or a nil map. */
  function Get(c: ChainResult, step: string): (r: string)
    ensures c.outputs.Some? && step in c.outputs.value ==> r == c.outputs.value[step]
    ensures c.outputs.None? || step !in c.outputs.value ==> r == ""
  {
    if c.outputs.None? || step !in c.outputs.value then "" else c.outputs.value[step]
  }

  /** `All`: a copy of the outputs (nil for a nil map). */
  function All(c: ChainResult): (r: Option<map<string, string>>)
    ensures r.None? <==> c.outputs.None?
    ensures r.Some? ==> forall k :: k in r.value <==> Get(c, k) != "" || (c.outputs.Some? && k in c.outputs.value)
    ensures r.Some? ==> forall k :: k in r.value ==> r.value[k] == Get(c, k)
  {
    c.outputs
  }

  type Condition = ChainResult -> bool

  /** A step (`stepDef`, and the exported `StepDef` it is copied from field by
      field); nil prompts and functions are `None`. */
  datatype StepDef = StepDef(
    name: string,
    prompt: Option<Prompt>,
    maxRetries: int,
    backoff: Option<BackoffFunc>,
    timeout: int,
    fallback: Option<Prompt>,
    condition: Option<Condition>)

  datatype StepOption =
    | WithRetry(maxRetries: int, backoff: Option<BackoffFunc>)
    | WithTimeout(d: int)
    | WithFallback(p: Option<Prompt>)
    | WithCondition(cond: Option<Condition>)

  function ApplyStepOption(s: StepDef, o: StepOption): (r: StepDef)
    ensures r.name == s.name && r.prompt == s.prompt
    ensures r.maxRetries == (if o.WithRetry? then o.maxRetries else s.maxRetries)
    ensures r.backoff == (if o.WithRetry? then o.backoff else s.backoff)
    ensures r.timeout == (if o.WithTimeout? then o.d else s.timeout)
    ensures r.fallback == (if o.WithFallback? then o.p else s.fallback)
    ensures r.condition == (if o.WithCondition? then o.cond else s.condition)
  {
    match o
    case WithRetry(n, b) => s.(maxRetries := n, backoff := b)
    case WithTimeout(d) => s.(timeout := d)
    case WithFallback(p) => s.(fallback := p)
    case WithCondition(cond) => s.(condition := cond)
  }

  predicate IsRetry(o: StepOption) { o.WithRetry? }
  predicate IsTimeout(o: StepOption) { o.WithTimeout? }
  predicate IsFallback(o: StepOption) { o.WithFallback? }
  predicate IsCondition(o: StepOption) { o.WithCondition? }

  /** The options applied in order: for each field the last option that sets
      it wins, and a field no option sets keeps its value. */
  function ApplyStepOptions(s: StepDef, opts: seq<StepOption>): (r: StepDef)
    ensures r.name == s.name && r.prompt == s.prompt
    ensures var k := LastWhere(opts, IsRetry);
      if k.None? then r.maxRetries == s.maxRetries && r.backoff == s.backoff
      else r.maxRetries == opts[k.value].maxRetries && r.backoff == opts[k.value].backoff
    ensures var k := LastWhere(opts, IsTimeout);
      if k.None? then r.timeout == s.timeout else r.timeout == opts[k.value].d
    ensures var k := LastWhere(opts, IsFallback);
      if k.None? then r.fallback == s.fallback else r.fallback == opts[k.value].p
    ensures var k := LastWhere(opts, IsCondition);
      if k.None? then r.condition == s.condition else r.condition == opts[k.value].cond
    decreases |opts|
  {
    if |opts| == 0 then s
    else ApplyStepOption(ApplyStepOptions(s, opts[..|opts| - 1]), opts[|opts| - 1])
  }

  /** `ChainStep` (and the step `Step` adds): no retries, no timeout, no
      fallback and no condition unless an option sets them; otherwise the
      last option that sets a field decides it. */
  function ChainStep(name: string, p: Option<Prompt>, opts: seq<StepOption>): (s: StepDef)
    ensures s.name == name && s.prompt == p
    ensures var k := LastWhere(opts, IsRetry);
      if k.None? then s.maxRetries == 0 && s.backoff.None?
      else s.maxRetries == opts[k.value].maxRetries && s.backoff == opts[k.value].backoff
    ensures var k := LastWhere(opts, IsTimeout);
      if k.None? then s.timeout == 0 else s.timeout == opts[k.value].d
    ensures var k := LastWhere(opts, IsFallback);
      if k.None? then s.fallback.None? else s.fallback == opts[k.value].p
    ensures var k := LastWhere(opts, IsCondition);
      if k.None? then s.condition.None? else s.condition == opts[k.value].cond
  {
    ApplyStepOptions(StepDef(name, p, 0, None, 0, None, None), opts)
  }

  /** A single step, or a parallel group. */
  datatype Node = Node(parallel: bool, steps: seq<StepDef>)

  datatype Chain = Chain(name: string, nodes: seq<Node>, exec: Option<Executor>, defaultModel: string)

  /** `NewChain`: a named chain with no nodes, no executor (so every step
      is render-only) and no default model. */
  function NewChain(name: string): (c: Chain)
    ensures c.name == name && c.nodes == [] && c.exec.None? && c.defaultModel == ""
  {
    Chain(name, [], None, "")
  }

  /** `WithExecutor`: sets the executor; nothing else changes. */
  function WithExecutor(c: Chain, e: Option<Executor>): (r: Chain)
    ensures r.exec == e && r.(exec := c.exec) == c
  {
    c.(exec := e)
  }

  /** `WithDefaultModel`: sets the model steps ask for; nothing else changes. */
  function WithDefaultModel(c: Chain, model: string): (r: Chain)
    ensures r.defaultModel == model && r.(defaultModel := c.defaultModel) == c
  {
    c.(defaultModel := model)
  }

  /** `Step`: appends a sequential node with the one step. */
  function Step(c: Chain, name: string, p: Option<Prompt>, opts: seq<StepOption>): (r: Chain)
    ensures r.nodes == c.nodes + [Node(false, [ChainStep(name, p, opts)])]
    ensures r.(nodes := c.nodes) == c
  {
    c.(nodes := c.nodes + [Node(false, [ChainStep(name, p, opts)])])
  }

  /** `Parallel`: appends a parallel node; an empty group adds nothing. */
  function Parallel(c: Chain, steps: seq<StepDef>): (r: Chain)
    ensures |steps| == 0 ==> r == c
    ensures |steps| > 0 ==> r.nodes == c.nodes + [Node(true, steps)] && r.(nodes := c.nodes) == c
  {
    if |steps| == 0 then c else c.(nodes := c.nodes + [Node(true, steps)])
  }

  // ---------------------------------------------------------------------------
  // Running steps

  /** Step `step` of node `node`. */
  datatype StepId = StepId(node: nat, step: nat)

  /** An executor call of a step: its attempt, and whether it is the fallback. */
  datatype CallId = CallId(id: StepId, attempt: nat, fallback: bool)

  /** The world a chain runs in.  `ctxAt` is the context as a call sees it;
      `provider` answers each executor call's provider requests; `wake` is the
      backoff `select` after a failed attempt (`Some(ctx.Err())` when the
      context wins over the timer); `order` is the order in which the
      goroutines of a parallel node deliver their results. */
  datatype Env = Env(
    ctxAt: CallId -> Ctx,
    renderCtx: StepId -> Ctx,
    provider: CallId -> Completer,
    wake: (StepId, nat) -> Option<Error>,
    order: (nat, nat) -> seq<nat>)

  /** `order` lists each of `0 .. n-1` exactly once. */
  predicate IsArrivalOrder(order: seq<nat>, n: nat) {
    |order| == n
    && (forall i :: 0 <= i < |order| ==> order[i] < n)
    && (forall i :: 0 <= i < n ==> i in order)
    && (forall i, j :: 0 <= i < j < |order| ==> order[i] != order[j])
  }

  ghost predicate ValidOrders(env: Env) {
    forall node: nat, n: nat :: IsArrivalOrder(env.order(node, n), n)
  }

  /** The step runs by rendering only: there is no executor, or its retry count
      is negative so the retry loop never starts. */
  predicate RenderOnly(c: Chain, s: StepDef) {
    c.exec.None? || s.maxRetries < 0
  }

  /** Rendering a nil prompt dereferences a nil pointer, so every step that is
      rendered only must have a prompt. */
  predicate PromptsPresent(c: Chain) {
    forall i, j :: 0 <= i < |c.nodes| && 0 <= j < |c.nodes[i].steps| && RenderOnly(c, c.nodes[i].steps[j]) ==>
      c.nodes[i].steps[j].prompt.Some?
  }

  /** The executor request of a step: its prompt, the current input, the
      chain's default model (the empty string leaves the executor's default)
      and the step's timeout. */
  function StepRequest(c: Chain, s: StepDef, input: Input): (req: ExecuteRequest)
    ensures req.prompt == s.prompt && req.input == input && req.model == c.defaultModel && req.timeout == s.timeout
  {
    ExecuteRequest(s.prompt, input, c.defaultModel, 0.0, 0, [], s.timeout)
  }

  /** The executor's answer to one call of a step. */
  function CallOutcome(c: Chain, env: Env, call: CallId, req: ExecuteRequest): Result<ExecuteResult, Error>
    requires c.exec.Some?
  {
    Outcome(c.exec.value, env.ctxAt(call), req, env.provider(call)).result
  }

  /** The retry loop of `runStep` from attempt `k` to attempt `last`, given
      what the main call of each attempt answers (`main`), whether the backoff
      wait after a failed attempt is cut short by the context (`cut`, the
      context's error) and what the fallback's call answers (`None` without a
      fallback).  The fallback is tried only after the last attempt, and its
      failure reports the main call's error. */
  function RetryLoop(main: nat -> Result<string, Error>, cut: nat -> Option<Error>,
                     fallback: Option<Result<string, Error>>, last: nat, k: nat): Result<string, Error>
    requires k <= last
    decreases last - k
  {
    if main(k).Success? then main(k)
    else if k == last then
      if fallback.None? then main(k)
      else if fallback.value.Failure? then Failure(Wrap("step and fallback failed", main(k).error))
      else fallback.value
    else if cut(k).Some? then Failure(cut(k).value)
    else RetryLoop(main, cut, fallback, last, k + 1)
  }

  /** Started at attempt `k`, the loop gets to attempt `j`: every main call
      before it failed and no backoff wait between them was cut short. */
  predicate Reached(main: nat -> Result<string, Error>, cut: nat -> Option<Error>, last: nat, k: nat, j: nat)
    decreases j - k
  {
    k <= j <= last
    && (k < j ==> main(k).Failure? && cut(k).None? && Reached(main, cut, last, k + 1, j))
  }

  /** The attempt at which the loop started at `k` stops: the first whose main
      call succeeds, whose wait is cut short, or the last. */
  function StopAt(main: nat -> Result<string, Error>, cut: nat -> Option<Error>, last: nat, k: nat): (j: nat)
    requires k <= last
    ensures Reached(main, cut, last, k, j)
    ensures main(j).Success? || j == last || cut(j).Some?
    decreases last - k
  {
    if main(k).Success? || k == last || cut(k).Some? then k else StopAt(main, cut, last, k + 1)
  }

  /** Having reached attempt `j`, the loop's result is the one it has from `j`. */
  lemma {:induction false} LoopFromReached(main: nat -> Result<string, Error>, cut: nat -> Option<Error>,
                                           fallback: Option<Result<string, Error>>, last: nat, k: nat, j: nat)
    requires Reached(main, cut, last, k, j)
    ensures RetryLoop(main, cut, fallback, last, k) == RetryLoop(main, cut, fallback, last, j)
    decreases j - k
  {
    if k < j {
      LoopFromReached(main, cut, fallback, last, k + 1, j);
    }
  }

  /** The loop succeeds exactly when some reached attempt's main call
      succeeds, or every main call fails and the fallback succeeds.  A reached
      successful main call is the first one (every attempt before it failed),
      and its answer is the loop's; on failure every reached main call failed.
      A wait cut short ends the loop with the context's error, and when the
      last attempt is reached and fails, the fallback decides. */
  lemma LoopSpec(main: nat -> Result<string, Error>, cut: nat -> Option<Error>,
                 fallback: Option<Result<string, Error>>, last: nat, k: nat)
    requires k <= last
    ensures RetryLoop(main, cut, fallback, last, k).Success? <==>
      (exists j: nat :: Reached(main, cut, last, k, j) && main(j).Success?)
      || (Reached(main, cut, last, k, last) && fallback.Some? && fallback.value.Success?)
    ensures forall j: nat :: Reached(main, cut, last, k, j) && main(j).Success? ==>
      RetryLoop(main, cut, fallback, last, k) == main(j)
    ensures RetryLoop(main, cut, fallback, last, k).Failure? ==>
      forall j: nat :: Reached(main, cut, last, k, j) ==> main(j).Failure?
    ensures forall j: nat :: Reached(main, cut, last, k, j) && j < last && main(j).Failure? && cut(j).Some? ==>
      RetryLoop(main, cut, fallback, last, k) == Failure(cut(j).value)
    ensures Reached(main, cut, last, k, last) && main(last).Failure? ==>
      RetryLoop(main, cut, fallback, last, k) ==
        if fallback.None? then main(last)
        else if fallback.value.Failure? then Failure(Wrap("step and fallback failed", main(last).error))
        else fallback.value
  {
    forall j: nat | Reached(main, cut, last, k, j)
      ensures RetryLoop(main, cut, fallback, last, k) == RetryLoop(main, cut, fallback, last, j)
    {
      LoopFromReached(main, cut, fallback, last, k, j);
    }
    var stop := StopAt(main, cut, last, k);
    LoopFromReached(main, cut, fallback, last, k, stop);
  }

  /** What attempt `j`'s main call of the step answers: the content, or the error. */
  function MainAnswers(c: Chain, env: Env, id: StepId, s: StepDef, input: Input): nat -> Result<string, Error>
    requires c.exec.Some?
  {
    (j: nat) => Answer(CallOutcome(c, env, CallId(id, j, false), StepRequest(c, s, input)))
  }

  /** The context's error when it ends the backoff wait after attempt `j`;
      without a backoff there is no wait to cut short. */
  function Cuts(env: Env, id: StepId, s: StepDef): nat -> Option<Error> {
    (j: nat) => if s.backoff.Some? then env.wake(id, j) else None
  }

  /** What the fallback's call at the last attempt answers, if there is a fallback. */
  function FallbackAnswer(c: Chain, env: Env, id: StepId, s: StepDef, input: Input): Option<Result<string, Error>>
    requires c.exec.Some? && s.maxRetries >= 0
  {
    if s.fallback.None? then None
    else Some(Answer(CallOutcome(c, env, CallId(id, s.maxRetries, true), StepRequest(c, s, input).(prompt := s.fallback))))
  }

  /** An executor result's content, or its error. */
  function Answer(r: Result<ExecuteResult, Error>): (a: Result<string, Error>)
    ensures a.Success? <==> r.Success?
    ensures a.Success? ==> a.value == r.value.content
    ensures a.Failure? ==> a.error == r.error
  {
    if r.Success? then Success(r.value.content) else Failure(r.error)
  }

  /** The retry loop of `runStep` from attempt `k` on. */
  function StepAttempts(c: Chain, env: Env, id: StepId, s: StepDef, input: Input, k: nat): Result<string, Error>
    requires c.exec.Some? && k <= s.maxRetries
  {
    RetryLoop(MainAnswers(c, env, id, s, input), Cuts(env, id, s), FallbackAnswer(c, env, id, s, input), s.maxRetries, k)
  }

  /** `runStep`: the executor with retries and fallback, or rendering only. */
  function RunStep(c: Chain, env: Env, id: StepId, s: StepDef, input: Input): (r: Result<string, Error>)
    requires RenderOnly(c, s) ==> s.prompt.Some?
    ensures RenderOnly(c, s) && RenderPrompt(s.prompt.value, env.renderCtx(id), input).Success? ==>
              r == Success(RenderPrompt(s.prompt.value, env.renderCtx(id), input).value.user)
    ensures RenderOnly(c, s) && RenderPrompt(s.prompt.value, env.renderCtx(id), input).Failure? ==>
              r == Failure(RenderPrompt(s.prompt.value, env.renderCtx(id), input).error)
  {
    if !RenderOnly(c, s) then StepAttempts(c, env, id, s, input, 0)
    else
      var rendered := RenderPrompt(s.prompt.value, env.renderCtx(id), input);
      if rendered.Failure? then Failure(rendered.error) else Success(rendered.value.user)
  }

  /** With an executor, the step succeeds exactly when some attempt it
      reaches has a successful main call, or all fail and the fallback
      succeeds; its output is then the first successful main call's content,
      and on failure every attempt it reached failed. */
  lemma RunStepAttempts(c: Chain, env: Env, id: StepId, s: StepDef, input: Input)
    requires !RenderOnly(c, s)
    ensures var main := MainAnswers(c, env, id, s, input);
      var cut := Cuts(env, id, s);
      var fb := FallbackAnswer(c, env, id, s, input);
      var r := RunStep(c, env, id, s, input);
      (r.Success? <==>
        (exists j: nat :: Reached(main, cut, s.maxRetries, 0, j) && main(j).Success?)
        || (Reached(main, cut, s.maxRetries, 0, s.maxRetries) && fb.Some? && fb.value.Success?))
      && (forall j: nat :: Reached(main, cut, s.maxRetries, 0, j) && main(j).Success? ==> r == main(j))
      && (r.Failure? ==> forall j: nat :: Reached(main, cut, s.maxRetries, 0, j) ==> main(j).Failure?)
  {
    LoopSpec(MainAnswers(c, env, id, s, input), Cuts(env, id, s), FallbackAnswer(c, env, id, s, input), s.maxRetries, 0);
  }

  /** When every attempt fails without its wait being cut short, the
      fallback decides: its output if it succeeds, otherwise an error wrapping
      the last main call's error (not the fallback's); a wait cut short ends
      the step with the context's error, unwrapped. */
  lemma RunStepEnds(c: Chain, env: Env, id: StepId, s: StepDef, input: Input)
    requires !RenderOnly(c, s)
    ensures var main := MainAnswers(c, env, id, s, input);
      var cut := Cuts(env, id, s);
      var fb := FallbackAnswer(c, env, id, s, input);
      var r := RunStep(c, env, id, s, input);
      (Reached(main, cut, s.maxRetries, 0, s.maxRetries) && main(s.maxRetries).Failure? ==>
        r == if fb.None? then main(s.maxRetries)
             else if fb.value.Failure? then Failure(Wrap("step and fallback failed", main(s.maxRetries).error))
             else fb.value)
      && (forall j: nat :: Reached(main, cut, s.maxRetries, 0, j) && j < s.maxRetries && main(j).Failure? && cut(j).Some? ==>
            r == Failure(cut(j).value))
  {
    LoopSpec(MainAnswers(c, env, id, s, input), Cuts(env, id, s), FallbackAnswer(c, env, id, s, input), s.maxRetries, 0);
  }

  // ---------------------------------------------------------------------------
  // Parallel groups

  /** The condition lets the step run against the current result. */
  predicate Enabled(s: StepDef, result: ChainResult) {
    s.condition.None? || s.condition.value(result)
  }

  /** The indices of the steps whose goroutine is started, in order. */
  function Launched(steps: seq<StepDef>, result: ChainResult): (ix: seq<nat>)
    ensures forall i :: 0 <= i < |ix| ==> ix[i] < |steps| && Enabled(steps[ix[i]], result)
    ensures forall j :: 0 <= j < |steps| && Enabled(steps[j], result) ==> j in ix
    ensures forall i, j :: 0 <= i < j < |ix| ==> ix[i] < ix[j]
    decreases |steps|
  {
    if |steps| == 0 then []
    else
      var rest := Launched(steps[..|steps| - 1], result);
      assert forall i :: 0 <= i < |steps| - 1 ==> steps[..|steps| - 1][i] == steps[i];
      if Enabled(steps[|steps| - 1], result) then rest + [|steps| - 1] else rest
  }

  /** What a goroutine sends: the step's name and its outcome. */
  datatype Pair = Pair(name: string, val: Result<string, Error>)

  /** The `i`-th arrival is the first failure, with error `e`. */
  predicate FirstFailure(pairs: seq<Pair>, order: seq<nat>, i: int, e: Error)
    requires forall i :: 0 <= i < |order| ==> order[i] < |pairs|
  {
    0 <= i < |order| && pairs[order[i]].val == Failure(e)
    && forall j :: 0 <= j < i ==> pairs[order[j]].val.Success?
  }

  /** The draining loop of `runParallel`: results in arrival order; the first
      error ends it, and a later result for the same name overwrites an
      earlier one. */
  function Drain(pairs: seq<Pair>, order: seq<nat>): (r: Result<map<string, string>, Error>)
    requires forall i :: 0 <= i < |order| ==> order[i] < |pairs|
    ensures r.Failure? <==> exists i :: 0 <= i < |order| && pairs[order[i]].val.Failure?
    ensures r.Failure? ==> exists i :: FirstFailure(pairs, order, i, r.error)
    ensures r.Success? ==> forall k :: k in r.value <==> exists i :: 0 <= i < |order| && pairs[order[i]].name == k
    decreases |order|
  {
    if |order| == 0 then Success(map[])
    else
      var p := pairs[order[0]];
      if p.val.Failure? then
        assert FirstFailure(pairs, order, 0, p.val.error);
        Failure(p.val.error)
      else
        var rest := Drain(pairs, order[1..]);
        assert forall i :: 1 <= i < |order| ==> order[i] == order[1..][i - 1];
        if rest.Failure? then
          var i :| FirstFailure(pairs, order[1..], i, rest.error);
          assert FirstFailure(pairs, order, i + 1, rest.error);
          rest
        else Success(map[p.name := p.val.value] + rest.value)
  }

  /** With distinct names and no failure, each name gets its own step's
      output whatever the arrival order: the merge of a parallel group does not
      depend on scheduling. */
  lemma {:induction false} DrainOrderIndependent(pairs: seq<Pair>, order: seq<nat>, i: nat)
    requires forall j :: 0 <= j < |order| ==> order[j] < |pairs|
    requires forall a, b :: 0 <= a < b < |pairs| ==> pairs[a].name != pairs[b].name
    requires forall j :: 0 <= j < |order| ==> pairs[order[j]].val.Success?
    requires i < |pairs| && i in order
    ensures Drain(pairs, order).Success?
    ensures pairs[i].name in Drain(pairs, order).value
    ensures Drain(pairs, order).value[pairs[i].name] == pairs[i].val.value
    decreases |order|
  {
    var tail := order[1..];
    assert forall j :: 0 <= j < |tail| ==> tail[j] == order[j + 1];
    if i in tail {
      DrainOrderIndependent(pairs, tail, i);
    } else {
      assert order[0] == i;
      var rest := Drain(pairs, tail);
      assert Drain(pairs, order) == if rest.Failure? then rest else Success(map[pairs[i].name := pairs[i].val.value] + rest.value);
      forall j | 0 <= j < |tail|
        ensures pairs[tail[j]].name != pairs[i].name
      {
        assert tail[j] != i;
      }
      assert pairs[i].name !in rest.value;
    }
  }

  /** The outcomes the goroutines of a parallel node send, in launch order. */
  function Outcomes(c: Chain, env: Env, node: nat, steps: seq<StepDef>, input: Input, ix: seq<nat>): (pairs: seq<Pair>)
    requires forall i :: 0 <= i < |ix| ==> ix[i] < |steps|
    requires forall j :: 0 <= j < |steps| && RenderOnly(c, steps[j]) ==> steps[j].prompt.Some?
    ensures |pairs| == |ix|
    ensures forall i :: 0 <= i < |ix| ==> pairs[i] == Pair(steps[ix[i]].name, RunStep(c, env, StepId(node, ix[i]), steps[ix[i]], input))
  {
    seq(|ix|, i requires 0 <= i < |ix| =>
      Pair(steps[ix[i]].name, RunStep(c, env, StepId(node, ix[i]), steps[ix[i]], input)))
  }

  /** `runParallel`: the enabled steps all run against the same input and
      result, and their outcomes are drained in arrival order.  A failed step's
      error comes back as it is, without the step's name. */
  function RunParallel(c: Chain, env: Env, node: nat, steps: seq<StepDef>, input: Input, result: ChainResult): (r: Result<map<string, string>, Error>)
    requires ValidOrders(env)
    requires forall j :: 0 <= j < |steps| && RenderOnly(c, steps[j]) ==> steps[j].prompt.Some?
    ensures var ix := Launched(steps, result);
      r.Failure? <==> exists i :: 0 <= i < |ix| && RunStep(c, env, StepId(node, ix[i]), steps[ix[i]], input).Failure?
    ensures r.Success? ==> forall k :: k in r.value <==>
      exists j :: 0 <= j < |steps| && Enabled(steps[j], result) && steps[j].name == k
  {
    var ix := Launched(steps, result);
    var pairs := Outcomes(c, env, node, steps, input, ix);
    var order := env.order(node, |ix|);
    assert IsArrivalOrder(order, |ix|);
    RunParallelFacts(c, env, node, steps, input, result, ix, pairs, order);
    Drain(pairs, order)
  }

  /** Drained in any arrival order, the outcomes fail exactly when one of
      them failed, and otherwise every name is in the merged map. */
  lemma DrainArrival(pairs: seq<Pair>, order: seq<nat>)
    requires IsArrivalOrder(order, |pairs|)
    ensures Drain(pairs, order).Failure? <==> exists i :: 0 <= i < |pairs| && pairs[i].val.Failure?
    ensures Drain(pairs, order).Success? ==>
              forall k :: k in Drain(pairs, order).value <==> exists i :: 0 <= i < |pairs| && pairs[i].name == k
  {
    var r := Drain(pairs, order);
    if r.Success? {
      forall k | exists i :: 0 <= i < |pairs| && pairs[i].name == k
        ensures k in r.value
      {
        var i :| 0 <= i < |pairs| && pairs[i].name == k;
        assert i in order;
        var a :| 0 <= a < |order| && order[a] == i;
        assert pairs[order[a]].name == k;
      }
      forall i | 0 <= i < |pairs|
        ensures pairs[i].val.Success?
      {
        assert i in order;
        var a :| 0 <= a < |order| && order[a] == i;
        assert pairs[order[a]].val.Success?;
      }
    }
  }

  lemma RunParallelFacts(c: Chain, env: Env, node: nat, steps: seq<StepDef>, input: Input, result: ChainResult,
                         ix: seq<nat>, pairs: seq<Pair>, order: seq<nat>)
    requires forall j :: 0 <= j < |steps| && RenderOnly(c, steps[j]) ==> steps[j].prompt.Some?
    requires ix == Launched(steps, result)
    requires pairs == Outcomes(c, env, node, steps, input, ix)
    requires IsArrivalOrder(order, |ix|)
    ensures Drain(pairs, order).Failure? <==>
      exists i :: 0 <= i < |ix| && RunStep(c, env, StepId(node, ix[i]), steps[ix[i]], input).Failure?
    ensures Drain(pairs, order).Success? ==> forall k :: k in Drain(pairs, order).value <==>
      exists j :: 0 <= j < |steps| && Enabled(steps[j], result) && steps[j].name == k
  {
    DrainArrival(pairs, order);
    RunParallelFails(c, env, node, steps, input, ix, pairs);
    if Drain(pairs, order).Success? {
      RunParallelNames(steps, result, ix, pairs, Drain(pairs, order).value);
    }
  }

  lemma RunParallelFails(c: Chain, env: Env, node: nat, steps: seq<StepDef>, input: Input, ix: seq<nat>, pairs: seq<Pair>)
    requires forall i :: 0 <= i < |ix| ==> ix[i] < |steps|
    requires forall j :: 0 <= j < |steps| && RenderOnly(c, steps[j]) ==> steps[j].prompt.Some?
    requires pairs == Outcomes(c, env, node, steps, input, ix)
    ensures (exists i :: 0 <= i < |pairs| && pairs[i].val.Failure?) <==>
      exists i :: 0 <= i < |ix| && RunStep(c, env, StepId(node, ix[i]), steps[ix[i]], input).Failure?
  {
    if exists i :: 0 <= i < |pairs| && pairs[i].val.Failure? {
      var i :| 0 <= i < |pairs| && pairs[i].val.Failure?;
      assert RunStep(c, env, StepId(node, ix[i]), steps[ix[i]], input).Failure?;
    }
    if exists i :: 0 <= i < |ix| && RunStep(c, env, StepId(node, ix[i]), steps[ix[i]], input).Failure? {
      var i :| 0 <= i < |ix| && RunStep(c, env, StepId(node, ix[i]), steps[ix[i]], input).Failure?;
      assert pairs[i].val.Failure?;
    }
  }

  lemma RunParallelNames(steps: seq<StepDef>, result: ChainResult, ix: seq<nat>, pairs: seq<Pair>, m: map<string, string>)
    requires ix == Launched(steps, result)
    requires |pairs| == |ix| && forall i :: 0 <= i < |ix| ==> pairs[i].name == steps[ix[i]].name
    requires forall k :: k in m <==> exists i :: 0 <= i < |pairs| && pairs[i].name == k
    ensures forall k :: k in m <==> exists j :: 0 <= j < |steps| && Enabled(steps[j], result) && steps[j].name == k
  {
    forall k | k in m
      ensures exists j :: 0 <= j < |steps| && Enabled(steps[j], result) && steps[j].name == k
    {
      var i :| 0 <= i < |pairs| && pairs[i].name == k;
      assert steps[ix[i]].name == k;
    }
    forall j | 0 <= j < |steps| && Enabled(steps[j], result)
      ensures steps[j].name in m
    {
      var i :| 0 <= i < |ix| && ix[i] == j;
      assert pairs[i].name == steps[j].name;
    }
  }

  /** The steps of a group all run on one snapshot of the input: when the
      steps' names are distinct, a successful group's output for each enabled
      step is that step's own run on the group's input, whatever its siblings
      answer and in whatever order they finish. */
  lemma RunParallelValues(c: Chain, env: Env, node: nat, steps: seq<StepDef>, input: Input, result: ChainResult, j: nat)
    requires ValidOrders(env)
    requires forall j :: 0 <= j < |steps| && RenderOnly(c, steps[j]) ==> steps[j].prompt.Some?
    requires forall a, b :: 0 <= a < b < |steps| ==> steps[a].name != steps[b].name
    requires j < |steps| && Enabled(steps[j], result)
    requires RunParallel(c, env, node, steps, input, result).Success?
    ensures RunStep(c, env, StepId(node, j), steps[j], input).Success?
    ensures steps[j].name in RunParallel(c, env, node, steps, input, result).value
    ensures RunParallel(c, env, node, steps, input, result).value[steps[j].name] ==
      RunStep(c, env, StepId(node, j), steps[j], input).value
  {
    var ix := Launched(steps, result);
    var pairs := Outcomes(c, env, node, steps, input, ix);
    var order := env.order(node, |ix|);
    assert IsArrivalOrder(order, |ix|);
    assert RunParallel(c, env, node, steps, input, result) == Drain(pairs, order);
    var i :| 0 <= i < |ix| && ix[i] == j;
    forall a | 0 <= a < |order|
      ensures pairs[order[a]].val.Success?
    {
      assert RunStep(c, env, StepId(node, ix[order[a]]), steps[ix[order[a]]], input).Success?;
    }
    forall a, b | 0 <= a < b < |pairs|
      ensures pairs[a].name != pairs[b].name
    {
      assert ix[a] < ix[b];
    }
    assert i in order;
    DrainOrderIndependent(pairs, order, i);
  }

  // ---------------------------------------------------------------------------
  // Running the chain

  /** The input overlaid with the outputs: what the next step sees. */
  function Overlay(input: Input, outputs: map<string, string>): (cur: Input)
    ensures cur.Keys == input.Keys + outputs.Keys
    ensures forall k :: k in outputs ==> cur[k] == Str(outputs[k])
    ensures forall k :: k in input && k !in outputs ==> cur[k] == input[k]
  {
    map k | k in input.Keys + outputs.Keys :: if k in outputs then Str(outputs[k]) else input[k]
  }

  /** The names of the chain's steps. */
  predicate IsStepName(c: Chain, k: string) {
    exists i, j :: 0 <= i < |c.nodes| && 0 <= j < |c.nodes[i].steps| && c.nodes[i].steps[j].name == k
  }

  /** No node of the chain is a parallel group. */
  predicate Sequential(c: Chain) {
    forall i :: 0 <= i < |c.nodes| ==> !c.nodes[i].parallel
  }

  /** `e` is the error of step `k` of the chain wrapped with its name. */
  predicate WrapsStep(c: Chain, k: string, e: Error) {
    IsStepName(c, k) && e.Wrap? && e.prefix == "chain step " + Quote(k)
  }

  // The chain's run as a fold over its nodes and steps: the reference that
  // `Execute` computes.

  /** Runs `step` for `0 .. n-1` in order on a map of outputs, from `start`;
      the first error ends the run. */
  function Fold(step: (nat, map<string, string>) -> Result<map<string, string>, Error>, start: map<string, string>, n: nat): Result<map<string, string>, Error>
    decreases n
  {
    if n == 0 then Success(start)
    else
      var before := Fold(step, start, n - 1);
      if before.Failure? then before else step(n - 1, before.value)
  }

  /** Once a step has failed, no later step runs. */
  lemma {:induction false} FoldStops(step: (nat, map<string, string>) -> Result<map<string, string>, Error>, start: map<string, string>, k: nat, m: nat)
    requires k <= m && Fold(step, start, k).Failure?
    ensures Fold(step, start, m) == Fold(step, start, k)
    decreases m
  {
    if k < m {
      FoldStops(step, start, k, m - 1);
    }
  }

  /** Every successful step keeps the names it was given. */
  ghost predicate KeepsNames(step: (nat, map<string, string>) -> Result<map<string, string>, Error>) {
    forall i: nat, o: map<string, string> :: step(i, o).Success? ==> o.Keys <= step(i, o).value.Keys
  }

  /** With steps that keep names, a name present after `k` steps is present
      after `m`, if those succeed. */
  lemma {:induction false} FoldGrows(step: (nat, map<string, string>) -> Result<map<string, string>, Error>, start: map<string, string>, k: nat, m: nat)
    requires KeepsNames(step) && k <= m && Fold(step, start, m).Success?
    ensures Fold(step, start, k).Success?
    ensures Fold(step, start, k).value.Keys <= Fold(step, start, m).value.Keys
    decreases m
  {
    if k < m {
      FoldGrows(step, start, k, m - 1);
    }
  }

  /** A failed run failed at some step it reached. */
  lemma {:induction false} FoldFirstFailure(step: (nat, map<string, string>) -> Result<map<string, string>, Error>, start: map<string, string>, m: nat)
    requires Fold(step, start, m).Failure?
    ensures exists i: nat :: (i < m && Fold(step, start, i).Success?
      && step(i, Fold(step, start, i).value) == Fold(step, start, m))
    decreases m
  {
    var before := Fold(step, start, m - 1);
    if before.Failure? {
      FoldFirstFailure(step, start, m - 1);
    } else {
      assert step(m - 1, before.value) == Fold(step, start, m);
    }
  }

  /** How the chain's steps answer: `run(i, j, input)` is step `j` of node `i`
      run on `input`, and `group(i, input, result)` is parallel node `i` run on
      `input` against the result so far. */
  datatype Runners = Runners(
    run: (nat, nat, Input) -> Result<string, Error>,
    group: (nat, Input, ChainResult) -> Result<map<string, string>, Error>)

  /** The chain's own runners: `runStep` and `runParallel` in `env`.  Indices
      outside the chain are never asked for; they answer an empty output. */
  function RunnersOf(c: Chain, env: Env): Runners
    requires ValidOrders(env) && PromptsPresent(c)
  {
    Runners(
      (i: nat, j: nat, inp: Input) =>
        if i < |c.nodes| && j < |c.nodes[i].steps| then RunStep(c, env, StepId(i, j), c.nodes[i].steps[j], inp)
        else Success(""),
      (i: nat, inp: Input, res: ChainResult) =>
        if i < |c.nodes| then RunParallel(c, env, i, c.nodes[i].steps, inp, res) else Success(map[]))
  }

  /** A property of the outputs that every successful step keeps holds
      after any number of steps, if they succeed. */
  lemma {:induction false} FoldKeeps(step: (nat, map<string, string>) -> Result<map<string, string>, Error>, start: map<string, string>, m: nat,
                                     p: map<string, string> -> bool)
    requires p(start)
    requires forall i: nat, o: map<string, string> :: p(o) && step(i, o).Success? ==> p(step(i, o).value)
    ensures Fold(step, start, m).Success? ==> p(Fold(step, start, m).value)
    decreases m
  {
    if m > 0 {
      FoldKeeps(step, start, m - 1, p);
    }
  }

  /** Step `j` of sequential node `i` on the outputs so far: a step whose
      condition does not hold is skipped; otherwise it runs on the input
      overlaid with the outputs, and its output is written under its name
      (over any earlier one), or its error, wrapped with its name, ends the
      chain. */
  function StepEffect(c: Chain, rs: Runners, input: Input, i: nat, j: nat, outputs: map<string, string>): Result<map<string, string>, Error>
    requires i < |c.nodes| && j < |c.nodes[i].steps|
  {
    var s := c.nodes[i].steps[j];
    if !Enabled(s, ChainResult(Some(outputs))) then Success(outputs)
    else
      var out := rs.run(i, j, Overlay(input, outputs));
      if out.Failure? then Failure(Wrap("chain step " + Quote(s.name), out.error))
      else Success(outputs[s.name := out.value])
  }

  /** The steps of sequential node `i`, as a fold's step function. */
  function StepsOf(c: Chain, rs: Runners, input: Input, i: nat): (nat, map<string, string>) -> Result<map<string, string>, Error>
    requires i < |c.nodes|
  {
    (j: nat, o: map<string, string>) => if j < |c.nodes[i].steps| then StepEffect(c, rs, input, i, j, o) else Success(o)
  }

  /** The first `j` steps of sequential node `i`, started on `outputs`. */
  function AfterSteps(c: Chain, rs: Runners, input: Input, i: nat, outputs: map<string, string>, j: nat): Result<map<string, string>, Error>
    requires i < |c.nodes|
  {
    Fold(StepsOf(c, rs, input, i), outputs, j)
  }

  /** Node `i` on the outputs so far: a parallel group runs on the input
      overlaid with them, its outputs are merged over them, and its error ends
      the chain as it is; a sequential node runs its steps in order. */
  function RunNode(c: Chain, rs: Runners, input: Input, i: nat, outputs: map<string, string>): Result<map<string, string>, Error>
    requires i < |c.nodes|
  {
    if c.nodes[i].parallel then
      var group := rs.group(i, Overlay(input, outputs), ChainResult(Some(outputs)));
      if group.Failure? then Failure(group.error) else Success(outputs + group.value)
    else AfterSteps(c, rs, input, i, outputs, |c.nodes[i].steps|)
  }

  /** The chain's nodes, as a fold's step function. */
  function NodesOf(c: Chain, rs: Runners, input: Input): (nat, map<string, string>) -> Result<map<string, string>, Error> {
    (i: nat, o: map<string, string>) => if i < |c.nodes| then RunNode(c, rs, input, i, o) else Success(o)
  }

  /** The first `i` nodes, started with no outputs. */
  function AfterNodes(c: Chain, rs: Runners, input: Input, i: nat): Result<map<string, string>, Error> {
    Fold(NodesOf(c, rs, input), map[], i)
  }

  /** The whole chain in `env`: its outputs, or the error that ended it. */
  function ChainRun(c: Chain, env: Env, input: Input): Result<map<string, string>, Error>
    requires ValidOrders(env) && PromptsPresent(c)
  {
    AfterNodes(c, RunnersOf(c, env), input, |c.nodes|)
  }

  /** The steps of a node keep the names they are given. */
  lemma StepsKeepNames(c: Chain, rs: Runners, input: Input, i: nat)
    requires i < |c.nodes|
    ensures KeepsNames(StepsOf(c, rs, input, i))
  {
  }

  /** A node run that succeeds keeps every name it started with, and so do
      the chain's nodes. */
  lemma NodesKeepNames(c: Chain, rs: Runners, input: Input)
    ensures KeepsNames(NodesOf(c, rs, input))
  {
    forall i: nat, o: map<string, string> | NodesOf(c, rs, input)(i, o).Success?
      ensures o.Keys <= NodesOf(c, rs, input)(i, o).value.Keys
    {
      if i < |c.nodes| && !c.nodes[i].parallel {
        StepsKeepNames(c, rs, input, i);
        FoldGrows(StepsOf(c, rs, input, i), o, 0, |c.nodes[i].steps|);
      }
    }
  }

  /** Step `j` of sequential node `i` is reached, seeing outputs `o`: the
      nodes before it and the steps before it in its node succeeded. */
  predicate StepReached(c: Chain, rs: Runners, input: Input, i: nat, j: nat, o: map<string, string>) {
    i < |c.nodes| && !c.nodes[i].parallel && j < |c.nodes[i].steps|
    && AfterNodes(c, rs, input, i).Success?
    && AfterSteps(c, rs, input, i, AfterNodes(c, rs, input, i).value, j) == Success(o)
  }

  /** A reached step whose condition does not hold is not run, whatever it
      would answer, and writes nothing. */
  lemma SkippedStepWritesNothing(c: Chain, rs: Runners, rs2: Runners, input: Input, i: nat, j: nat, o: map<string, string>)
    requires StepReached(c, rs, input, i, j, o)
    requires !Enabled(c.nodes[i].steps[j], ChainResult(Some(o)))
    ensures AfterSteps(c, rs, input, i, AfterNodes(c, rs, input, i).value, j + 1) == Success(o)
    ensures StepEffect(c, rs2, input, i, j, o) == Success(o)
  {
  }

  /** A reached enabled step that succeeds writes its output under its name,
      over any earlier output of that name, and keeps every other output. */
  lemma RanStepWrites(c: Chain, rs: Runners, input: Input, i: nat, j: nat, o: map<string, string>)
    requires StepReached(c, rs, input, i, j, o)
    requires Enabled(c.nodes[i].steps[j], ChainResult(Some(o)))
    requires rs.run(i, j, Overlay(input, o)).Success?
    ensures var after := AfterSteps(c, rs, input, i, AfterNodes(c, rs, input, i).value, j + 1);
      after.Success? && c.nodes[i].steps[j].name in after.value
      && after.value[c.nodes[i].steps[j].name] == rs.run(i, j, Overlay(input, o)).value
      && forall k :: k in o && k != c.nodes[i].steps[j].name ==> k in after.value && after.value[k] == o[k]
  {
  }

  /** A reached enabled step that fails ends the chain: no later step or node
      runs, and the chain's error is the step's, wrapped with its name. */
  lemma FailedStepEndsChain(c: Chain, rs: Runners, input: Input, i: nat, j: nat, o: map<string, string>)
    requires StepReached(c, rs, input, i, j, o)
    requires Enabled(c.nodes[i].steps[j], ChainResult(Some(o)))
    requires rs.run(i, j, Overlay(input, o)).Failure?
    ensures AfterNodes(c, rs, input, |c.nodes|) ==
      Failure(Wrap("chain step " + Quote(c.nodes[i].steps[j].name), rs.run(i, j, Overlay(input, o)).error))
  {
    var start := AfterNodes(c, rs, input, i).value;
    FoldStops(StepsOf(c, rs, input, i), start, j + 1, |c.nodes[i].steps|);
    assert AfterNodes(c, rs, input, i + 1) == AfterSteps(c, rs, input, i, start, |c.nodes[i].steps|);
    FoldStops(NodesOf(c, rs, input), map[], i + 1, |c.nodes|);
  }

  /** A step that ran in a successful chain succeeded, and its name is among
      the chain's outputs. */
  lemma RanStepListed(c: Chain, rs: Runners, input: Input, i: nat, j: nat, o: map<string, string>)
    requires StepReached(c, rs, input, i, j, o)
    requires Enabled(c.nodes[i].steps[j], ChainResult(Some(o)))
    requires AfterNodes(c, rs, input, |c.nodes|).Success?
    ensures rs.run(i, j, Overlay(input, o)).Success?
    ensures c.nodes[i].steps[j].name in AfterNodes(c, rs, input, |c.nodes|).value
  {
    RanStepSucceeded(c, rs, input, i, j, o);
    NodesKeepNames(c, rs, input);
    FoldGrows(NodesOf(c, rs, input), map[], i + 1, |c.nodes|);
    RanStepInNode(c, rs, input, i, j, o);
  }

  /** In a successful chain every step that ran succeeded. */
  lemma RanStepSucceeded(c: Chain, rs: Runners, input: Input, i: nat, j: nat, o: map<string, string>)
    requires StepReached(c, rs, input, i, j, o)
    requires Enabled(c.nodes[i].steps[j], ChainResult(Some(o)))
    requires AfterNodes(c, rs, input, |c.nodes|).Success?
    ensures rs.run(i, j, Overlay(input, o)).Success?
  {
    if rs.run(i, j, Overlay(input, o)).Failure? {
      FailedStepEndsChain(c, rs, input, i, j, o);
    }
  }

  /** A step that ran and succeeded has its name among its node's outputs,
      when the node succeeds. */
  lemma RanStepInNode(c: Chain, rs: Runners, input: Input, i: nat, j: nat, o: map<string, string>)
    requires StepReached(c, rs, input, i, j, o)
    requires Enabled(c.nodes[i].steps[j], ChainResult(Some(o)))
    requires rs.run(i, j, Overlay(input, o)).Success?
    requires AfterNodes(c, rs, input, i + 1).Success?
    ensures c.nodes[i].steps[j].name in AfterNodes(c, rs, input, i + 1).value
  {
    var start := AfterNodes(c, rs, input, i).value;
    RanStepWrites(c, rs, input, i, j, o);
    assert AfterNodes(c, rs, input, i + 1) == AfterSteps(c, rs, input, i, start, |c.nodes[i].steps|);
    StepsKeepNames(c, rs, input, i);
    FoldGrows(StepsOf(c, rs, input, i), start, j + 1, |c.nodes[i].steps|);
  }

  /** A chain without parallel groups fails exactly when one of the steps it
      reaches is enabled and fails (the converse is `FailedStepEndsChain`),
      and its error is that step's, wrapped with the step's name. */
  lemma SequentialFailure(c: Chain, rs: Runners, input: Input)
    requires Sequential(c)
    requires AfterNodes(c, rs, input, |c.nodes|).Failure?
    ensures exists i: nat, j: nat, o :: (StepReached(c, rs, input, i, j, o)
      && Enabled(c.nodes[i].steps[j], ChainResult(Some(o)))
      && rs.run(i, j, Overlay(input, o)).Failure?
      && AfterNodes(c, rs, input, |c.nodes|).error ==
           Wrap("chain step " + Quote(c.nodes[i].steps[j].name), rs.run(i, j, Overlay(input, o)).error))
  {
    var nodes := NodesOf(c, rs, input);
    FoldFirstFailure(nodes, map[], |c.nodes|);
    var i: nat :| i < |c.nodes| && Fold(nodes, map[], i).Success?
      && nodes(i, Fold(nodes, map[], i).value) == Fold(nodes, map[], |c.nodes|);
    var start := Fold(nodes, map[], i).value;
    assert !c.nodes[i].parallel;
    var steps := StepsOf(c, rs, input, i);
    FoldFirstFailure(steps, start, |c.nodes[i].steps|);
    var j: nat :| j < |c.nodes[i].steps| && Fold(steps, start, j).Success?
      && steps(j, Fold(steps, start, j).value) == Fold(steps, start, |c.nodes[i].steps|);
    var o := Fold(steps, start, j).value;
    assert StepReached(c, rs, input, i, j, o);
  }

  /** A parallel group that the chain reaches and that fails ends the chain
      with the group's error, unwrapped; one that succeeds merges its outputs
      over the earlier ones. */
  lemma GroupEffect(c: Chain, rs: Runners, input: Input, i: nat)
    requires i < |c.nodes| && c.nodes[i].parallel && AfterNodes(c, rs, input, i).Success?
    ensures var o := AfterNodes(c, rs, input, i).value;
      var group := rs.group(i, Overlay(input, o), ChainResult(Some(o)));
      (group.Failure? ==> AfterNodes(c, rs, input, |c.nodes|) == Failure(group.error))
      && (group.Success? ==> AfterNodes(c, rs, input, i + 1) == Success(o + group.value))
  {
    var o := AfterNodes(c, rs, input, i).value;
    if rs.group(i, Overlay(input, o), ChainResult(Some(o))).Failure? {
      FoldStops(NodesOf(c, rs, input), map[], i + 1, |c.nodes|);
    }
  }

  /** The steps of sequential node `i` in order, from the outputs so far: a
      step whose condition fails is skipped, one that runs writes its output
      under its name, and the first failure ends the node with the step's
      error wrapped with its name. */
  method RunSequentialNode(c: Chain, rs: Runners, input: Input, i: nat, start: map<string, string>)
    returns (r: Result<map<string, string>, Error>)
    requires i < |c.nodes|
    ensures r == AfterSteps(c, rs, input, i, start, |c.nodes[i].steps|)
  {
    var steps := c.nodes[i].steps;
    var outputs := start;
    var cur := Overlay(input, outputs);
    var j := 0;
    while j < |steps|
      invariant 0 <= j <= |steps|
      invariant cur == Overlay(input, outputs)
      invariant AfterSteps(c, rs, input, i, start, j) == Success(outputs)
    {
      var s := steps[j];
      if Enabled(s, ChainResult(Some(outputs))) {
        var out := rs.run(i, j, cur);
        if out.Failure? {
          FoldStops(StepsOf(c, rs, input, i), start, j + 1, |steps|);
          return Failure(Wrap("chain step " + Quote(s.name), out.error));
        }
        outputs := outputs[s.name := out.value];
        cur := Overlay(input, outputs);
      }
      j := j + 1;
    }
    return Success(outputs);
  }

  /** The loop of `Chain.Execute`, with the steps and groups answering as
      `rs` says: every node sees the input overlaid with the outputs of the
      steps before it; a failing sequential step's error is wrapped with the
      step's name, a failing parallel group's error is not; any failure
      discards the outputs.  `finalInput` is the input the steps left behind. */
  method ExecuteWith(c: Chain, rs: Runners, input: Input) returns (r: Result<ChainResult, Error>, finalInput: Input)
    ensures r.Success? <==> AfterNodes(c, rs, input, |c.nodes|).Success?
    ensures r.Success? ==> r.value == ChainResult(Some(AfterNodes(c, rs, input, |c.nodes|).value))
    ensures r.Success? ==> finalInput == Overlay(input, AfterNodes(c, rs, input, |c.nodes|).value)
    ensures r.Failure? ==> r.error == AfterNodes(c, rs, input, |c.nodes|).error
  {
    var outputs: map<string, string> := map[];
    var cur := Overlay(input, outputs);
    var i := 0;
    while i < |c.nodes|
      invariant 0 <= i <= |c.nodes|
      invariant cur == Overlay(input, outputs)
      invariant AfterNodes(c, rs, input, i) == Success(outputs)
    {
      var n := c.nodes[i];
      if n.parallel {
        var group := rs.group(i, cur, ChainResult(Some(outputs)));
        GroupEffect(c, rs, input, i);
        if group.Failure? {
          return Failure(group.error), cur;
        }
        outputs := outputs + group.value;
        cur := Overlay(input, outputs);
      } else {
        var node := RunSequentialNode(c, rs, input, i, outputs);
        assert AfterNodes(c, rs, input, i + 1) == node;
        if node.Failure? {
          FoldStops(NodesOf(c, rs, input), map[], i + 1, |c.nodes|);
          return Failure(node.error), cur;
        }
        outputs := node.value;
        cur := Overlay(input, outputs);
      }
      i := i + 1;
    }
    return Success(ChainResult(Some(outputs))), cur;
  }

  /** `Chain.Execute`: the loop with `runStep` and `runParallel` in `env`; it
      computes the fold `ChainRun`. */
  method Execute(c: Chain, env: Env, input: Input) returns (r: Result<ChainResult, Error>, finalInput: Input)
    requires ValidOrders(env) && PromptsPresent(c)
    ensures r.Success? <==> ChainRun(c, env, input).Success?
    ensures r.Success? ==> r.value == ChainResult(Some(ChainRun(c, env, input).value))
    ensures r.Success? ==> finalInput == Overlay(input, ChainRun(c, env, input).value)
    ensures r.Failure? ==> r.error == ChainRun(c, env, input).error
  {
    r, finalInput := ExecuteWith(c, RunnersOf(c, env), input);
  }

  /** The chain's runners run each step with `runStep` and each group with
      `runParallel`. */
  lemma RunnersAnswer(c: Chain, env: Env, i: nat, j: nat, inp: Input, res: ChainResult)
    requires ValidOrders(env) && PromptsPresent(c) && i < |c.nodes|
    ensures j < |c.nodes[i].steps| ==>
      RunnersOf(c, env).run(i, j, inp) == RunStep(c, env, StepId(i, j), c.nodes[i].steps[j], inp)
    ensures RunnersOf(c, env).group(i, inp, res) == RunParallel(c, env, i, c.nodes[i].steps, inp, res)
  {
  }

  /** Every output of a successful chain is named by one of its steps. */
  lemma ChainOutputsNamed(c: Chain, env: Env, input: Input)
    requires ValidOrders(env) && PromptsPresent(c)
    requires ChainRun(c, env, input).Success?
    ensures forall k :: k in ChainRun(c, env, input).value ==> IsStepName(c, k)
  {
    var rs := RunnersOf(c, env);
    var named := (o: map<string, string>) => forall k :: k in o ==> IsStepName(c, k);
    forall i: nat, o: map<string, string> | named(o) && NodesOf(c, rs, input)(i, o).Success?
      ensures named(NodesOf(c, rs, input)(i, o).value)
    {
      if i < |c.nodes| {
        NodeNamed(c, env, input, i, o);
      }
    }
    FoldKeeps(NodesOf(c, rs, input), map[], |c.nodes|, named);
  }

  /** A node run keeps the outputs named by steps of the chain. */
  lemma NodeNamed(c: Chain, env: Env, input: Input, i: nat, o: map<string, string>)
    requires ValidOrders(env) && PromptsPresent(c) && i < |c.nodes|
    requires forall k :: k in o ==> IsStepName(c, k)
    requires RunNode(c, RunnersOf(c, env), input, i, o).Success?
    ensures forall k :: k in RunNode(c, RunnersOf(c, env), input, i, o).value ==> IsStepName(c, k)
  {
    var rs := RunnersOf(c, env);
    var named := (m: map<string, string>) => forall k :: k in m ==> IsStepName(c, k);
    if c.nodes[i].parallel {
      var g := rs.group(i, Overlay(input, o), ChainResult(Some(o)));
      forall k | k in g.value
        ensures IsStepName(c, k)
      {
        var j :| 0 <= j < |c.nodes[i].steps| && Enabled(c.nodes[i].steps[j], ChainResult(Some(o))) && c.nodes[i].steps[j].name == k;
      }
    } else {
      forall j: nat, m: map<string, string> | named(m) && StepsOf(c, rs, input, i)(j, m).Success?
        ensures named(StepsOf(c, rs, input, i)(j, m).value)
      {
        if j < |c.nodes[i].steps| {
          assert IsStepName(c, c.nodes[i].steps[j].name);
        }
      }
      FoldKeeps(StepsOf(c, rs, input, i), o, |c.nodes[i].steps|, named);
    }
  }
}

=== FILE: cost.dfy ===
/** Token counting and cost bookkeeping (cost/cost.go).  Texts are sequences
    of code points, so a rune count is a length; prices are reals. */
module Cost {
  import opened Wrappers
  import opened Strings
  import opened Prompts
  import opened Provider

  /** `SimpleCounter.CountTokens`: a quarter of the code points, rounded up,
      and 0 for the empty text. */
  function CountTokens(text: string): (n: nat)
    ensures n == 0 <==> |text| == 0
    ensures 4 * n >= |text| && 4 * (n - 1) < |text|
  {
    if |text| == 0 then 0 else (|text| + 3) / 4
  }

  /** Tokens are counted per code point, not per UTF-8 byte: four
      two-byte letters make one token, not two. */
  lemma CountsRunesNotBytes()
    ensures Utf8Len("éééé") == 8
    ensures CountTokens("éééé") == 1
  {
  }

  /** Counting is monotone in the text length. */
  lemma CountMonotone(a: string, b: string)
    requires |a| <= |b|
    ensures CountTokens(a) <= CountTokens(b)
  {
  }

  /** A `TokenCounter`; `None` is a nil counter. */
  type Counter = Option<string -> int>

  /** `Estimator`. */
  datatype Estimator = Estimator(model: string, inputPer1K: real, outputPer1K: real, counter: Counter)

  datatype EstimatorOption = WithTokenCounter(tc: Counter)

  /** `NewEstimator`: the simple counter unless an option replaces it; the
      last option wins. */
  function NewEstimator(model: string, inputPer1K: real, outputPer1K: real, opts: seq<EstimatorOption>): (e: Estimator)
    ensures e.model == model && e.inputPer1K == inputPer1K && e.outputPer1K == outputPer1K
    ensures |opts| == 0 ==> e.counter == Some((t: string) => CountTokens(t))
    ensures |opts| > 0 ==> e.counter == opts[|opts| - 1].tc
    decreases |opts|
  {
    if |opts| == 0 then Estimator(model, inputPer1K, outputPer1K, Some((t: string) => CountTokens(t)))
    else NewEstimator(model, inputPer1K, outputPer1K, opts[..|opts| - 1]).(counter := opts[|opts| - 1].tc)
  }

  /** The tokens `Estimate` counts for a rendered prompt. */
  function InputTokens(e: Estimator, r: Rendered): int {
    match e.counter
    case None => 0
    case Some(count) => count(r.system) + count(r.user)
  }

  datatype Estimate = Estimate(inputCost: real, outputCost: real, totalUSD: real)

  /** `Estimate`: each side priced per thousand tokens, and their sum. */
  function EstimateCost(e: Estimator, r: Rendered, expectedOutputTokens: int): (c: Estimate)
    ensures c.totalUSD == c.inputCost + c.outputCost
    ensures c.inputCost == (InputTokens(e, r) as real / 1000.0) * e.inputPer1K
    ensures c.outputCost == (expectedOutputTokens as real / 1000.0) * e.outputPer1K
  {
    var input := (InputTokens(e, r) as real / 1000.0) * e.inputPer1K;
    var output := (expectedOutputTokens as real / 1000.0) * e.outputPer1K;
    Estimate(input, output, input + output)
  }

  /** A default estimator counts the system and the user text with the
      simple counter. */
  lemma DefaultEstimatorCounts(model: string, inputPer1K: real, outputPer1K: real, r: Rendered)
    ensures InputTokens(NewEstimator(model, inputPer1K, outputPer1K, []), r) == CountTokens(r.system) + CountTokens(r.user)
  {
  }

  const TwoTo64: int := 0x1_0000_0000_0000_0000

  /** Go's `uint64(x)` of an int: the value modulo 2^64. */
  function ToUint64(x: int): (u: int)
    ensures 0 <= u < TwoTo64
    ensures 0 <= x < TwoTo64 ==> u == x
  {
    x % TwoTo64
  }

  datatype Pricing = Pricing(inPer1K: real, outPer1K: real)

  /** `Tracker`: the token totals are unsigned 64-bit counters. */
  datatype Tracker = Tracker(
    totalInputTokens: int,
    totalOutputTokens: int,
    totalCostUSD: real,
    pricing: map<string, Pricing>)

  predicate ValidTracker(t: Tracker) {
    0 <= t.totalInputTokens < TwoTo64 && 0 <= t.totalOutputTokens < TwoTo64
  }

  function NewTracker(): (t: Tracker)
    ensures ValidTracker(t) && t.pricing == map[]
  {
    Tracker(0, 0, 0.0, map[])
  }

  /** `RegisterModel`: replaces any earlier pricing of the model. */
  function RegisterModel(t: Tracker, model: string, inPer1K: real, outPer1K: real): (r: Tracker)
    ensures model in r.pricing && r.pricing[model] == Pricing(inPer1K, outPer1K)
    ensures forall m :: m != model ==> (m in r.pricing <==> m in t.pricing)
    ensures forall m :: m != model && m in t.pricing ==> r.pricing[m] == t.pricing[m]
    ensures r.(pricing := t.pricing) == t
  {
    t.(pricing := t.pricing[model := Pricing(inPer1K, outPer1K)])
  }

  datatype Recorded = Recorded(tracker: Tracker, cost: real)

  /** The cost of a usage at a pricing. */
  function UsageCost(p: Pricing, usage: TokenUsage): real {
    (usage.promptTokens as real / 1000.0) * p.inPer1K + (usage.completionTokens as real / 1000.0) * p.outPer1K
  }

  /** `Record`: the token totals always grow (wrapping at 2^64); the cost
      is added only for a registered model, and is 0 otherwise. */
  function Record(t: Tracker, model: string, usage: TokenUsage): (r: Recorded)
    ensures ValidTracker(r.tracker)
    ensures r.tracker.totalInputTokens == (t.totalInputTokens + usage.promptTokens) % TwoTo64
    ensures r.tracker.totalOutputTokens == (t.totalOutputTokens + usage.completionTokens) % TwoTo64
    ensures r.tracker.pricing == t.pricing
    ensures model !in t.pricing ==> r.cost == 0.0 && r.tracker.totalCostUSD == t.totalCostUSD
    ensures model in t.pricing ==> r.cost == UsageCost(t.pricing[model], usage)
    ensures model in t.pricing ==> r.tracker.totalCostUSD == t.totalCostUSD + r.cost
  {
    var totals := t.(totalInputTokens := (t.totalInputTokens + ToUint64(usage.promptTokens)) % TwoTo64,
                     totalOutputTokens := (t.totalOutputTokens + ToUint64(usage.completionTokens)) % TwoTo64);
    if model !in t.pricing then Recorded(totals, 0.0)
    else
      var cost := UsageCost(t.pricing[model], usage);
      Recorded(totals.(totalCostUSD := t.totalCostUSD + cost), cost)
  }

  /** An estimate charges what recording the same usage charges: at the
      tracker's pricing of the model, an estimate of `n` output tokens costs
      what `Record` adds for the counted input tokens and `n` completion
      tokens. */
  lemma EstimateMatchesRecord(e: Estimator, r: Rendered, n: int, t: Tracker, model: string, total: int)
    requires model in t.pricing && t.pricing[model] == Pricing(e.inputPer1K, e.outputPer1K)
    ensures EstimateCost(e, r, n).totalUSD == Record(t, model, TokenUsage(InputTokens(e, r), n, total)).cost
  {
  }

  /** With non-negative prices, expecting more output never lowers the
      estimate. */
  lemma EstimateMonotone(e: Estimator, r: Rendered, n: int, m: int)
    requires e.outputPer1K >= 0.0 && n <= m
    ensures EstimateCost(e, r, n).totalUSD <= EstimateCost(e, r, m).totalUSD
  {
    var d := (m - n) as real / 1000.0;
    assert (m as real / 1000.0) * e.outputPer1K == (n as real / 1000.0) * e.outputPer1K + d * e.outputPer1K;
    assert d * e.outputPer1K >= 0.0;
  }

  /** A series of records, by model and usage. */
  function RecordAll(t: Tracker, events: seq<(string, TokenUsage)>): Tracker
    decreases |events|
  {
    if |events| == 0 then t
    else
      var last := events[|events| - 1];
      Record(RecordAll(t, events[..|events| - 1]), last.0, last.1).tracker
  }

  function PromptTokens(events: seq<(string, TokenUsage)>): int {
    if |events| == 0 then 0 else PromptTokens(events[..|events| - 1]) + events[|events| - 1].1.promptTokens
  }

  /** The cost of the events whose model is priced. */
  function PricedCost(pricing: map<string, Pricing>, events: seq<(string, TokenUsage)>): real {
    if |events| == 0 then 0.0
    else
      var last := events[|events| - 1];
      PricedCost(pricing, events[..|events| - 1]) + if last.0 in pricing then UsageCost(pricing[last.0], last.1) else 0.0
  }

  /** After a series of records the input-token total is the sum of the
      prompt tokens modulo 2^64, and the cost total is the cost of the
      priced events: unpriced models add tokens but no cost. */
  lemma {:induction false} RecordAllTotals(t: Tracker, events: seq<(string, TokenUsage)>)
    requires ValidTracker(t)
    ensures RecordAll(t, events).pricing == t.pricing
    ensures RecordAll(t, events).totalInputTokens == (t.totalInputTokens + PromptTokens(events)) % TwoTo64
    ensures RecordAll(t, events).totalCostUSD == t.totalCostUSD + PricedCost(t.pricing, events)
    decreases |events|
  {
    if |events| > 0 {
      var init := events[..|events| - 1];
      RecordAllTotals(t, init);
      var a := t.totalInputTokens + PromptTokens(init);
      var x := events[|events| - 1].1.promptTokens;
      ModAddAssoc(a, x);
    }
  }

  /** Reducing before adding does not change the residue. */
  lemma ModAddAssoc(a: int, x: int)
    ensures (a % TwoTo64 + x) % TwoTo64 == (a + x) % TwoTo64
  {
    var q := a / TwoTo64;
    assert a == q * TwoTo64 + a % TwoTo64;
    ModShift(a % TwoTo64 + x, q);
  }

  lemma ModShift(y: int, q: int)
    ensures (y + q * TwoTo64) % TwoTo64 == y % TwoTo64
  {
  }
}

=== FILE: dashboard.dfy ===
/** The byte-slice helpers of the dashboard command (cmd/dashboard/main.go),
    which put the analytics address into the served page. */
module Dashboard {
  type Bytes = seq<bv8>

  /** `sep` occurs in `b` at position `i`. */
  predicate At(b: Bytes, sep: Bytes, i: int) {
    0 <= i && i + |sep| <= |b| && b[i..i + |sep|] == sep
  }

  /** `equal`: same length and the same byte at every position. */
  method Equal(a: Bytes, b: Bytes) returns (r: bool)
    ensures r <==> |a| == |b| && forall i :: 0 <= i < |a| ==> a[i] == b[i]
    ensures r <==> a == b
  {
    if |a| != |b| {
      return false;
    }
    var i := 0;
    while i < |a|
      invariant 0 <= i <= |a|
      invariant forall j :: 0 <= j < i ==> a[j] == b[j]
    {
      if a[i] != b[i] {
        return false;
      }
      i := i + 1;
    }
    return true;
  }

  /** `indexBytes`: the first position where `sep` occurs, or -1. */
  method IndexBytes(b: Bytes, sep: Bytes) returns (r: int)
    ensures r == -1 <==> forall i :: 0 <= i <= |b| ==> !At(b, sep, i)
    ensures r != -1 ==> At(b, sep, r) && forall i :: 0 <= i < r ==> !At(b, sep, i)
    ensures |sep| == 0 ==> r == 0
  {
    var i := 0;
    while i <= |b| - |sep|
      invariant 0 <= i && (|sep| <= |b| ==> i <= |b| - |sep| + 1)
      invariant |sep| == 0 ==> i == 0
      invariant forall j :: 0 <= j < i ==> !At(b, sep, j)
    {
      var eq := Equal(b[i..i + |sep|], sep);
      if eq {
        assert At(b, sep, i);
        return i;
      }
      i := i + 1;
    }
    return -1;
  }

  /** The first occurrence of `sep` in `b`, or -1: the reference definition
      (`FirstAtIsFirst` states what it finds). */
  function FirstAt(b: Bytes, sep: Bytes): (r: int)
    ensures r == -1 || (0 <= r && r + |sep| <= |b|)
  {
    FirstAtFrom(b, sep, 0)
  }

  function FirstAtFrom(b: Bytes, sep: Bytes, k: nat): (r: int)
    ensures r == -1 || (k <= r && r + |sep| <= |b|)
    decreases |b| + 1 - k
  {
    if k > |b| then -1
    else if At(b, sep, k) then k
    else FirstAtFrom(b, sep, k + 1)
  }

  lemma {:induction false} FirstAtFromIsFirst(b: Bytes, sep: Bytes, k: nat)
    requires forall i :: 0 <= i < k ==> !At(b, sep, i)
    ensures FirstAtFrom(b, sep, k) == -1 <==> forall i :: 0 <= i <= |b| ==> !At(b, sep, i)
    ensures FirstAtFrom(b, sep, k) != -1 ==> At(b, sep, FirstAtFrom(b, sep, k))
    ensures forall i :: 0 <= i < FirstAtFrom(b, sep, k) ==> !At(b, sep, i)
    decreases |b| + 1 - k
  {
    if k <= |b| && !At(b, sep, k) {
      FirstAtFromIsFirst(b, sep, k + 1);
    }
  }

  /** `FirstAt` finds the first occurrence, and -1 exactly when there is none. */
  lemma FirstAtIsFirst(b: Bytes, sep: Bytes)
    ensures FirstAt(b, sep) == -1 <==> forall i :: 0 <= i <= |b| ==> !At(b, sep, i)
    ensures FirstAt(b, sep) != -1 ==> At(b, sep, FirstAt(b, sep))
    ensures forall i :: 0 <= i < FirstAt(b, sep) ==> !At(b, sep, i)
  {
    FirstAtFromIsFirst(b, sep, 0);
  }

  /** Every occurrence of `pat`, left to right and without overlap,
      replaced by `repl`. */
  function ReplaceAll(b: Bytes, pat: Bytes, repl: Bytes): Bytes
    requires |pat| > 0
    decreases |b|
  {
    var i := FirstAt(b, pat);
    if i == -1 then b else b[..i] + repl + ReplaceAll(b[i + |pat|..], pat, repl)
  }

  /** The number of occurrences `ReplaceAll` replaces. */
  function Occurrences(b: Bytes, pat: Bytes): nat
    requires |pat| > 0
    decreases |b|
  {
    var i := FirstAt(b, pat);
    if i == -1 then 0 else 1 + Occurrences(b[i + |pat|..], pat)
  }

  /** `bytesReplace(b, old, new)`, with `pat` for `old` and `repl` for
      `new`.  With an empty pattern the Go loop never ends, so the pattern is
      not empty. */
  method BytesReplace(b: Bytes, pat: Bytes, repl: Bytes) returns (out: Bytes)
    requires |pat| > 0
    ensures out == ReplaceAll(b, pat, repl)
    ensures |out| == |b| + Occurrences(b, pat) * (|repl| - |pat|)
  {
    out := [];
    var rest := b;
    var i := IndexBytes(rest, pat);
    FirstAtUnique(rest, pat, i);
    while i >= 0
      invariant i == FirstAt(rest, pat)
      invariant out + ReplaceAll(rest, pat, repl) == ReplaceAll(b, pat, repl)
      decreases |rest|
    {
      var out', rest' := out + rest[..i] + repl, rest[i + |pat|..];
      ReplaceAllAt(rest, pat, repl, out, i, out', rest');
      out, rest := out', rest';
      i := IndexBytes(rest, pat);
      FirstAtUnique(rest, pat, i);
    }
    out := out + rest;
    ReplaceAllLength(b, pat, repl);
  }

  /** One step of the replacement loop: `prefix` is the output so far, and
      `prefix'` and `rest'` the output and input after the occurrence at `i`. */
  lemma ReplaceAllAt(rest: Bytes, pat: Bytes, repl: Bytes, prefix: Bytes, i: int, prefix': Bytes, rest': Bytes)
    requires |pat| > 0 && i == FirstAt(rest, pat) && i >= 0
    requires prefix' == prefix + rest[..i] + repl && rest' == rest[i + |pat|..]
    ensures prefix + ReplaceAll(rest, pat, repl) == prefix' + ReplaceAll(rest', pat, repl)
  {
  }

  /** Any position meeting the contract of `IndexBytes` is `FirstAt`'s. */
  lemma FirstAtUnique(b: Bytes, sep: Bytes, r: int)
    requires r == -1 <==> forall i :: 0 <= i <= |b| ==> !At(b, sep, i)
    requires r != -1 ==> At(b, sep, r) && forall i :: 0 <= i < r ==> !At(b, sep, i)
    ensures r == FirstAt(b, sep)
  {
    FirstAtIsFirst(b, sep);
    var f := FirstAt(b, sep);
    if r != -1 && f != -1 {
      if r < f {
        assert At(b, sep, r);
      } else if f < r {
        assert At(b, sep, f);
      }
    }
  }

  /** Each replacement changes the length by the difference of the lengths. */
  lemma {:induction false} ReplaceAllLength(b: Bytes, pat: Bytes, repl: Bytes)
    requires |pat| > 0
    ensures |ReplaceAll(b, pat, repl)| == |b| + Occurrences(b, pat) * (|repl| - |pat|)
    decreases |b|
  {
    var i := FirstAt(b, pat);
    if i != -1 {
      var rest := b[i + |pat|..];
      ReplaceAllLength(rest, pat, repl);
      var n, d := Occurrences(rest, pat), |repl| - |pat|;
      assert ReplaceAll(b, pat, repl) == b[..i] + repl + ReplaceAll(rest, pat, repl);
      assert Occurrences(b, pat) == 1 + n;
      assert |rest| == |b| - i - |pat|;
      Distribute(n, d);
    }
  }

  lemma Distribute(n: int, d: int)
    ensures (1 + n) * d == d + n * d
  {
  }

  /** Without an occurrence the input comes back unchanged. */
  lemma NoOccurrenceCopies(b: Bytes, pat: Bytes, repl: Bytes)
    requires |pat| > 0 && forall i :: 0 <= i <= |b| ==> !At(b, pat, i)
    ensures ReplaceAll(b, pat, repl) == b && Occurrences(b, pat) == 0
  {
    FirstAtIsFirst(b, pat);
  }

  /** Replacing a pattern by itself changes nothing. */
  lemma {:induction false} ReplaceBySelf(b: Bytes, pat: Bytes)
    requires |pat| > 0
    ensures ReplaceAll(b, pat, pat) == b
    decreases |b|
  {
    var i := FirstAt(b, pat);
    if i != -1 {
      FirstAtIsFirst(b, pat);
      ReplaceBySelf(b[i + |pat|..], pat);
      assert b[..i] + pat + b[i + |pat|..] == b;
    }
  }

  /** The placeholder the served page carries, as bytes. */
  const Placeholder: Bytes := [0x5f, 0x5f, 0x41, 0x50, 0x49, 0x5f, 0x42, 0x41, 0x53, 0x45, 0x5f, 0x5f]

  /** A page that is exactly the placeholder becomes the address. */
  lemma PlaceholderReplaced(addr: Bytes)
    ensures ReplaceAll(Placeholder, Placeholder, addr) == addr
  {
    assert At(Placeholder, Placeholder, 0);
    assert FirstAt(Placeholder, Placeholder) == 0;
    assert Placeholder[|Placeholder|..] == [];
    assert FirstAt([], Placeholder) == -1;
  }
}

=== FILE: errors.dfy ===
/** Go error values as data.  Sentinel errors of the `core` package and of
    `context` are constructors of their own; `fmt.Errorf` with `%w` becomes
    `Wrap` (one wrapped error) or `Wrap2` (two wrapped errors), so that
    `errors.Is` can be stated over the structure. */
module Errors {

  datatype Error =
    | PromptNotFound                     // core.ErrPromptNotFound
    | ValidationFailed                   // core.ErrValidationFailed
    | RenderFailed                       // core.ErrRenderFailed
    | NoRenderer                         // core.ErrNoRenderer
    | Canceled                           // context.Canceled
    | DeadlineExceeded                   // context.DeadlineExceeded
    | Invalid(field: string, message: string)  // *core.ValidationError
    | Message(text: string)              // an error that wraps nothing
    | Wrap(prefix: string, cause: Error) // fmt.Errorf(prefix + ": %w", cause)
    | Wrap2(first: Error, middle: string, second: Error)  // fmt.Errorf("%w" + middle + "%w", first, second)

  /** `errors.Is(e, target)`: `e` is `target` or wraps it, directly or not. */
  predicate Is(e: Error, target: Error) {
    e == target
    || (e.Wrap? && Is(e.cause, target))
    || (e.Wrap2? && (Is(e.first, target) || Is(e.second, target)))
  }

  /** `e.Error()`: the text a Go caller would read. */
  function Text(e: Error): string {
    match e
    case PromptNotFound => "prompt not found"
    case ValidationFailed => "validation failed"
    case RenderFailed => "template render failed"
    case NoRenderer => "no renderer configured on prompt"
    case Canceled => "context canceled"
    case DeadlineExceeded => "context deadline exceeded"
    case Invalid(field, message) => field + ": " + message
    case Message(text) => text
    case Wrap(prefix, cause) => prefix + ": " + Text(cause)
    case Wrap2(first, middle, second) => Text(first) + middle + Text(second)
  }

  /** A `context.Context` as the model sees it at one instant: still live, or
      done with the error `ctx.Err()` would return. */
  datatype Ctx = Live | Done(err: Error)
}

=== FILE: evaluator.dfy ===
/** Test cases, expectations and scores of the evaluator package
    (evaluator/evaluator.go). */
module Scores {
  import opened Variables

  /** `Expected`; the evaluators it can carry are not used by the package's
      own code and are not modelled. */
  datatype Expected = Expected(output: string, contains: seq<string>, notContains: seq<string>)

  /** `Score`; the float value is a real. */
  datatype Score = Score(pass: bool, value: real, reason: string)

  /** `Case`. */
  datatype Case = Case(name: string, input: map<string, Value>, expected: Expected)
}

/** The evaluators (evaluator/evaluator.go, and the judge of
    evaluator/llmjudge.go as one more kind). */
module Evaluators {
  import opened Wrappers
  import opened Errors
  import opened Strings
  import opened Scores
  import opened Judge

  /** The implementations of the `Evaluator` interface. */
  datatype Evaluator =
    | ExactMatch
    | ContainsAll(substrings: seq<string>)
    | FuncEvaluator(f: (string, Expected) -> Result<Score, Error>)
    | JudgeEvaluator(judge: LLMJudge)

  /** `ExactMatch.Evaluate`: equal once white space is trimmed from both ends. */
  function ExactMatchScore(actual: string, expected: Expected): (s: Score)
    ensures s.pass <==> TrimSpace(actual) == TrimSpace(expected.output)
    ensures s.value == if s.pass then 1.0 else 0.0
    ensures s.reason == "exact match"
  {
    var pass := TrimSpace(actual) == TrimSpace(expected.output);
    Score(pass, if pass then 1.0 else 0.0, "exact match")
  }

  /** The position of the first substring `actual` does not contain. */
  function FirstMissing(actual: string, check: seq<string>): (r: Option<nat>)
    ensures r.Some? ==> r.value < |check| && !Contains(actual, check[r.value])
    ensures r.Some? ==> forall i :: 0 <= i < r.value ==> Contains(actual, check[i])
    ensures r.None? <==> forall i :: 0 <= i < |check| ==> Contains(actual, check[i])
    decreases |check|
  {
    if |check| == 0 then None
    else if !Contains(actual, check[0]) then Some(0)
    else
      var rest := FirstMissing(actual, check[1..]);
      assert forall i :: 1 <= i < |check| ==> check[i] == check[1..][i - 1];
      if rest.None? then None else Some(rest.value + 1)
  }

  /** `check[i]` is the first substring `actual` does not contain. */
  predicate FirstMissingAt(check: seq<string>, actual: string, i: int) {
    0 <= i < |check| && !Contains(actual, check[i]) && forall j :: 0 <= j < i ==> Contains(actual, check[j])
  }

  /** The score reports `check[i]` as the first missing substring. */
  predicate MissingReported(check: seq<string>, actual: string, i: int, s: Score) {
    FirstMissingAt(check, actual, i) && s == Score(false, 0.0, "missing: " + check[i])
  }

  /** The substrings `ContainsAll` checks: its own, or else the expected ones. */
  function Checked(substrings: seq<string>, expected: Expected): seq<string> {
    if |substrings| == 0 then expected.contains else substrings
  }

  /** `ContainsAll.Evaluate`: passes iff every checked substring occurs; a
      failure names the first one missing. */
  function ContainsAllScore(substrings: seq<string>, actual: string, expected: Expected): (s: Score)
    ensures var check := Checked(substrings, expected);
      s.pass <==> forall i :: 0 <= i < |check| ==> Contains(actual, check[i])
    ensures s.pass ==> s == Score(true, 1.0, "contains all")
    ensures !s.pass ==> exists i :: MissingReported(Checked(substrings, expected), actual, i, s)
  {
    var check := Checked(substrings, expected);
    match FirstMissing(actual, check)
    case None => Score(true, 1.0, "contains all")
    case Some(i) =>
      assert MissingReported(check, actual, i, Score(false, 0.0, "missing: " + check[i]));
      Score(false, 0.0, "missing: " + check[i])
  }

  /** `Evaluate` of each implementation; only a function evaluator can fail. */
  function Evaluate(ev: Evaluator, actual: string, expected: Expected): (r: Result<Score, Error>)
    ensures ev.ExactMatch? ==> r == Success(ExactMatchScore(actual, expected))
    ensures ev.ContainsAll? ==> r == Success(ContainsAllScore(ev.substrings, actual, expected))
    ensures ev.FuncEvaluator? ==> r == ev.f(actual, expected)
    ensures ev.JudgeEvaluator? ==> r == Success(Judge.Evaluate(ev.judge, actual, expected))
    ensures !ev.FuncEvaluator? ==> r.Success?
  {
    match ev
    case ExactMatch => Success(ExactMatchScore(actual, expected))
    case ContainsAll(subs) => Success(ContainsAllScore(subs, actual, expected))
    case FuncEvaluator(f) => f(actual, expected)
    case JudgeEvaluator(j) => Success(Judge.Evaluate(j, actual, expected))
  }

  /** The expected output itself passes the exact match, and so does any
      text that differs from it only in surrounding white space. */
  lemma ExactMatchAcceptsExpected(actual: string, expected: Expected)
    requires TrimSpace(actual) == TrimSpace(expected.output)
    ensures Evaluate(ExactMatch, actual, expected) == Success(Score(true, 1.0, "exact match"))
    ensures Evaluate(ExactMatch, expected.output, expected).value.pass
  {
  }

  /** The substrings one after another. */
  function Concat(parts: seq<string>): string {
    if |parts| == 0 then "" else parts[0] + Concat(parts[1..])
  }

  lemma {:induction false} ConcatContainsParts(parts: seq<string>, i: nat)
    requires i < |parts|
    ensures Contains(Concat(parts), parts[i])
    decreases |parts|
  {
    var c := Concat(parts);
    if i == 0 {
      assert OccursAt(c, parts[0], 0);
    } else {
      ConcatContainsParts(parts[1..], i - 1);
      var rest := Concat(parts[1..]);
      var k: nat :| k <= |rest| && OccursAt(rest, parts[i], k);
      assert c == parts[0] + rest;
      assert c[|parts[0]| + k..|parts[0]| + k + |parts[i]|] == rest[k..k + |parts[i]|];
      assert OccursAt(c, parts[i], |parts[0]| + k);
    }
  }

  /** A text made of all the substrings passes `ContainsAll`, whatever their
      order of checking. */
  lemma ContainsAllAcceptsConcat(substrings: seq<string>, expected: Expected)
    ensures ContainsAllScore(substrings, Concat(Checked(substrings, expected)), expected).pass
  {
    var check := Checked(substrings, expected);
    forall i | 0 <= i < |check|
      ensures Contains(Concat(check), check[i])
    {
      ConcatContainsParts(check, i);
    }
  }

  /** A checked substring that is longer than the text is missing. */
  lemma ContainsAllRejectsShortText(substrings: seq<string>, actual: string, expected: Expected, i: nat)
    requires i < |Checked(substrings, expected)| && |Checked(substrings, expected)[i]| > |actual|
    ensures !ContainsAllScore(substrings, actual, expected).pass
  {
  }
}

=== FILE: executor.dfy ===
/** The executor (executor/executor.go): renders a prompt, builds the
    completion request and calls the provider, retrying failed calls with a
    backoff between attempts. */
module Executor {
  import opened Wrappers
  import opened Errors
  import opened Strings
  import opened Variables
  import opened Prompts
  import opened Template
  import opened Provider

  const Millisecond: int := 1_000_000
  const Second: int := 1_000_000_000

  /** The model a request gets when none is named. */
  const DefaultModel := "gpt-3.5-turbo"

  // ---------------------------------------------------------------------------
  // Backoff

  /** `BackoffFunc`: the delay before the retry after attempt `attempt` (0-based). */
  type BackoffFunc = int -> int

  function Pow2(n: nat): (r: nat)
    ensures r >= 1
  {
    if n == 0 then 1 else 2 * Pow2(n - 1)
  }

  lemma {:induction false} Pow2Monotone(m: nat, n: nat)
    requires m <= n
    ensures Pow2(m) <= Pow2(n)
    decreases n
  {
    if m < n {
      Pow2Monotone(m, n - 1);
    }
  }

  /** `Duration(math.Pow(2, attempt))` for the attempts where it is exact: a
      negative attempt gives a fraction of at most 1/2, truncated to 0. */
  function Pow2Trunc(attempt: int): nat {
    if attempt < 0 then 0 else Pow2(attempt)
  }

  const MinInt64: int := -0x8000_0000_0000_0000
  const TwoTo64: int := 0x1_0000_0000_0000_0000

  /** Two's complement wrap-around of `int64` arithmetic. */
  function WrapInt64(x: int): (r: int)
    ensures MinInt64 <= r < -MinInt64
    ensures (r - x) % TwoTo64 == 0
    ensures MinInt64 <= x < -MinInt64 ==> r == x
  {
    (x - MinInt64) % TwoTo64 + MinInt64
  }

  /** `ExponentialBackoff(base, max)` exactly as written: the power of two is
      converted to a `Duration` (beyond 2^62 it does not fit; amd64 yields the
      smallest `int64` then) and the product wraps around in `int64` before it
      is compared with the cap. */
  function BackoffAsWritten(base: int, max: int, attempt: int): int {
    var p := if attempt <= 62 then Pow2Trunc(attempt) else MinInt64;
    var d := WrapInt64(base * p);
    if d > max then max else d
  }

  /** The evident intent: `base * 2^attempt`, capped at `max`. */
  function BackoffDelay(base: int, max: int, attempt: int): (d: int)
    ensures d <= max
    ensures base * Pow2Trunc(attempt) <= max ==> d == base * Pow2Trunc(attempt)
    ensures base * Pow2Trunc(attempt) > max ==> d == max
  {
    var d := base * Pow2Trunc(attempt);
    if d > max then max else d
  }

  /** For a non-negative base and cap the corrected delay never shrinks from one
      attempt to the next and stays between zero and the cap. */
  lemma BackoffDelayMonotone(base: int, max: int, a1: int, a2: int)
    requires 0 <= base && 0 <= max && a1 <= a2
    ensures 0 <= BackoffDelay(base, max, a1) <= BackoffDelay(base, max, a2) <= max
  {
    if 0 <= a1 {
      Pow2Monotone(a1, a2);
    }
  }

  /** The two agree as long as the product fits in an `int64`. */
  lemma BackoffAgreesWithoutOverflow(base: int, max: int, attempt: int)
    requires attempt <= 62
    requires MinInt64 <= base * Pow2Trunc(attempt) < -MinInt64
    ensures BackoffAsWritten(base, max, attempt) == BackoffDelay(base, max, attempt)
  {
  }

  /** With the executor's default 500ms base and 30s cap, attempt 35 overflows:
      the written code returns a negative delay instead of the cap. */
  lemma BackoffOverflowExample()
    ensures BackoffAsWritten(500 * Millisecond, 30 * Second, 35) == -1_266_874_889_709_551_616
    ensures BackoffDelay(500 * Millisecond, 30 * Second, 35) == 30 * Second
  {
    Pow2Of35();
    var product := 500 * Millisecond * Pow2Trunc(35);
    assert product == 17_179_869_184_000_000_000;
    assert WrapInt64(product) == -1_266_874_889_709_551_616 by {
      assert product - MinInt64 == 26_403_241_220_854_775_808;
      assert (product - MinInt64) % TwoTo64 == 7_956_497_147_145_224_192;
    }
  }

  /** As written, the default delay is not negative at every attempt after
      35: the wrapped product lands above the cap at attempt 38, and from
      attempt 56 on it is a multiple of 2^64, so the delay is 0. */
  lemma BackoffAsWrittenLater(a: int)
    ensures BackoffAsWritten(500 * Millisecond, 30 * Second, 38) == 30 * Second
    ensures a >= 56 ==> BackoffAsWritten(500 * Millisecond, 30 * Second, a) == 0
  {
    BackoffAt38();
    if a >= 56 {
      var k := DefaultProductMultiple(a);
      WrapMultiple(k);
    }
  }

  lemma BackoffAt38()
    ensures WrapInt64(500 * Millisecond * Pow2Trunc(38)) == 8_311_744_956_033_138_688
  {
    Pow2Add(30, 8);
    Pow2Of30();
    var p38 := 500 * Millisecond * Pow2Trunc(38);
    assert p38 == 137_438_953_472_000_000_000;
    assert (p38 - MinInt64) % TwoTo64 == 17_535_116_992_887_914_496;
  }

  /** From attempt 56 on, the default base times the converted power of two
      is a multiple of 2^64. */
  lemma DefaultProductMultiple(a: int) returns (k: int)
    requires a >= 56
    ensures 500 * Millisecond * (if a <= 62 then Pow2Trunc(a) else MinInt64) == k * TwoTo64
  {
    if a <= 62 {
      var x := Pow2(a - 56);
      Pow2Add(56, a - 56);
      Pow2Of56();
      k := 1_953_125 * x;
      MulAssoc(500 * Millisecond, 72_057_594_037_927_936, x);
      MulAssoc(1_953_125, TwoTo64, x);
      MulAssoc(1_953_125, x, TwoTo64);
      assert 500 * Millisecond * 72_057_594_037_927_936 == 1_953_125 * TwoTo64;
    } else {
      k := -250_000_000;
    }
  }

  lemma MulAssoc(a: int, b: int, c: int)
    ensures a * (b * c) == (a * b) * c
    ensures (a * b) * c == (a * c) * b
  {
  }

  lemma Pow2Of10()
    ensures Pow2(10) == 1024
  {
    assert Pow2(5) == 32;
    Pow2Add(5, 5);
  }

  lemma Pow2Of30()
    ensures Pow2(30) == 1_073_741_824
  {
    Pow2Of10();
    Pow2Add(10, 10);
    Pow2Add(20, 10);
  }

  lemma Pow2Of56()
    ensures Pow2(56) == 72_057_594_037_927_936
  {
    Pow2Of30();
    Pow2Of10();
    Pow2Add(10, 10);
    Pow2Add(20, 6);
    assert Pow2(6) == 64;
    Pow2Add(30, 26);
  }

  /** A multiple of 2^64 wraps to 0. */
  lemma WrapMultiple(k: int)
    ensures WrapInt64(k * TwoTo64) == 0
  {
    var r := WrapInt64(k * TwoTo64);
    assert (r - k * TwoTo64) % TwoTo64 == 0;
    assert (r - k * TwoTo64) % TwoTo64 == r % TwoTo64 by {
      assert r - k * TwoTo64 == r + (-k) * TwoTo64;
    }
  }

  lemma Pow2Of35()
    ensures Pow2Trunc(35) == 34_359_738_368
  {
    assert Pow2(5) == 32;
    Pow2Add(5, 5);
    Pow2Add(10, 10);
    Pow2Add(20, 10);
    Pow2Add(30, 5);
  }

  lemma {:induction false} Pow2Add(a: nat, b: nat)
    ensures Pow2(a + b) == Pow2(a) * Pow2(b)
    decreases b
  {
    if b > 0 {
      Pow2Add(a, b - 1);
    }
  }

  /** `ExponentialBackoff`, with the corrected delay. */
  function ExponentialBackoff(base: int, max: int): (f: BackoffFunc)
    ensures forall a :: f(a) == BackoffDelay(base, max, a)
  {
    a => BackoffDelay(base, max, a)
  }

  // ---------------------------------------------------------------------------
  // Executor

  /** `Executor`; its provider is the `complete` parameter of a call. */
  datatype Executor = Executor(maxRetries: int, backoff: Option<BackoffFunc>, baseTimeout: int)

  datatype ExecutorOption = WithRetry(maxRetries: int, backoff: Option<BackoffFunc>) | WithTimeout(d: int)

  predicate IsRetry(o: ExecutorOption) { o.WithRetry? }
  predicate IsTimeout(o: ExecutorOption) { o.WithTimeout? }

  /** The options applied in order: the last `WithRetry` decides the retry
      count and the backoff, the last `WithTimeout` the base timeout, and a
      field no option sets keeps its value. */
  function ApplyOptions(e: Executor, opts: seq<ExecutorOption>): (r: Executor)
    ensures var k := LastWhere(opts, IsRetry);
      if k.None? then r.maxRetries == e.maxRetries && r.backoff == e.backoff
      else r.maxRetries == opts[k.value].maxRetries && r.backoff == opts[k.value].backoff
    ensures var k := LastWhere(opts, IsTimeout);
      if k.None? then r.baseTimeout == e.baseTimeout else r.baseTimeout == opts[k.value].d
    decreases |opts|
  {
    if |opts| == 0 then e
    else ApplyOption(ApplyOptions(e, opts[..|opts| - 1]), opts[|opts| - 1])
  }

  function ApplyOption(e: Executor, o: ExecutorOption): Executor {
    match o
    case WithRetry(n, b) => e.(maxRetries := n, backoff := b)
    case WithTimeout(d) => e.(baseTimeout := d)
  }

  /** `New`: no retries, no timeout, and a 500ms..30s exponential backoff,
      unless the options say otherwise. */
  function New(opts: seq<ExecutorOption>): (e: Executor)
    ensures LastWhere(opts, IsRetry).None? ==>
      e.maxRetries == 0 && e.backoff.Some? && forall a :: e.backoff.value(a) == BackoffDelay(500 * Millisecond, 30 * Second, a)
    ensures var k := LastWhere(opts, IsRetry);
      k.Some? ==> e.maxRetries == opts[k.value].maxRetries && e.backoff == opts[k.value].backoff
    ensures var k := LastWhere(opts, IsTimeout);
      if k.None? then e.baseTimeout == 0 else e.baseTimeout == opts[k.value].d
  {
    ApplyOptions(Executor(0, Some(ExponentialBackoff(500 * Millisecond, 30 * Second)), 0), opts)
  }

  /** `ExecuteRequest`; a nil prompt is `None`. */
  datatype ExecuteRequest = ExecuteRequest(
    prompt: Option<Prompt>,
    input: Input,
    model: string,
    temperature: real,
    maxTokens: int,
    stopTokens: seq<string>,
    timeout: int)

  datatype ExecuteResult = ExecuteResult(content: string, usage: TokenUsage, model: string, rendered: Rendered, attempts: nat)

  /** The timeout the provider calls run under: the request's, or the
      executor's when the request gives zero; only positive ones apply. */
  function EffectiveTimeout(requested: int, base: int): (t: Option<int>)
    ensures t.Some? ==> t.value > 0
    ensures requested != 0 ==> t == (if requested > 0 then Some(requested) else None)
    ensures requested == 0 ==> t == (if base > 0 then Some(base) else None)
  {
    var t := if requested == 0 then base else requested;
    if t > 0 then Some(t) else None
  }

  /** The completion request built from the rendered prompt. */
  function BuildRequest(r: Rendered, req: ExecuteRequest, metadata: Option<map<string, Value>>): (c: CompletionRequest)
    ensures c.prompt == r.user && c.system == r.system
    ensures c.model == (if req.model == "" then DefaultModel else req.model)
    ensures c.temperature == req.temperature && c.maxTokens == req.maxTokens && c.stopTokens == req.stopTokens
    ensures c.topP == 0.0 && c.metadata == metadata
  {
    CompletionRequest(r.user, r.system, if req.model == "" then DefaultModel else req.model,
                      req.temperature, req.maxTokens, req.stopTokens, 0.0, metadata)
  }

  /** The provider's answer to the request at each attempt (attempts are
      numbered from 0). */
  type Completer = (CompletionRequest, nat) -> Result<CompletionResponse, Error>

  datatype RetryRun = RetryRun(last: Result<CompletionResponse, Error>, calls: nat, sleeps: seq<int>)

  /** The retry loop from attempt `k` on: calls until one succeeds or attempt
      `n` has failed, sleeping `backoff(j)` after each failed attempt `j`
      except the last. */
  function Retry(complete: Completer, creq: CompletionRequest, n: int, backoff: Option<BackoffFunc>, k: nat): (r: RetryRun)
    requires k <= n
    ensures k < r.calls <= n + 1
    ensures r.last == complete(creq, r.calls - 1)
    ensures forall j :: k <= j < r.calls - 1 ==> complete(creq, j).Failure?
    ensures r.last.Failure? ==> r.calls == n + 1
    ensures |r.sleeps| == (if backoff.Some? then r.calls - 1 - k else 0)
    ensures backoff.Some? ==> forall i :: 0 <= i < |r.sleeps| ==> r.sleeps[i] == backoff.value(k + i)
    decreases n - k
  {
    if complete(creq, k).Success? || k == n then RetryRun(complete(creq, k), k + 1, [])
    else
      var rest := Retry(complete, creq, n, backoff, k + 1);
      var pause := if backoff.Some? then [backoff.value(k)] else [];
      RetryRun(rest.last, rest.calls, pause + rest.sleeps)
  }

  /** The attempts of one `Execute` call: the last provider answer (`None`
      when the retry count is negative and no attempt is made), the number of
      provider calls and the sleeps between them. */
  datatype AttemptRun = AttemptRun(last: Option<Result<CompletionResponse, Error>>, calls: nat, sleeps: seq<int>)

  function Attempts(e: Executor, creq: CompletionRequest, complete: Completer): (r: AttemptRun)
    ensures r.last.None? <==> e.maxRetries < 0
    ensures r.last.None? ==> r.calls == 0 && r.sleeps == []
    ensures r.last.Some? ==> 1 <= r.calls <= e.maxRetries + 1 && r.last.value == complete(creq, r.calls - 1)
    ensures r.last.Some? && r.last.value.Failure? ==> r.calls == e.maxRetries + 1
    ensures forall j :: 0 <= j < r.calls - 1 ==> complete(creq, j).Failure?
    ensures |r.sleeps| == (if e.backoff.Some? && r.calls > 0 then r.calls - 1 else 0)
    ensures e.backoff.Some? ==> forall i :: 0 <= i < |r.sleeps| ==> r.sleeps[i] == e.backoff.value(i)
  {
    if e.maxRetries < 0 then AttemptRun(None, 0, [])
    else
      var rr := Retry(complete, creq, e.maxRetries, e.backoff, 0);
      AttemptRun(Some(rr.last), rr.calls, rr.sleeps)
  }

  /** The error of an executor whose retry count is negative: no attempt is
      made and `%w` is given a nil error. */
  const NoAttemptError := Message("executor after 0 attempts: %!w(<nil>)")

  /** The error after `n` failed attempts, wrapping the last one. */
  function AfterAttempts(n: nat, err: Error): Error {
    Wrap("executor after " + NatToString(n) + " attempts", err)
  }

  const PromptRequired := Message("executor: prompt is required")

  /** The executor's answer once the attempts are over. */
  function Finish(rendered: Rendered, a: AttemptRun): (r: Result<ExecuteResult, Error>)
    ensures a.last.None? ==> r == Failure(NoAttemptError)
    ensures a.last.Some? && a.last.value.Success? ==>
      r == Success(ExecuteResult(a.last.value.value.content, a.last.value.value.usage, a.last.value.value.model, rendered, a.calls))
    ensures a.last.Some? && a.last.value.Failure? ==>
      r == Failure(AfterAttempts(a.calls, a.last.value.error))
  {
    match a.last
    case None => Failure(NoAttemptError)
    case Some(Success(resp)) => Success(ExecuteResult(resp.content, resp.usage, resp.model, rendered, a.calls))
    case Some(Failure(err)) => Failure(AfterAttempts(a.calls, err))
  }

  /** The rendering and request building before the first attempt. */
  function Prepare(ctx: Ctx, req: ExecuteRequest): (r: Result<(Rendered, CompletionRequest), Error>)
    ensures req.prompt.None? ==> r == Failure(PromptRequired)
    ensures req.prompt.Some? && RenderPrompt(req.prompt.value, ctx, req.input).Failure? ==>
      r == Failure(Wrap("executor render", RenderPrompt(req.prompt.value, ctx, req.input).error))
    ensures r.Success? <==> req.prompt.Some? && RenderPrompt(req.prompt.value, ctx, req.input).Success?
    ensures r.Success? ==> r.value.0 == RenderPrompt(req.prompt.value, ctx, req.input).value
    ensures r.Success? ==> r.value.1 == BuildRequest(r.value.0, req, req.prompt.value.metadata)
  {
    if req.prompt.None? then Failure(PromptRequired)
    else
      var rendered := RenderPrompt(req.prompt.value, ctx, req.input);
      if rendered.Failure? then Failure(Wrap("executor render", rendered.error))
      else Success((rendered.value, BuildRequest(rendered.value, req, req.prompt.value.metadata)))
  }

  /** One call of `Execute`: its result, the completion request it built, the
      timeout it applied, the number of provider calls and the sleeps. */
  datatype ExecRun = ExecRun(
    result: Result<ExecuteResult, Error>,
    request: Option<CompletionRequest>,
    timeout: Option<int>,
    calls: nat,
    sleeps: seq<int>)

  /** `Executor.Execute`: a prompt that is missing or does not render fails
      before any provider call; otherwise the provider is called until an
      attempt succeeds or `maxRetries + 1` attempts have failed. */
  function Outcome(e: Executor, ctx: Ctx, req: ExecuteRequest, complete: Completer): (run: ExecRun)
    ensures run.request.None? <==> Prepare(ctx, req).Failure?
    ensures run.request.None? ==> run.result == Failure(Prepare(ctx, req).error) && run.calls == 0
    ensures run.request.Some? ==> run.request.value == Prepare(ctx, req).value.1
    ensures run.request.Some? ==> run.timeout == EffectiveTimeout(req.timeout, e.baseTimeout)
  {
    var prep := Prepare(ctx, req);
    if prep.Failure? then ExecRun(Failure(prep.error), None, None, 0, [])
    else
      var a := Attempts(e, prep.value.1, complete);
      ExecRun(Finish(prep.value.0, a), Some(prep.value.1), EffectiveTimeout(req.timeout, e.baseTimeout), a.calls, a.sleeps)
  }

  /** What the executor answers once the attempts of a prepared request are
      over. */
  lemma FinishAttempts(e: Executor, rendered: Rendered, creq: CompletionRequest, complete: Completer,
                       a: AttemptRun, r: Result<ExecuteResult, Error>)
    requires a == Attempts(e, creq, complete) && r == Finish(rendered, a)
    ensures a.calls == 0 ==> e.maxRetries < 0 && r == Failure(NoAttemptError)
    ensures r.Success? ==> 1 <= a.calls <= e.maxRetries + 1 && complete(creq, a.calls - 1).Success?
    ensures r.Success? ==> r.value.attempts == a.calls && r.value.rendered == rendered
    ensures r.Success? ==> r.value.content == complete(creq, a.calls - 1).value.content
    ensures r.Failure? && a.calls > 0 ==> a.calls == e.maxRetries + 1 && complete(creq, e.maxRetries).Failure?
    ensures r.Failure? && a.calls > 0 ==>
      r.error == AfterAttempts(a.calls, complete(creq, e.maxRetries).error)
  {
  }

  /** How the attempts of `Execute` end: a success is the first successful
      attempt after failed ones; a failure made every attempt, slept between
      them and reports the attempt count. */
  lemma OutcomeAttempts(e: Executor, ctx: Ctx, req: ExecuteRequest, complete: Completer, run: ExecRun)
    requires run == Outcome(e, ctx, req, complete)
    ensures run.calls == 0 ==> run.result.Failure?
    ensures run.request.Some? && run.calls == 0 ==> e.maxRetries < 0 && run.result == Failure(NoAttemptError)
    ensures run.request.Some? ==> forall j :: 0 <= j < run.calls - 1 ==> complete(run.request.value, j).Failure?
    ensures run.result.Success? ==> run.request.Some? && 1 <= run.calls <= e.maxRetries + 1
    ensures run.result.Success? ==> complete(run.request.value, run.calls - 1).Success?
    ensures run.result.Success? ==> run.result.value.attempts == run.calls
    ensures run.result.Success? ==> run.result.value.content == complete(run.request.value, run.calls - 1).value.content
    ensures run.result.Success? ==> run.result.value.rendered == Prepare(ctx, req).value.0
    ensures run.result.Failure? && run.calls > 0 ==> run.request.Some? && run.calls == e.maxRetries + 1
    ensures run.result.Failure? && run.calls > 0 ==> complete(run.request.value, e.maxRetries).Failure?
    ensures run.result.Failure? && run.calls > 0 ==>
      run.result.error == AfterAttempts(run.calls, complete(run.request.value, e.maxRetries).error)
    ensures |run.sleeps| == (if e.backoff.Some? && run.calls > 0 then run.calls - 1 else 0)
    ensures e.backoff.Some? ==> forall i :: 0 <= i < |run.sleeps| ==> run.sleeps[i] == e.backoff.value(i)
  {
    var prep := Prepare(ctx, req);
    if prep.Success? {
      var a := Attempts(e, prep.value.1, complete);
      FinishAttempts(e, prep.value.0, prep.value.1, complete, a, Finish(prep.value.0, a));
    }
  }

  /** `Executor.Execute` as the Go loop runs it; it computes `Outcome`. */
  method Execute(e: Executor, ctx: Ctx, req: ExecuteRequest, complete: Completer) returns (run: ExecRun)
    ensures run == Outcome(e, ctx, req, complete)
  {
    var prep := Prepare(ctx, req);
    if prep.Failure? {
      return ExecRun(Failure(prep.error), None, None, 0, []);
    }
    var (rendered, creq) := prep.value;
    var timeout := EffectiveTimeout(req.timeout, e.baseTimeout);
    var a := RetryLoop(e, creq, complete);
    return ExecRun(Finish(rendered, a), Some(creq), timeout, a.calls, a.sleeps);
  }

  /** The retry loop of `Execute`. */
  method RetryLoop(e: Executor, creq: CompletionRequest, complete: Completer) returns (a: AttemptRun)
    ensures a == Attempts(e, creq, complete)
  {
    var sleeps: seq<int> := [];
    var attempt := 0;
    while attempt <= e.maxRetries
      invariant 0 <= attempt
      invariant e.maxRetries >= 0 ==> attempt <= e.maxRetries
      invariant attempt <= e.maxRetries ==> RetriesFrom(e, creq, complete, attempt, sleeps)
      decreases e.maxRetries - attempt
    {
      var resp := complete(creq, attempt);
      if resp.Success? {
        return AttemptRun(Some(resp), attempt + 1, sleeps);
      }
      if attempt == e.maxRetries {
        assert sleeps + [] == sleeps;
        return AttemptRun(Some(resp), attempt + 1, sleeps);
      }
      var pause := if e.backoff.Some? then [e.backoff.value(attempt)] else [];
      RetryLoopStep(e, creq, complete, attempt, sleeps, pause);
      sleeps := sleeps + pause;
      attempt := attempt + 1;
    }
    return AttemptRun(None, 0, []);
  }

  /** The loop of `Execute` has made the sleeps `sleeps` and is about to
      make attempt `k`: the rest of the run is `Retry` from `k`. */
  predicate RetriesFrom(e: Executor, creq: CompletionRequest, complete: Completer, k: nat, sleeps: seq<int>)
    requires k <= e.maxRetries
  {
    var rest := Retry(complete, creq, e.maxRetries, e.backoff, k);
    Retry(complete, creq, e.maxRetries, e.backoff, 0) == RetryRun(rest.last, rest.calls, sleeps + rest.sleeps)
  }

  /** A failed attempt before the last one adds its pause and moves on. */
  lemma RetryLoopStep(e: Executor, creq: CompletionRequest, complete: Completer, k: nat, sleeps: seq<int>, pause: seq<int>)
    requires k < e.maxRetries && RetriesFrom(e, creq, complete, k, sleeps)
    requires complete(creq, k).Failure?
    requires pause == if e.backoff.Some? then [e.backoff.value(k)] else []
    ensures RetriesFrom(e, creq, complete, k + 1, sleeps + pause)
  {
    var rest := Retry(complete, creq, e.maxRetries, e.backoff, k + 1);
    assert Retry(complete, creq, e.maxRetries, e.backoff, k) == RetryRun(rest.last, rest.calls, pause + rest.sleeps);
    assert sleeps + (pause + rest.sleeps) == (sleeps + pause) + rest.sleeps;
  }

  /** A provider that always succeeds is called once, whatever the retry count. */
  lemma SucceedsFirstTime(e: Executor, ctx: Ctx, req: ExecuteRequest, complete: Completer)
    requires e.maxRetries >= 0
    requires forall c: CompletionRequest, k: nat :: complete(c, k).Success?
    requires req.prompt.Some? && RenderPrompt(req.prompt.value, ctx, req.input).Success?
    ensures Outcome(e, ctx, req, complete).result.Success?
    ensures Outcome(e, ctx, req, complete).calls == 1 && Outcome(e, ctx, req, complete).sleeps == []
  {
  }

  /** A provider that always fails is called once per allowed attempt, and the
      final error still wraps the last provider error. */
  lemma FailsAfterAllAttempts(e: Executor, ctx: Ctx, req: ExecuteRequest, complete: Completer, target: Error)
    requires e.maxRetries >= 0
    requires forall c: CompletionRequest, k: nat :: complete(c, k) == Failure(target)
    requires req.prompt.Some? && RenderPrompt(req.prompt.value, ctx, req.input).Success?
    ensures Outcome(e, ctx, req, complete).calls == e.maxRetries + 1
    ensures Is(Outcome(e, ctx, req, complete).result.error, target)
  {
  }
}

=== FILE: llmjudge.dfy ===
/** The LLM-as-judge evaluator (evaluator/llmjudge.go): one provider call with
    a fixed prompt, and a line-by-line parser of the judge's reply that looks
    for a `score:` number and a PASS/FAIL word.  The two regular expressions
    are written out as predicates over the line, with RE2's semantics: `(?i)`
    matching by simple case folding, `\s` the five ASCII spaces, `\b` an ASCII
    word boundary, and leftmost-first submatches. */
module Judge {
  import opened Wrappers
  import opened Errors
  import opened Strings
  import opened Provider
  import opened Scores

  const DefaultJudgeSystem := "You are an impartial judge. Evaluate the actual output against the expected output and criteria. Reply with exactly two lines:\nLine 1: SCORE: <number from 0.0 to 1.0>\nLine 2: PASS or FAIL\nThen optionally a brief reason on the next line."
  const DefaultCriteria := "Relevance and correctness compared to expected output."
  const DefaultJudgeModel := "gpt-4o-mini"

  /** Without an explicit PASS/FAIL line, a score of at least this passes. */
  const PassThreshold: real := 0.7

  /** `LLMJudge`; the provider's `Complete` is a function of the request. */
  datatype LLMJudge = LLMJudge(
    provider: CompletionRequest -> Result<CompletionResponse, Error>,
    model: string,
    criteria: string,
    system: string)

  /** The prompt sent to the judge. */
  function JudgePrompt(expectedOutput: string, actual: string, criteria: string): string {
    "Expected output:\n" + expectedOutput + "\n\nActual output:\n" + actual + "\n\nCriteria: " + criteria
    + "\n\nProvide SCORE (0.0-1.0) and PASS or FAIL."
  }

  /** The request `Evaluate` sends: empty system, criteria and model fall back
      to their defaults; nothing else is set. */
  function JudgeRequest(j: LLMJudge, actual: string, expected: Expected): (req: CompletionRequest)
    ensures req.system == if j.system == "" then DefaultJudgeSystem else j.system
    ensures req.model == if j.model == "" then DefaultJudgeModel else j.model
    ensures req.prompt == JudgePrompt(expected.output, actual, if j.criteria == "" then DefaultCriteria else j.criteria)
    ensures req == Request(req.prompt, req.system, req.model)
  {
    var system := if j.system == "" then DefaultJudgeSystem else j.system;
    var criteria := if j.criteria == "" then DefaultCriteria else j.criteria;
    var model := if j.model == "" then DefaultJudgeModel else j.model;
    Request(JudgePrompt(expected.output, actual, criteria), system, model)
  }

  /** `Evaluate`: a failed call is a failing score with reason, never an
      error; otherwise the trimmed reply is parsed. */
  function Evaluate(j: LLMJudge, actual: string, expected: Expected): (s: Score)
    ensures var resp := j.provider(JudgeRequest(j, actual, expected));
      resp.Failure? ==> s == Score(false, 0.0, "judge call failed: " + Text(resp.error))
    ensures var resp := j.provider(JudgeRequest(j, actual, expected));
      resp.Success? ==> s == ParseJudgeResponse(TrimSpace(resp.value.content))
    ensures 0.0 <= s.value <= 1.0
  {
    var resp := j.provider(JudgeRequest(j, actual, expected));
    if resp.Failure? then Score(false, 0.0, "judge call failed: " + Text(resp.error))
    else ParseJudgeResponse(TrimSpace(resp.value.content))
  }

  // ---------------------------------------------------------------------------
  // The regular expressions

  /** RE2's `\w`, which `\b` is defined by. */
  predicate IsWordChar(c: char) {
    ('0' <= c <= '9') || ('a' <= c <= 'z') || ('A' <= c <= 'Z') || c == '_'
  }

  /** `\s`: tab, newline, form feed, carriage return and space. */
  predicate IsReSpace(c: char) {
    c == '\t' || c == '\n' || c == '\U{000C}' || c == '\r' || c == ' '
  }

  /** `[0-9.]`. */
  predicate IsNumChar(c: char) {
    ('0' <= c <= '9') || c == '.'
  }

  /** Under `(?i)` the pattern character `p` (lower case or punctuation)
      matches `c`: itself, its ASCII upper case, or, for `s`, the long s that
      folds to it. */
  predicate CharFolds(c: char, p: char) {
    c == p || ('a' <= p <= 'z' && c as int == p as int - 32) || (p == 's' && c == '\U{017F}')
  }

  /** `pat` matches `s` at `i` case-insensitively. */
  predicate FoldedAt(s: string, i: nat, pat: string) {
    i + |pat| <= |s| && forall k :: 0 <= k < |pat| ==> CharFolds(s[i + k], pat[k])
  }

  /** The length of the run of `\s` starting at `j`. */
  function SpacesFrom(s: string, j: nat): (n: nat)
    requires j <= |s|
    ensures j + n <= |s|
    ensures forall k :: j <= k < j + n ==> IsReSpace(s[k])
    ensures j + n < |s| ==> !IsReSpace(s[j + n])
    decreases |s| - j
  {
    if j < |s| && IsReSpace(s[j]) then 1 + SpacesFrom(s, j + 1) else 0
  }

  /** The length of the run of `[0-9.]` starting at `j`. */
  function NumRunFrom(s: string, j: nat): (n: nat)
    requires j <= |s|
    ensures j + n <= |s|
    ensures forall k :: j <= k < j + n ==> IsNumChar(s[k])
    ensures j + n < |s| ==> !IsNumChar(s[j + n])
    decreases |s| - j
  {
    if j < |s| && IsNumChar(s[j]) then 1 + NumRunFrom(s, j + 1) else 0
  }

  /** Where the number after a `score:` at `i` starts. */
  function NumberStart(s: string, i: nat): nat
    requires i + 6 <= |s|
  {
    i + 6 + SpacesFrom(s, i + 6)
  }

  /** `score:\s*([0-9.]+)` matches at `i`.  The spaces and the digits are
      disjoint classes, so the greedy match takes every space and then every
      digit and dot. */
  predicate ScoreMatchAt(s: string, i: nat) {
    FoldedAt(s, i, "score:") && NumRunFrom(s, NumberStart(s, i)) > 0
  }

  /** The leftmost match at or after `from`. */
  function FirstScoreMatch(s: string, from: nat): (r: Option<nat>)
    ensures r.Some? ==> from <= r.value && ScoreMatchAt(s, r.value)
    ensures r.Some? ==> forall i: nat :: from <= i < r.value ==> !ScoreMatchAt(s, i)
    ensures r.None? ==> forall i: nat :: from <= i ==> !ScoreMatchAt(s, i)
    decreases |s| - from
  {
    if from + 6 > |s| then None
    else if ScoreMatchAt(s, from) then Some(from)
    else FirstScoreMatch(s, from + 1)
  }

  /** `FindStringSubmatch(line)[1]`: the number of the leftmost match. */
  function ScoreCapture(s: string): (r: Option<string>)
    ensures r.Some? ==> |r.value| > 0 && forall k :: 0 <= k < |r.value| ==> IsNumChar(r.value[k])
    ensures r.None? <==> forall i: nat :: !ScoreMatchAt(s, i)
  {
    match FirstScoreMatch(s, 0)
    case None => None
    case Some(i) =>
      var j := NumberStart(s, i);
      Some(s[j..j + NumRunFrom(s, j)])
  }

  /** The value of the digits after a decimal point. */
  function FracValue(frac: string): (r: real)
    requires AllDigits(frac)
    ensures 0.0 <= r < 1.0
  {
    if |frac| == 0 then 0.0 else (DigitValue(frac[0]) as real + FracValue(frac[1..])) / 10.0
  }

  /** A number with at most one dot and at least one digit. */
  predicate WellFormed(num: string) {
    (forall a, b :: 0 <= a < b < |num| ==> !(num[a] == '.' && num[b] == '.'))
    && exists k :: 0 <= k < |num| && num[k] != '.'
  }

  /** The position of the first dot, or the length. */
  function DotPos(num: string): (d: nat)
    ensures d <= |num| && '.' !in num[..d]
    ensures d < |num| ==> num[d] == '.'
  {
    if '.' in num then IndexOfChar(num, '.') else assert num[..|num|] == num; |num|
  }

  /** The digits before the dot, and those after it. */
  function Whole(num: string): string { num[..DotPos(num)] }
  function Frac(num: string): string {
    if DotPos(num) < |num| then num[DotPos(num) + 1..] else ""
  }

  lemma DecimalParts(num: string)
    requires forall k :: 0 <= k < |num| ==> IsNumChar(num[k])
    ensures AllDigits(Whole(num))
    ensures WellFormed(num) <==> '.' !in Frac(num) && |Whole(num)| + |Frac(num)| > 0
    ensures WellFormed(num) ==> AllDigits(Frac(num))
  {
    var d := DotPos(num);
    var whole, frac := Whole(num), Frac(num);
    assert forall k :: 0 <= k < |whole| ==> whole[k] == num[k];
    assert forall k :: 0 <= k < |frac| ==> frac[k] == num[d + 1 + k];
    if '.' in frac {
      var b :| 0 <= b < |frac| && frac[b] == '.';
      assert num[d] == '.' && num[d + 1 + b] == '.';
    } else if |whole| + |frac| == 0 {
      assert forall k :: 0 <= k < |num| ==> num[k] == '.';
    } else {
      assert forall a, b :: 0 <= a < b < |num| && num[a] == '.' ==> a == d && num[b] == frac[b - d - 1];
      if |whole| > 0 {
        assert num[0] == whole[0];
      } else {
        assert num[1] == frac[0];
      }
    }
  }

  /** `strconv.ParseFloat` of a string of digits and dots: it parses when it
      has at most one dot and at least one digit. */
  function ParseDecimal(num: string): (r: Option<real>)
    requires forall k :: 0 <= k < |num| ==> IsNumChar(num[k])
    ensures r.Some? <==> WellFormed(num)
    ensures r.Some? ==> AllDigits(Whole(num)) && AllDigits(Frac(num))
    ensures r.Some? ==> r.value == DecimalValue(Whole(num)) as real + FracValue(Frac(num))
    ensures r.Some? ==> r.value >= 0.0
  {
    DecimalParts(num);
    if !WellFormed(num) then None
    else Some(DecimalValue(Whole(num)) as real + FracValue(Frac(num)))
  }

  /** The score a line sets: its captured number, when that parses and lies
      in [0, 1]. */
  function LineScore(line: string): (r: Option<real>)
    ensures r.Some? ==> 0.0 <= r.value <= 1.0
  {
    match ScoreCapture(line)
    case None => None
    case Some(num) =>
      var v := ParseDecimal(num);
      if v.Some? && v.value <= 1.0 then v else None
  }

  /** `\b` at position `p`: exactly one of the characters around it is a word
      character (outside the string counts as a non-word character). */
  predicate Boundary(s: string, p: nat) {
    (0 < p <= |s| && IsWordChar(s[p - 1])) != (p < |s| && IsWordChar(s[p]))
  }

  /** `\b(PASS|FAIL)\b` matches at `i`. */
  predicate PassFailAt(s: string, i: nat) {
    (FoldedAt(s, i, "pass") || FoldedAt(s, i, "fail")) && Boundary(s, i) && Boundary(s, i + 4)
  }

  /** `passFailRe.MatchString(line)`. */
  predicate HasPassFail(s: string) {
    exists i: nat :: i + 4 <= |s| && PassFailAt(s, i)
  }

  /** The verdict a PASS/FAIL line gives. */
  predicate SaysPass(line: string) {
    Contains(ToUpper(line), "PASS")
  }

  // ---------------------------------------------------------------------------
  // The parser

  /** The loop's variables after some lines. */
  datatype Scan = Scan(value: real, hasExplicit: bool, explicitPass: bool)

  /** How the loop reads one line: the score it sets, whether it has a verdict
      word, and the verdict. */
  datatype LineReader = LineReader(score: string -> Option<real>, hasVerdict: string -> bool, says: string -> bool)

  /** The reader of `parseJudgeResponse`. */
  const Reader := LineReader(LineScore, HasPassFail, SaysPass)

  /** Line `i` is the last one that sets a score. */
  predicate LastScored(rd: LineReader, lines: seq<string>, i: int) {
    0 <= i < |lines| && rd.score(lines[i]).Some?
    && forall j :: i < j < |lines| ==> rd.score(lines[j]).None?
  }

  /** Line `i` is the last one with a PASS/FAIL word. */
  predicate LastVerdict(rd: LineReader, lines: seq<string>, i: int) {
    0 <= i < |lines| && rd.hasVerdict(lines[i])
    && forall j :: i < j < |lines| ==> !rd.hasVerdict(lines[j])
  }

  /** The loop of `parseJudgeResponse` over (already trimmed) lines: a later
      score or verdict line overrides an earlier one. */
  function ScanLines(rd: LineReader, lines: seq<string>): (r: Scan)
    decreases |lines|
  {
    if |lines| == 0 then Scan(0.0, false, false)
    else
      var p := ScanLines(rd, lines[..|lines| - 1]);
      var line := lines[|lines| - 1];
      var score := rd.score(line);
      var p1 := if score.Some? then p.(value := score.value) else p;
      if rd.hasVerdict(line) then p1.(hasExplicit := true, explicitPass := rd.says(line)) else p1
  }

  /** The value is the last line's score that was accepted, or 0. */
  lemma {:induction false} ScanValue(rd: LineReader, lines: seq<string>)
    ensures forall i :: LastScored(rd, lines, i) ==> ScanLines(rd, lines).value == rd.score(lines[i]).value
    ensures (forall i :: 0 <= i < |lines| ==> rd.score(lines[i]).None?) ==> ScanLines(rd, lines).value == 0.0
    decreases |lines|
  {
    if |lines| > 0 {
      var front := lines[..|lines| - 1];
      ScanValue(rd, front);
      assert forall j :: 0 <= j < |front| ==> front[j] == lines[j];
      assert forall i :: LastScored(rd, lines, i) && i < |front| ==> LastScored(rd, front, i);
    }
  }

  /** Every value the scan ends with is a score some line set, or 0. */
  lemma {:induction false} ScanValueFromLines(rd: LineReader, lines: seq<string>)
    ensures ScanLines(rd, lines).value == 0.0
            || exists i :: 0 <= i < |lines| && rd.score(lines[i]) == Some(ScanLines(rd, lines).value)
    decreases |lines|
  {
    if |lines| > 0 {
      var front := lines[..|lines| - 1];
      ScanValueFromLines(rd, front);
      assert forall j :: 0 <= j < |front| ==> front[j] == lines[j];
    }
  }

  /** A verdict was seen iff some line has PASS or FAIL. */
  lemma {:induction false} ScanHasVerdict(rd: LineReader, lines: seq<string>)
    ensures ScanLines(rd, lines).hasExplicit <==> exists i :: 0 <= i < |lines| && rd.hasVerdict(lines[i])
    decreases |lines|
  {
    if |lines| > 0 {
      var front := lines[..|lines| - 1];
      ScanHasVerdict(rd, front);
      if exists i :: 0 <= i < |front| && rd.hasVerdict(front[i]) {
        var i :| 0 <= i < |front| && rd.hasVerdict(front[i]);
        assert lines[i] == front[i];
      }
      if exists i :: 0 <= i < |lines| && rd.hasVerdict(lines[i]) {
        var i :| 0 <= i < |lines| && rd.hasVerdict(lines[i]);
        if i < |front| {
          assert front[i] == lines[i];
        }
      }
    }
  }

  /** The last line with PASS or FAIL decides the verdict. */
  lemma {:induction false} ScanVerdict(rd: LineReader, lines: seq<string>)
    ensures forall i :: LastVerdict(rd, lines, i) ==> ScanLines(rd, lines).explicitPass == rd.says(lines[i])
    decreases |lines|
  {
    if |lines| > 0 {
      var front := lines[..|lines| - 1];
      ScanVerdict(rd, front);
      if !rd.hasVerdict(lines[|lines| - 1]) {
        forall i | LastVerdict(rd, lines, i)
          ensures LastVerdict(rd, front, i)
        {
          assert forall j :: i < j < |front| ==> front[j] == lines[j];
        }
      }
    }
  }

  /** The trimmed lines of a reply. */
  function Lines(content: string): (lines: seq<string>)
    ensures |lines| == |Split(content, '\n')|
    ensures forall i :: 0 <= i < |lines| ==> lines[i] == TrimSpace(Split(content, '\n')[i])
  {
    var parts := Split(content, '\n');
    seq(|parts|, i requires 0 <= i < |parts| => TrimSpace(parts[i]))
  }

  /** `parseJudgeResponse`: the reason is the whole reply; the value is the
      last valid score (0 without one); the last PASS/FAIL line decides, and
      without one the value must reach the threshold. */
  function ParseJudgeResponse(content: string): (s: Score)
    ensures s.reason == content
    ensures 0.0 <= s.value <= 1.0
    ensures forall i :: LastScored(Reader, Lines(content), i) ==> s.value == LineScore(Lines(content)[i]).value
    ensures (forall i :: 0 <= i < |Lines(content)| ==> LineScore(Lines(content)[i]).None?) ==> s.value == 0.0
    ensures forall i :: LastVerdict(Reader, Lines(content), i) ==> s.pass == SaysPass(Lines(content)[i])
    ensures (forall i :: 0 <= i < |Lines(content)| ==> !HasPassFail(Lines(content)[i])) ==> (s.pass <==> s.value >= PassThreshold)
  {
    var lines := Lines(content);
    var r := ScanLines(Reader, lines);
    ScanValue(Reader, lines);
    ScanVerdict(Reader, lines);
    ScanHasVerdict(Reader, lines);
    ScanValueFromLines(Reader, lines);
    Score(if r.hasExplicit then r.explicitPass else r.value >= PassThreshold, r.value, content)
  }

  /** A verdict line wins over the score: a FAIL line fails whatever the
      score, and a line saying PASS passes even a score of 0. */
  lemma VerdictOverridesScore(content: string, i: nat)
    requires LastVerdict(Reader, Lines(content), i)
    ensures ParseJudgeResponse(content).pass <==> SaysPass(Lines(content)[i])
  {
  }

  /** The lines the default system prompt asks for parse as intended. */
  lemma ScoreLineExample()
    ensures LineScore("SCORE: 0.85") == Some(0.85)
  {
    ScoreCaptureExample();
    ParseDecimalExample();
  }

  lemma ScoreCaptureExample()
    ensures ScoreCapture("SCORE: 0.85") == Some("0.85")
  {
    var s := "SCORE: 0.85";
    assert FoldedAt(s, 0, "score:");
    assert SpacesFrom(s, 6) == 1;
    assert NumRunFrom(s, 7) == 4;
    assert FirstScoreMatch(s, 0) == Some(0);
    assert s[7..11] == "0.85";
  }

  lemma ParseDecimalExample()
    ensures ParseDecimal("0.85") == Some(0.85)
  {
    assert IndexOfChar("0.85", '.') == 1;
    assert Whole("0.85") == "0" && Frac("0.85") == "85";
    assert FracValue("85") == 0.85;
  }

  /** A score above 1 is ignored. */
  lemma OutOfRangeScoreIgnored()
    ensures LineScore("score:1.5").None?
  {
    var s := "score:1.5";
    assert FoldedAt(s, 0, "score:");
    assert SpacesFrom(s, 6) == 0;
    assert NumRunFrom(s, 6) == 3;
    assert FirstScoreMatch(s, 0) == Some(0);
    assert s[6..9] == "1.5";
    assert IndexOfChar("1.5", '.') == 1;
    assert Whole("1.5") == "1" && Frac("1.5") == "5";
  }

  /** PASS and FAIL count as whole words only. */
  lemma VerdictWordExamples()
    ensures HasPassFail("PASS") && SaysPass("PASS")
    ensures HasPassFail("Verdict: fail")
    ensures !HasPassFail("PASSED")
  {
    assert PassFailAt("PASS", 0);
    assert OccursAt(ToUpper("PASS"), "PASS", 0);
    assert PassFailAt("Verdict: fail", 9);
    assert !PassFailAt("PASSED", 0) && !PassFailAt("PASSED", 1) && !PassFailAt("PASSED", 2);
  }
}

=== FILE: loom.dfy ===
/** The fluent prompt builder of the top-level package (loom.go).  Each `With`
    method of the Go builder mutates and returns the builder; here each returns
    the updated builder value. */
module Loom {
  import opened Wrappers
  import opened Errors
  import opened Variables
  import opened Prompts
  import opened Template

  datatype Builder = Builder(
    id: string,
    version: string,
    name: string,
    description: string,
    system: string,
    tpl: string,
    variables: seq<Variable>,
    examples: seq<Example>,
    metadata: map<string, Value>)

  /** The version every builder starts with. */
  const InitialVersion := "1.0.0"

  /** `DefaultEngine`: the shared engine `Build` falls back to, made by
      `NewEngine` without options around the given `text/template`. */
  function DefaultEngine(run: TemplateRunner): (e: Engine)
    ensures e.config == TemplateConfig("{{", "}}", DefaultFuncNames)
  {
    var e := NewEngine(run, []);
    assert e.config.funcNames == DefaultFuncNames;
    e
  }

  /** `New`: only the id is set, the version is 1.0.0 and the metadata empty. */
  function New(id: string): (b: Builder)
    ensures b.id == id && b.version == InitialVersion
    ensures b.name == "" && b.description == "" && b.system == "" && b.tpl == ""
    ensures b.variables == [] && b.examples == [] && b.metadata == map[]
  {
    Builder(id, InitialVersion, "", "", "", "", [], [], map[])
  }

  /** The field setters: each sets one field and leaves the rest of the
      builder as it was. */
  function WithVersion(b: Builder, v: string): (r: Builder)
    ensures r.version == v && r.(version := b.version) == b
  {
    b.(version := v)
  }

  function WithName(b: Builder, name: string): (r: Builder)
    ensures r.name == name && r.(name := b.name) == b
  {
    b.(name := name)
  }

  function WithDescription(b: Builder, desc: string): (r: Builder)
    ensures r.description == desc && r.(description := b.description) == b
  {
    b.(description := desc)
  }

  function WithSystem(b: Builder, system: string): (r: Builder)
    ensures r.system == system && r.(system := b.system) == b
  {
    b.(system := system)
  }

  function WithTemplate(b: Builder, tpl: string): (r: Builder)
    ensures r.tpl == tpl && r.(tpl := b.tpl) == b
  {
    b.(tpl := tpl)
  }

  /** `WithVariable`: appends the declaration under the given name, whatever
      name it carried before; nothing else changes. */
  function WithVariable(b: Builder, name: string, v: Variable): (r: Builder)
    ensures r.variables == b.variables + [v.(name := name)]
    ensures r.(variables := b.variables) == b
  {
    b.(variables := b.variables + [v.(name := name)])
  }

  /** `WithExample`: appends an example of weight 1. */
  function WithExample(b: Builder, input: map<string, Value>, output: string): (r: Builder)
    ensures r.examples == b.examples + [Example(input, output, 1.0)]
    ensures r.(examples := b.examples) == b
  {
    b.(examples := b.examples + [Example(input, output, 1.0)])
  }

  /** `WithExampleWeight`: appends an example of the given weight. */
  function WithExampleWeight(b: Builder, input: map<string, Value>, output: string, weight: real): (r: Builder)
    ensures r.examples == b.examples + [Example(input, output, weight)]
    ensures r.(examples := b.examples) == b
  {
    b.(examples := b.examples + [Example(input, output, weight)])
  }

  /** `WithMetadata`: merges the entries in; a key given again takes the new value. */
  function WithMetadata(b: Builder, m: map<string, Value>): (r: Builder)
    ensures r.metadata.Keys == b.metadata.Keys + m.Keys
    ensures forall k :: k in m ==> r.metadata[k] == m[k]
    ensures forall k :: k in b.metadata && k !in m ==> r.metadata[k] == b.metadata[k]
    ensures r.(metadata := b.metadata) == b
  {
    b.(metadata := b.metadata + m)
  }

  /** Merging metadata twice is merging once with the two maps merged. */
  lemma WithMetadataTwice(b: Builder, m1: map<string, Value>, m2: map<string, Value>)
    ensures WithMetadata(WithMetadata(b, m1), m2) == WithMetadata(b, m1 + m2)
  {
    assert (b.metadata + m1) + m2 == b.metadata + (m1 + m2);
  }

  /** `Build`: a prompt with the builder's fields, a copy of its metadata, both
      timestamps at the instant `now` of the call, and the given engine (the
      default one when none is given) as renderer. */
  function Build(b: Builder, eng: Option<Engine>, defaultEngine: Engine, now: int): (p: Prompt)
    ensures p.id == b.id && p.version == b.version && p.name == b.name
    ensures p.description == b.description && p.system == b.system && p.template == b.tpl
    ensures p.variables == b.variables && p.examples == b.examples
    ensures p.metadata == Some(b.metadata)
    ensures p.createdAt == now && p.updatedAt == now
    ensures p.renderer == Some(eng.GetOr(defaultEngine))
  {
    Prompt(b.id, b.version, b.name, b.description, b.system, b.tpl, b.variables, b.examples,
           Some(b.metadata), now, now, Some(eng.GetOr(defaultEngine)))
  }

  /** A built prompt renders through its engine; its copy keeps every field
      except the renderer. */
  lemma BuildRendersWithEngine(b: Builder, eng: Option<Engine>, d: Engine, now: int, ctx: Ctx, input: Input)
    ensures RenderPrompt(Build(b, eng, d, now), ctx, input) == Render(eng.GetOr(d), ctx, Build(b, eng, d, now), input)
    ensures Copy(Build(b, eng, d, now)) == Build(b, eng, d, now).(renderer := None)
  {
  }

  /** The quick-start prompt of the package: a sentiment analyzer with a
      required `text` string. */
  function QuickStart(run: TemplateRunner, now: int): Prompt {
    Build(WithVariable(WithTemplate(WithSystem(New("sentiment-analyzer"),
            "You are an expert sentiment analyzer."), "Analyze the sentiment of: {{.text}}"),
            "text", String([Required])), None, DefaultEngine(run), now)
  }

  lemma QuickStartShape(run: TemplateRunner, now: int)
    ensures QuickStart(run, now).variables == [String([Required]).(name := "text")]
    ensures QuickStart(run, now).renderer == Some(DefaultEngine(run))
  {
  }

  /** Once built, the quick-start prompt rejects input without `text` as a
      validation failure, and accepts input with it (its templates' execution
      aside). */
  lemma QuickStartValidation(run: TemplateRunner, now: int)
    ensures Is(RenderPrompt(QuickStart(run, now), Live, map[]).error, ValidationFailed)
    ensures ValidateInput(QuickStart(run, now), map["text" := Str("This product is amazing!")]).None?
  {
    var p := QuickStart(run, now);
    QuickStartShape(run, now);
    StringRequiredExample();
    var v := String([Required]).(name := "text");
    SingleVariableMap(v);
    assert !Passes(v, map[]);
    assert Passes(v, map["text" := Str("This product is amazing!")]);
  }
}

=== FILE: middleware.dfy ===
/** Provider middleware (middleware/middleware.go): logging, metrics counters,
    a response cache, a token-bucket rate limiter and a circuit breaker, each
    wrapping the next provider.  A wrapped provider is a stack of layers over a
    base provider; each layer's mutable Go state is the layer's value, and a
    call returns the provider with its updated layers.  A `Middleware` value
    stands for one constructor call applied once: state that Go shares
    between applications (a `Metrics` middleware's counters and `next`, the
    `Cache` a cache middleware keeps) is copied into each layer. */
module Middleware {
  import opened Wrappers
  import opened Errors
  import opened Strings
  import opened Provider

  const Millisecond: int := 1_000_000
  const Hour: int := 3_600_000_000_000

  /** 2^64: Go's `uint64` counters wrap at this value. */
  const TwoTo64: int := 0x1_0000_0000_0000_0000

  type U64 = x: int | 0 <= x < TwoTo64

  /** `atomic.Uint64.Add(uint64(x))`: converting a possibly negative `int`
      to `uint64` and adding both wrap modulo 2^64. */
  function AddU64(a: U64, x: int): (r: U64)
    ensures 0 <= x && a + x < TwoTo64 ==> r == a + x
    ensures (r - a - x) % TwoTo64 == 0
  {
    (a + x) % TwoTo64
  }

  // ---------------------------------------------------------------------------
  // Logging

  /** What the logging layer hands to its `logf`. */
  datatype LogEntry =
    | LogStart(model: string, promptLen: nat)
    | LogError(err: Error)
    | LogOk(usage: TokenUsage)

  // ---------------------------------------------------------------------------
  // Metrics

  datatype Counters = Counters(requests: U64, errors: U64, promptTokens: U64, completionTokens: U64)

  const ZeroCounters := Counters(0, 0, 0, 0)

  /** The metrics layer's update for one call with the given outcome. */
  function Count(c: Counters, outcome: Result<CompletionResponse, Error>): (r: Counters)
    ensures r.requests == AddU64(c.requests, 1)
    ensures outcome.Failure? ==> r == c.(requests := r.requests, errors := AddU64(c.errors, 1))
    ensures outcome.Success? ==> r.errors == c.errors
    ensures outcome.Success? ==> r.promptTokens == AddU64(c.promptTokens, outcome.value.usage.promptTokens)
    ensures outcome.Success? ==> r.completionTokens == AddU64(c.completionTokens, outcome.value.usage.completionTokens)
  {
    var c1 := c.(requests := AddU64(c.requests, 1));
    if outcome.Failure? then c1.(errors := AddU64(c.errors, 1))
    else c1.(promptTokens := AddU64(c.promptTokens, outcome.value.usage.promptTokens),
             completionTokens := AddU64(c.completionTokens, outcome.value.usage.completionTokens))
  }

  function CountAll(c: Counters, outcomes: seq<Result<CompletionResponse, Error>>): Counters
    decreases |outcomes|
  {
    if |outcomes| == 0 then c else CountAll(Count(c, outcomes[0]), outcomes[1..])
  }

  function Failures(outcomes: seq<Result<CompletionResponse, Error>>): nat {
    if |outcomes| == 0 then 0 else (if outcomes[0].Failure? then 1 else 0) + Failures(outcomes[1..])
  }

  function PromptTokenSum(outcomes: seq<Result<CompletionResponse, Error>>): int {
    if |outcomes| == 0 then 0
    else (if outcomes[0].Success? then outcomes[0].value.usage.promptTokens else 0) + PromptTokenSum(outcomes[1..])
  }

  function CompletionTokenSum(outcomes: seq<Result<CompletionResponse, Error>>): int {
    if |outcomes| == 0 then 0
    else (if outcomes[0].Success? then outcomes[0].value.usage.completionTokens else 0) + CompletionTokenSum(outcomes[1..])
  }

  /** After a run of calls the counters hold, modulo 2^64, the number of calls,
      the number of failed calls and the token totals of the successful ones. */
  lemma {:induction false} CountAllTotals(c: Counters, outcomes: seq<Result<CompletionResponse, Error>>)
    ensures var r := CountAll(c, outcomes);
      r.requests == (c.requests + |outcomes|) % TwoTo64
      && r.errors == (c.errors + Failures(outcomes)) % TwoTo64
      && r.promptTokens == (c.promptTokens + PromptTokenSum(outcomes)) % TwoTo64
      && r.completionTokens == (c.completionTokens + CompletionTokenSum(outcomes)) % TwoTo64
    decreases |outcomes|
  {
    if |outcomes| > 0 {
      var c1 := Count(c, outcomes[0]);
      CountAllTotals(c1, outcomes[1..]);
      ModAddShift(c.requests, 1, |outcomes| - 1);
      ModAddShift(c.errors, if outcomes[0].Failure? then 1 else 0, Failures(outcomes[1..]));
      ModAddShift(c.promptTokens, if outcomes[0].Success? then outcomes[0].value.usage.promptTokens else 0, PromptTokenSum(outcomes[1..]));
      ModAddShift(c.completionTokens, if outcomes[0].Success? then outcomes[0].value.usage.completionTokens else 0, CompletionTokenSum(outcomes[1..]));
    }
  }

  /** Reducing modulo 2^64 after each addition or once at the end agrees. */
  lemma ModAddShift(a: int, x: int, y: int)
    ensures ((a + x) % TwoTo64 + y) % TwoTo64 == (a + x + y) % TwoTo64
  {
    var q := (a + x) / TwoTo64;
    assert (a + x) % TwoTo64 + y == (a + x + y) - q * TwoTo64;
    ModMultiple(a + x + y, q);
  }

  lemma ModMultiple(z: int, q: int)
    ensures (z - q * TwoTo64) % TwoTo64 == z % TwoTo64
  {
    var r := z % TwoTo64;
    assert z == (z / TwoTo64) * TwoTo64 + r;
    assert z - q * TwoTo64 == (z / TwoTo64 - q) * TwoTo64 + r;
  }

  // ---------------------------------------------------------------------------
  // Cache

  /** `InMemoryCache`'s entries.  A stored value is the response itself: the
      JSON encoding and decoding around the cache is taken to be lossless. */
  datatype CacheEntry = CacheEntry(val: CompletionResponse, expires: int)

  type CacheStore = map<string, CacheEntry>

  /** The cache key of a request: model, system text and prompt joined by NUL
      characters.  No other request field takes part. */
  function CacheKey(req: CompletionRequest): string {
    req.model + "\0" + req.system + "\0" + req.prompt
  }

  /** `CacheMiddleware`'s time to live: non-positive durations become an hour. */
  function EffectiveTTL(ttl: int): (r: int)
    ensures r > 0
    ensures ttl > 0 ==> r == ttl
    ensures ttl <= 0 ==> r == Hour
  {
    if ttl <= 0 then Hour else ttl
  }

  /** `InMemoryCache.Get` at instant `now`: a miss when the key is absent or
      `now` is after the expiry instant (the expiry instant itself still hits). */
  function CacheGet(store: CacheStore, key: string, now: int): (r: Option<CompletionResponse>)
    ensures r.Some? <==> key in store && now <= store[key].expires
    ensures r.Some? ==> r.value == store[key].val
  {
    if key in store && !(now > store[key].expires) then Some(store[key].val) else None
  }

  /** `InMemoryCache.Set` at instant `now`. */
  function CacheSet(store: CacheStore, key: string, val: CompletionResponse, ttl: int, now: int): (r: CacheStore)
    ensures r.Keys == store.Keys + {key}
    ensures r[key] == CacheEntry(val, now + ttl)
    ensures forall k :: k in store && k != key ==> r[k] == store[k]
  {
    store[key := CacheEntry(val, now + ttl)]
  }

  /** A stored value is read back until its time to live has passed, and never
      after. */
  lemma CacheSetThenGet(store: CacheStore, key: string, val: CompletionResponse, ttl: int, now: int, later: int)
    ensures CacheGet(CacheSet(store, key, val, ttl, now), key, later) == (if later <= now + ttl then Some(val) else None)
  {
  }

  predicate NulFree(s: string) {
    '\0' !in s
  }

  /** The first NUL of a key made of NUL-free fields ends the model. */
  lemma KeyFieldSplit(a: string, b: string, a': string, b': string)
    requires NulFree(a) && NulFree(a')
    requires a + "\0" + b == a' + "\0" + b'
    ensures a == a' && b == b'
  {
    var k := a + "\0" + b;
    assert forall j :: 0 <= j < |a| ==> k[j] == a[j] != '\0';
    assert forall j :: 0 <= j < |a'| ==> k[j] == a'[j] != '\0';
    assert k[|a|] == '\0' && k[|a'|] == '\0';
    assert a == k[..|a|] == a';
    assert b == k[|a| + 1..] == b';
  }

  /** For NUL-free models and system texts two requests share a cache entry
      exactly when they agree on model, system text and prompt. */
  lemma {:induction false} CacheKeyInjective(r1: CompletionRequest, r2: CompletionRequest)
    requires NulFree(r1.model) && NulFree(r2.model) && NulFree(r1.system) && NulFree(r2.system)
    ensures CacheKey(r1) == CacheKey(r2) <==>
      (r1.model == r2.model && r1.system == r2.system && r1.prompt == r2.prompt)
  {
    if CacheKey(r1) == CacheKey(r2) {
      assert CacheKey(r1) == r1.model + "\0" + (r1.system + "\0" + r1.prompt);
      assert CacheKey(r2) == r2.model + "\0" + (r2.system + "\0" + r2.prompt);
      KeyFieldSplit(r1.model, r1.system + "\0" + r1.prompt, r2.model, r2.system + "\0" + r2.prompt);
      KeyFieldSplit(r1.system, r1.prompt, r2.system, r2.prompt);
    }
  }

  /** Without the NUL-free condition two different requests can share a key. */
  lemma CacheKeyCollision()
    ensures var r1 := Request("p", "s", "m\0x");
            var r2 := Request("s\0p", "x", "m");
      r1 != r2 && CacheKey(r1) == CacheKey(r2)
  {
    var r1 := Request("p", "s", "m\0x");
    var r2 := Request("s\0p", "x", "m");
    assert r1.prompt != r2.prompt;
    assert CacheKey(r1) == "m\0x\0s\0p" == CacheKey(r2);
  }

  /** Requests differing only in sampling parameters share a cache entry. */
  lemma CacheKeyIgnoresSampling(req: CompletionRequest, temperature: real, maxTokens: int, topP: real)
    ensures CacheKey(req.(temperature := temperature, maxTokens := maxTokens, topP := topP)) == CacheKey(req)
  {
  }

  // ---------------------------------------------------------------------------
  // Rate limiter

  /** The buffered channel of `rateLimitProvider` as a count of permits. */
  datatype Limiter = Limiter(limit: int, window: int, permits: int)

  predicate LimiterValid(l: Limiter) {
    l.limit > 0 && 0 <= l.permits <= l.limit
  }

  /** Building the limiter: a full bucket.  A non-positive limit makes Go panic
      (a negative channel capacity, or a division by zero in the refill
      goroutine), which is `None` here. */
  function NewLimiter(limit: int, window: int): (r: Option<Limiter>)
    ensures r.Some? <==> limit > 0
    ensures r.Some? ==> LimiterValid(r.value) && r.value.permits == limit
  {
    if limit <= 0 then None else Some(Limiter(limit, window, limit))
  }

  /** Go's `/` on integers truncates toward zero. */
  function TruncDiv(a: int, b: int): (q: int)
    requires b > 0
    ensures a >= 0 ==> q == a / b
    ensures a < 0 ==> q == -((-a) / b)
  {
    if a >= 0 then a / b else -((-a) / b)
  }

  /** The refill period: the window divided by the limit, at least a millisecond. */
  function RefillTick(l: Limiter): (tick: int)
    requires l.limit > 0
    ensures tick >= Millisecond
    ensures TruncDiv(l.window, l.limit) >= Millisecond ==> tick == TruncDiv(l.window, l.limit)
    ensures TruncDiv(l.window, l.limit) < Millisecond ==> tick == Millisecond
  {
    var tick := TruncDiv(l.window, l.limit);
    if tick < Millisecond then Millisecond else tick
  }

  /** One refill tick: a permit is added unless the bucket is full. */
  function Tick(l: Limiter): (r: Limiter)
    requires LimiterValid(l)
    ensures LimiterValid(r)
    ensures r.permits == (if l.permits < l.limit then l.permits + 1 else l.limit)
  {
    if l.permits < l.limit then l.(permits := l.permits + 1) else l
  }

  /** How an acquisition ended: with a permit from the bucket, with the permit
      of a tick it waited for, or with the context's error. */
  datatype Grant = FromBucket | FromTick | Refused(err: Error)

  /** The `select` in `rateLimitProvider.Complete`.  `ctx` is the context when
      the call arrives; when a permit is available and the context is done,
      Go picks a ready case at random, which is `ctxWins`.  With an empty
      bucket and a live context the call waits: `wake` is `Live` when the next
      tick's permit arrives first and `Done(e)` when the context ends first. */
  function Acquire(l: Limiter, ctx: Ctx, ctxWins: bool, wake: Ctx): (r: (Limiter, Grant))
    requires LimiterValid(l)
    ensures LimiterValid(r.0)
    ensures r.1.FromBucket? <==> l.permits > 0 && (ctx.Live? || !ctxWins)
    ensures r.1.FromBucket? ==> r.0.permits == l.permits - 1
    ensures r.1.FromTick? <==> l.permits == 0 && ctx.Live? && wake.Live?
    ensures !r.1.FromBucket? ==> r.0 == l
    ensures r.1.Refused? ==> (ctx.Done? && r.1.err == ctx.err) || (wake.Done? && r.1.err == wake.err)
  {
    if l.permits > 0 && (ctx.Live? || !ctxWins) then (l.(permits := l.permits - 1), FromBucket)
    else if ctx.Done? then (l, Refused(ctx.err))
    else if wake.Live? then (l, FromTick)
    else (l, Refused(wake.err))
  }

  /** What happens to a limiter: a refill tick, or a call's acquisition. */
  datatype LimiterEvent = TickEvent | CallEvent(ctx: Ctx, ctxWins: bool, wake: Ctx)

  function TickCount(events: seq<LimiterEvent>): nat {
    if |events| == 0 then 0 else (if events[0].TickEvent? then 1 else 0) + TickCount(events[1..])
  }

  /** The events with the first refill tick taken out, or `None` when no tick
      is left. */
  function WithoutFirstTick(events: seq<LimiterEvent>): (r: Option<seq<LimiterEvent>>)
    ensures r.None? <==> TickCount(events) == 0
    ensures r.Some? ==> |r.value| < |events| && TickCount(r.value) + 1 == TickCount(events)
  {
    if |events| == 0 then None
    else if events[0].TickEvent? then Some(events[1..])
    else
      match WithoutFirstTick(events[1..])
      case None => None
      case Some(rest) =>
        assert ([events[0]] + rest)[1..] == rest;
        Some([events[0]] + rest)
  }

  /** Runs the events; returns the final limiter and the grants of the calls
      that finished, in order.  A call that waits on an empty bucket is handed
      the permit of the next refill tick, which therefore never reaches the
      bucket; when no tick is left the call is still waiting at the end and
      has no grant. */
  function RunLimiter(l: Limiter, events: seq<LimiterEvent>): (r: (Limiter, seq<Grant>))
    requires LimiterValid(l)
    ensures LimiterValid(r.0)
    decreases |events|
  {
    if |events| == 0 then (l, [])
    else
      match events[0]
      case TickEvent => RunLimiter(Tick(l), events[1..])
      case CallEvent(ctx, ctxWins, wake) =>
        var (l1, g) := Acquire(l, ctx, ctxWins, wake);
        if g.FromTick? then
          match WithoutFirstTick(events[1..])
          case None => RunLimiter(l1, events[1..])
          case Some(rest) =>
            var (l2, gs) := RunLimiter(l1, rest);
            (l2, [g] + gs)
        else
          var (l2, gs) := RunLimiter(l1, events[1..]);
          (l2, [g] + gs)
  }

  /** The calls let through, from the bucket or by a tick's permit. */
  function Served(grants: seq<Grant>): nat {
    if |grants| == 0 then 0 else (if grants[0].Refused? then 0 else 1) + Served(grants[1..])
  }

  /** The rate limit: the calls let through, together with the permits left
      in the bucket, never outnumber the permits the bucket started with plus
      the refill ticks since. */
  lemma {:induction false} ServedBounded(l: Limiter, events: seq<LimiterEvent>)
    requires LimiterValid(l)
    ensures var r := RunLimiter(l, events);
      Served(r.1) + r.0.permits <= l.permits + TickCount(events)
    decreases |events|
  {
    if |events| > 0 {
      match events[0]
      case TickEvent =>
        ServedBounded(Tick(l), events[1..]);
      case CallEvent(ctx, ctxWins, wake) =>
        var (l1, g) := Acquire(l, ctx, ctxWins, wake);
        if g.FromTick? {
          match WithoutFirstTick(events[1..])
          case None =>
            ServedBounded(l1, events[1..]);
          case Some(rest) =>
            ServedBounded(l1, rest);
            var (l2, gs) := RunLimiter(l1, rest);
            assert ([g] + gs)[1..] == gs;
        } else {
          ServedBounded(l1, events[1..]);
          var (l2, gs) := RunLimiter(l1, events[1..]);
          assert ([g] + gs)[1..] == gs;
        }
    }
  }

  // ---------------------------------------------------------------------------
  // Circuit breaker

  datatype BreakerState = Closed | Open | HalfOpen

  /** `circuitBreakerProvider`.  The request and failure counters are
      cumulative: nothing resets them. */
  datatype Breaker = Breaker(
    threshold: real,
    timeout: int,
    requests: nat,
    failures: nat,
    state: BreakerState,
    openUntil: int)

  predicate BreakerValid(b: Breaker) {
    b.failures <= b.requests
  }

  /** `CircuitBreaker(threshold, timeout)`: closed, with zero counters. */
  function NewBreaker(threshold: real, timeout: int): (b: Breaker)
    ensures BreakerValid(b) && b.state == Closed && b.requests == 0 && b.failures == 0
  {
    Breaker(threshold, timeout, 0, 0, Closed, 0)
  }

  /** The gate before the call: an open breaker refuses until `openUntil` and
      afterwards lets the call through half-open; every admitted call counts. */
  function Admit(b: Breaker, now: int): (r: Option<Breaker>)
    requires BreakerValid(b)
    ensures r.None? <==> b.state == Open && now < b.openUntil
    ensures r.Some? ==> r.value.failures < r.value.requests == b.requests + 1 && r.value.failures == b.failures
    ensures r.Some? ==> r.value.state == (if b.state == Open then HalfOpen else b.state)
    ensures r.Some? ==> r.value.openUntil == b.openUntil && r.value.threshold == b.threshold && r.value.timeout == b.timeout
  {
    if b.state == Open && now < b.openUntil then None
    else
      var b1 := if b.state == Open then b.(state := HalfOpen) else b;
      Some(b1.(requests := b1.requests + 1))
  }

  /** The failure rate the breaker compares with its threshold. */
  function FailureRate(b: Breaker): real
    requires b.requests > 0
  {
    (b.failures as real) / (b.requests as real)
  }

  /** The bookkeeping after the call. */
  function Settle(b: Breaker, failed: bool, now: int): (r: Breaker)
    requires b.failures < b.requests
    ensures BreakerValid(r) && r.requests == b.requests
    ensures r.failures == (if failed then b.failures + 1 else b.failures)
    ensures failed && b.state == HalfOpen ==> r.state == Open && r.openUntil == now + b.timeout
    ensures failed && b.state != HalfOpen ==>
      (r.state == Open <==> b.state == Open || (b.requests >= 10 && FailureRate(r) >= b.threshold))
    ensures r.state == Open && b.state != Open ==> r.openUntil == now + b.timeout
    ensures !failed ==> r.state == (if b.state == HalfOpen then Closed else b.state) && r.openUntil == b.openUntil
  {
    if failed then
      var b1 := b.(failures := b.failures + 1);
      if b1.state == HalfOpen then b1.(state := Open, openUntil := now + b.timeout)
      else if b1.requests >= 10 && FailureRate(b1) >= b.threshold then b1.(state := Open, openUntil := now + b.timeout)
      else b1
    else if b.state == HalfOpen then b.(state := Closed)
    else b
  }

  /** Fewer than ten calls in total never open a closed breaker, whatever the
      failure rate. */
  lemma BreakerNeedsTenRequests(b: Breaker, now: int)
    requires BreakerValid(b) && b.state == Closed && b.requests < 9
    ensures Admit(b, now).Some?
    ensures Settle(Admit(b, now).value, true, now).state == Closed
  {
  }

  /** After the timeout, one success closes an open breaker and one failure
      reopens it for another timeout. */
  lemma BreakerRecovery(b: Breaker, now: int)
    requires BreakerValid(b) && b.state == Open && now >= b.openUntil
    ensures Admit(b, now).Some? && Admit(b, now).value.state == HalfOpen
    ensures Settle(Admit(b, now).value, false, now).state == Closed
    ensures var r := Settle(Admit(b, now).value, true, now);
      r.state == Open && r.openUntil == now + b.timeout
  {
  }

  // ---------------------------------------------------------------------------
  // The provider stack

  /** One middleware layer with its state.  `LoggingLayer(false)` is the
      logger built from a nil `logf`, which discards its messages. */
  datatype Layer =
    | LoggingLayer(enabled: bool)
    | MetricsLayer(counters: Counters)
    | CacheLayer(store: Option<CacheStore>, ttl: int)
    | RateLimitLayer(limiter: Limiter)
    | BreakerLayer(breaker: Breaker)

  /** A provider: a base provider, or a layer around the next provider. */
  datatype Stack = Base(name: string) | Wrapped(layer: Layer, next: Stack)

  /** A `Middleware`, as the constructor call that made it. */
  datatype Middleware =
    | Logging(hasLogf: bool)
    | Metrics
    | Cache(store: Option<CacheStore>, ttl: int)
    | RateLimit(limit: int, window: int)
    | CircuitBreaker(threshold: real, timeout: int)

  /** Applying a rate limit middleware with a non-positive limit panics. */
  predicate Applicable(m: Middleware) {
    m.RateLimit? ==> m.limit > 0
  }

  /** The layer a middleware puts around a provider. */
  function LayerOf(m: Middleware): (l: Layer)
    requires Applicable(m)
  {
    match m
    case Logging(hasLogf) => LoggingLayer(hasLogf)
    case Metrics => MetricsLayer(ZeroCounters)
    case Cache(store, ttl) => CacheLayer(store, EffectiveTTL(ttl))
    case RateLimit(limit, window) => RateLimitLayer(NewLimiter(limit, window).value)
    case CircuitBreaker(threshold, timeout) => BreakerLayer(NewBreaker(threshold, timeout))
  }

  /** The layers of a provider, outermost first. */
  function Layers(p: Stack): seq<Layer> {
    match p
    case Base(_) => []
    case Wrapped(l, next) => [l] + Layers(next)
  }

  function BaseOf(p: Stack): string {
    match p
    case Base(name) => name
    case Wrapped(_, next) => BaseOf(next)
  }

  /** The reference reading of `Chain`: the first middleware outermost. */
  function Nest(mws: seq<Middleware>, p: Stack): Stack
    requires forall i :: 0 <= i < |mws| ==> Applicable(mws[i])
  {
    if |mws| == 0 then p else Wrapped(LayerOf(mws[0]), Nest(mws[1..], p))
  }

  /** `Chain`: wraps from the last middleware to the first, so that the first
      ends up outermost and sees every call first. */
  method Chain(p: Stack, mws: seq<Middleware>) returns (r: Stack)
    requires forall i :: 0 <= i < |mws| ==> Applicable(mws[i])
    ensures r == Nest(mws, p)
    ensures |mws| > 0 ==> r.Wrapped? && r.layer == LayerOf(mws[0])
    ensures BaseOf(r) == BaseOf(p)
  {
    r := p;
    var i := |mws|;
    while i > 0
      invariant 0 <= i <= |mws|
      invariant r == Nest(mws[i..], p)
    {
      i := i - 1;
      assert mws[i..][1..] == mws[i + 1..];
      r := Wrapped(LayerOf(mws[i]), r);
    }
    assert mws[0..] == mws;
    NestKeepsBase(mws, p);
  }

  /** The layers of the middlewares, in the order given. */
  function LayersOf(mws: seq<Middleware>): seq<Layer>
    requires forall i :: 0 <= i < |mws| ==> Applicable(mws[i])
  {
    if |mws| == 0 then [] else [LayerOf(mws[0])] + LayersOf(mws[1..])
  }

  /** Nesting keeps the base provider and puts the middlewares' layers, first
      middleware outermost, over the provider's own. */
  lemma {:induction false} NestKeepsBase(mws: seq<Middleware>, p: Stack)
    requires forall i :: 0 <= i < |mws| ==> Applicable(mws[i])
    ensures BaseOf(Nest(mws, p)) == BaseOf(p)
    ensures Layers(Nest(mws, p)) == LayersOf(mws) + Layers(p)
    decreases |mws|
  {
    if |mws| > 0 {
      NestKeepsBase(mws[1..], p);
    }
  }

  /** Chaining in two steps is chaining once: `Chain(Chain(p, b), a)` is
      `Chain(p, a + b)`. */
  lemma {:induction false} NestAppend(a: seq<Middleware>, b: seq<Middleware>, p: Stack)
    requires forall i :: 0 <= i < |a| ==> Applicable(a[i])
    requires forall i :: 0 <= i < |b| ==> Applicable(b[i])
    ensures Nest(a, Nest(b, p)) == Nest(a + b, p)
    decreases |a|
  {
    if |a| > 0 {
      NestAppend(a[1..], b, p);
      assert (a + b)[1..] == a[1..] + b;
    } else {
      assert a + b == b;
    }
  }

  /** One `Complete` call as the stack sees it: the instant of the call, the
      caller's context, the limiter's oracles, and the base provider's answer
      to each request. */
  datatype Env = Env(
    now: int,
    ctx: Ctx,
    ctxWins: bool,
    wake: Ctx,
    base: CompletionRequest -> Result<CompletionResponse, Error>)

  /** A call's outcome: the provider with its updated layers, the result,
      whether the base provider was reached, and the log messages. */
  datatype Call = Call(provider: Stack, result: Result<CompletionResponse, Error>, forwarded: bool, log: seq<LogEntry>)

  /** The layers' kinds and configuration, ignoring their mutable state. */
  function Shape(l: Layer): Layer {
    match l
    case LoggingLayer(e) => LoggingLayer(e)
    case MetricsLayer(_) => MetricsLayer(ZeroCounters)
    case CacheLayer(_, ttl) => CacheLayer(None, ttl)
    case RateLimitLayer(lim) => RateLimitLayer(lim.(permits := 0))
    case BreakerLayer(b) => BreakerLayer(NewBreaker(b.threshold, b.timeout))
  }

  predicate SameShape(p: Stack, q: Stack) {
    match p
    case Base(n) => q == Base(n)
    case Wrapped(l, next) => q.Wrapped? && Shape(q.layer) == Shape(l) && SameShape(next, q.next)
  }

  lemma {:induction false} SameShapeReflexive(p: Stack)
    ensures SameShape(p, p)
    decreases p
  {
    if p.Wrapped? {
      SameShapeReflexive(p.next);
    }
  }

  /** Every rate-limit layer's bucket is valid and every breaker's counters are. */
  predicate StackValid(p: Stack) {
    match p
    case Base(_) => true
    case Wrapped(l, next) =>
      (l.RateLimitLayer? ==> LimiterValid(l.limiter))
      && (l.BreakerLayer? ==> BreakerValid(l.breaker))
      && StackValid(next)
  }

  /** Some cache layer of the stack holds `val` for `key`, unexpired at `now`. */
  predicate CachedIn(p: Stack, key: string, val: CompletionResponse, now: int) {
    match p
    case Base(_) => false
    case Wrapped(l, next) =>
      (l.CacheLayer? && l.store.Some? && CacheGet(l.store.value, key, now) == Some(val))
      || CachedIn(next, key, val, now)
  }

  /** The errors a layer produces itself, without the base provider. */
  predicate LayerError(env: Env, e: Error) {
    e == DeadlineExceeded || (env.ctx.Done? && e == env.ctx.err) || (env.wake.Done? && e == env.wake.err)
  }

  /** `Complete` through the stack.  Every layer passes the base provider's
      result through unchanged, so a call that reaches the base returns exactly
      its answer; a call that does not is a cache hit or an error raised by a
      limiter or breaker. */
  function Complete(p: Stack, req: CompletionRequest, env: Env): (r: Call)
    requires StackValid(p)
    ensures StackValid(r.provider) && SameShape(p, r.provider)
    ensures r.forwarded ==> r.result == env.base(req)
    ensures !r.forwarded && r.result.Success? ==> CachedIn(p, CacheKey(req), r.result.value, env.now)
    ensures !r.forwarded && r.result.Failure? ==> LayerError(env, r.result.error)
    decreases p
  {
    match p
    case Base(_) => Call(p, env.base(req), true, [])
    case Wrapped(l, next) =>
      match l
      case LoggingLayer(enabled) =>
        var inner := Complete(next, req, env);
        var log :=
          if !enabled then inner.log
          else [LogStart(req.model, Utf8Len(req.prompt))] + inner.log
               + [if inner.result.Failure? then LogError(inner.result.error) else LogOk(inner.result.value.usage)];
        Call(Wrapped(l, inner.provider), inner.result, inner.forwarded, log)
      case MetricsLayer(c) =>
        var inner := Complete(next, req, env);
        Call(Wrapped(MetricsLayer(Count(c, inner.result)), inner.provider), inner.result, inner.forwarded, inner.log)
      case CacheLayer(store, ttl) =>
        var key := CacheKey(req);
        var hit := if store.Some? then CacheGet(store.value, key, env.now) else None;
        if hit.Some? then
          SameShapeReflexive(p);
          Call(p, Success(hit.value), false, [])
        else
          var inner := Complete(next, req, env);
          var store' :=
            if store.Some? && inner.result.Success? then Some(CacheSet(store.value, key, inner.result.value, ttl, env.now))
            else store;
          Call(Wrapped(CacheLayer(store', ttl), inner.provider), inner.result, inner.forwarded, inner.log)
      case RateLimitLayer(lim) =>
        var (lim', grant) := Acquire(lim, env.ctx, env.ctxWins, env.wake);
        if grant.Refused? then
          SameShapeReflexive(next);
          Call(Wrapped(RateLimitLayer(lim'), next), Failure(grant.err), false, [])
        else
          var inner := Complete(next, req, env);
          Call(Wrapped(RateLimitLayer(lim'), inner.provider), inner.result, inner.forwarded, inner.log)
      case BreakerLayer(b) =>
        var admitted := Admit(b, env.now);
        if admitted.None? then
          SameShapeReflexive(p);
          Call(p, Failure(DeadlineExceeded), false, [])
        else
          var inner := Complete(next, req, env);
          var b' := Settle(admitted.value, inner.result.Failure?, env.now);
          Call(Wrapped(BreakerLayer(b'), inner.provider), inner.result, inner.forwarded, inner.log)
  }

  /** A stack of logging and metrics layers only is transparent: every call
      reaches the base provider. */
  predicate Observing(p: Stack) {
    match p
    case Base(_) => true
    case Wrapped(l, next) => (l.LoggingLayer? || l.MetricsLayer?) && Observing(next)
  }

  lemma {:induction false} ObservingIsTransparent(p: Stack, req: CompletionRequest, env: Env)
    requires StackValid(p) && Observing(p)
    ensures Complete(p, req, env).forwarded
    ensures Complete(p, req, env).result == env.base(req)
    decreases p
  {
    if p.Wrapped? {
      ObservingIsTransparent(p.next, req, env);
    }
  }

  /** The logging layer reports the model and the prompt's length in bytes
      before the call, and the error or the usage after it. */
  lemma LoggingBrackets(next: Stack, req: CompletionRequest, env: Env)
    requires StackValid(next)
    ensures var r := Complete(Wrapped(LoggingLayer(true), next), req, env);
      var inner := Complete(next, req, env);
      |r.log| >= 2 && r.log[0] == LogStart(req.model, Utf8Len(req.prompt))
      && r.log[|r.log| - 1] == (if r.result.Failure? then LogError(r.result.error) else LogOk(r.result.value.usage))
      && r.result == inner.result
  {
  }

  /** A metrics layer counts each call that reaches it exactly once. */
  lemma MetricsCountsEachCall(c: Counters, next: Stack, req: CompletionRequest, env: Env)
    requires StackValid(next)
    ensures var r := Complete(Wrapped(MetricsLayer(c), next), req, env);
      r.provider.layer == MetricsLayer(Count(c, r.result))
  {
  }

  /** After a successful call that missed the cache, the same request (or one
      differing only in sampling parameters) hits the cache until the time to
      live has passed, without reaching the provider behind the cache. */
  lemma CacheServesRepeat(store: CacheStore, ttl: int, next: Stack, req: CompletionRequest, env: Env, env2: Env)
    requires StackValid(next)
    requires CacheGet(store, CacheKey(req), env.now).None?
    requires Complete(next, req, env).result.Success?
    requires env2.now <= env.now + ttl
    ensures var r := Complete(Wrapped(CacheLayer(Some(store), ttl), next), req, env);
      var r2 := Complete(r.provider, req, env2);
      r2.result == r.result && !r2.forwarded && r2.provider == r.provider
  {
  }

  /** The cache layer stores only what it got from a successful call to the
      next provider: a hit or a failed call leaves its store as it was, and a
      successful miss adds exactly that response under the request's key. */
  lemma CacheStoresOnlySuccess(store: Option<CacheStore>, ttl: int, next: Stack, req: CompletionRequest, env: Env)
    requires StackValid(next)
    ensures var r := Complete(Wrapped(CacheLayer(store, ttl), next), req, env);
      var inner := Complete(next, req, env);
      r.provider.Wrapped? && r.provider.layer.CacheLayer? && r.provider.layer.ttl == ttl
      && (r.result.Failure? ==> r.provider.layer.store == store && r.result == inner.result)
      && (r.provider.layer.store != store ==>
            store.Some? && r.result.Success? && r.result == inner.result
            && r.provider.layer.store == Some(CacheSet(store.value, CacheKey(req), inner.result.value, ttl, env.now)))
  {
  }

  /** An open breaker inside its timeout refuses without reaching the next
      provider and without changing. */
  lemma OpenBreakerFailsFast(b: Breaker, next: Stack, req: CompletionRequest, env: Env)
    requires StackValid(next) && BreakerValid(b)
    requires b.state == Open && env.now < b.openUntil
    ensures var r := Complete(Wrapped(BreakerLayer(b), next), req, env);
      r.result == Failure(DeadlineExceeded) && !r.forwarded
      && r.provider == Wrapped(BreakerLayer(b), next)
  {
  }

  /** `Stream` and `GetModelInfo` of every layer hand the call to the next
      provider, so either reaches the base provider with its argument
      unchanged, and no layer's state changes. */
  function Delegate<A, T>(p: Stack, arg: A, base: A -> T): (r: T)
    ensures r == base(arg)
    decreases p
  {
    match p
    case Base(_) => base(arg)
    case Wrapped(_, next) => Delegate(next, arg, base)
  }
}

=== FILE: optimizer.dfy ===
/** A/B experiments over prompt variants (optimizer/optimizer.go): success
    counters per variant, a winner callback that fires at most once, and the
    weighted choice of a variant. */
module Optimizer {
  import opened Wrappers
  import opened Errors
  import opened Prompts
  import opened Template

  /** `Variant`; the float weight is a real, and a nil prompt is `None`. */
  datatype Variant = Variant(name: string, prompt: Option<Prompt>, weight: real)

  /** `Experiment`. `hasCallback` says whether `onWinner` is set; the callback
      itself is observed through the value `RecordSuccess` returns. */
  datatype Experiment = Experiment(
    name: string,
    variants: seq<Variant>,
    successes: seq<int>,
    totals: seq<int>,
    minSampleSize: int,
    confidenceLevel: real,
    hasCallback: bool,
    winnerFired: bool)

  /** The counters line up with the variants and never count more successes
      than events. */
  predicate Valid(e: Experiment) {
    |e.successes| == |e.variants| && |e.totals| == |e.variants|
    && forall i :: 0 <= i < |e.variants| ==> 0 <= e.successes[i] <= e.totals[i]
  }

  function NewExperiment(name: string): (e: Experiment)
    ensures Valid(e) && e.variants == [] && e.confidenceLevel == 0.95 && !e.winnerFired
  {
    Experiment(name, [], [], [], 0, 0.95, false, false)
  }

  /** `Variant`: appends the variant with zero counters. */
  function AddVariant(e: Experiment, name: string, p: Option<Prompt>, weight: real): (r: Experiment)
    ensures r.variants == e.variants + [Variant(name, p, weight)]
    ensures r.successes == e.successes + [0] && r.totals == e.totals + [0]
    ensures Valid(e) ==> Valid(r)
  {
    e.(variants := e.variants + [Variant(name, p, weight)],
       successes := e.successes + [0],
       totals := e.totals + [0])
  }

  /** `WithMinSampleSize`: sets the events each variant needs before a
      winner is considered; the variants and their counts are untouched. */
  function WithMinSampleSize(e: Experiment, n: int): (r: Experiment)
    ensures r.minSampleSize == n && r.(minSampleSize := e.minSampleSize) == e
    ensures Valid(e) ==> Valid(r)
  {
    e.(minSampleSize := n)
  }

  /** `WithConfidenceLevel`: stores the level; nothing else changes. */
  function WithConfidenceLevel(e: Experiment, c: real): (r: Experiment)
    ensures r.confidenceLevel == c && r.(confidenceLevel := e.confidenceLevel) == e
    ensures Valid(e) ==> Valid(r)
  {
    e.(confidenceLevel := c)
  }

  /** `WithOnWinner`: whether a callback is set; nothing else changes. */
  function WithOnWinner(e: Experiment, callback: bool): (r: Experiment)
    ensures r.hasCallback == callback && r.(hasCallback := e.hasCallback) == e
    ensures Valid(e) ==> Valid(r)
  {
    e.(hasCallback := callback)
  }

  /** The success rate of a variant with at least one event. */
  function Rate(e: Experiment, i: int): real
    requires Valid(e) && 0 <= i < |e.variants| && e.totals[i] != 0
  {
    e.successes[i] as real / e.totals[i] as real
  }

  /** A rate lies in [0, 1]. */
  lemma RateInUnit(e: Experiment, i: int)
    requires Valid(e) && 0 <= i < |e.variants| && e.totals[i] != 0
    ensures 0.0 <= Rate(e, i) <= 1.0
  {
    var s, t := e.successes[i] as real, e.totals[i] as real;
    assert Rate(e, i) * t == s;
  }

  /** The approximate z-test of `winnerLocked` (at the 1.96 threshold): does
      a variant with rate `best` over `bestTotal` events beat one with rate
      `other` over `total` events?  The square root is left abstract. */
  type Separation = (real, int, real, int) -> bool

  /** The first variant with the highest rate among those with events, by the
      scan of `winnerLocked`, starting from index `i` with the best so far. */
  function BestFrom(e: Experiment, i: nat, bestIdx: int, bestRate: real): (r: int)
    requires Valid(e) && i <= |e.variants|
    requires bestIdx == -1 ==> bestRate < 0.0
    requires bestIdx != -1 ==> 0 <= bestIdx < i && e.totals[bestIdx] != 0 && Rate(e, bestIdx) == bestRate
    ensures r == -1 || (0 <= r < |e.variants| && e.totals[r] != 0)
    ensures r == -1 ==> bestIdx == -1
    ensures r != -1 ==> forall j :: i <= j < |e.variants| && e.totals[j] != 0 ==> Rate(e, j) <= Rate(e, r)
    ensures r != -1 && bestIdx != -1 ==> bestRate <= Rate(e, r)
    ensures r != -1 ==> forall j :: i <= j < r && e.totals[j] != 0 ==> Rate(e, j) < Rate(e, r)
    ensures r != -1 && r != bestIdx ==> i <= r && bestRate < Rate(e, r)
    ensures r == -1 ==> forall j :: i <= j < |e.variants| ==> e.totals[j] == 0
    decreases |e.variants| - i
  {
    if i == |e.variants| then bestIdx
    else if e.totals[i] == 0 then BestFrom(e, i + 1, bestIdx, bestRate)
    else
      RateInUnit(e, i);
      if Rate(e, i) > bestRate then BestFrom(e, i + 1, i, Rate(e, i))
      else BestFrom(e, i + 1, bestIdx, bestRate)
  }

  /** The leading variant: the first one of the highest rate, or -1 when no
      variant has events.  Rates lie in [0, 1], so the initial -1.0 of the
      scan is beaten by any variant with events. */
  function Best(e: Experiment): (r: int)
    requires Valid(e)
    ensures r == -1 <==> forall j :: 0 <= j < |e.variants| ==> e.totals[j] == 0
    ensures r != -1 ==> 0 <= r < |e.variants| && e.totals[r] != 0
    ensures r != -1 ==> forall j :: 0 <= j < |e.variants| && e.totals[j] != 0 ==> Rate(e, j) <= Rate(e, r)
    ensures r != -1 ==> forall j :: 0 <= j < r && e.totals[j] != 0 ==> Rate(e, j) < Rate(e, r)
  {
    BestFrom(e, 0, -1, -1.0)
  }

  /** Every other variant with events is beaten by the leader. */
  predicate Separated(e: Experiment, best: int, sep: Separation)
    requires Valid(e) && 0 <= best < |e.variants| && e.totals[best] != 0
  {
    forall i :: 0 <= i < |e.variants| && i != best && e.totals[i] != 0 ==>
      sep(Rate(e, best), e.totals[best], Rate(e, i), e.totals[i])
  }

  /** `winnerLocked`: the leader, when it beats every other variant. */
  function WinnerLocked(e: Experiment, sep: Separation): (w: Option<nat>)
    requires Valid(e)
    ensures w.Some? <==> Best(e) != -1 && Separated(e, Best(e), sep)
    ensures w.Some? ==> w.value == Best(e)
  {
    var b := Best(e);
    if b == -1 || !Separated(e, b, sep) then None else Some(b as nat)
  }

  /** Every variant has at least `minSampleSize` events. */
  predicate SampledEnough(e: Experiment) {
    forall i :: 0 <= i < |e.totals| ==> e.totals[i] >= e.minSampleSize
  }

  /** `HasWinner`: at least two variants, every one sampled enough, and a
      separated leader. */
  function HasWinner(e: Experiment, sep: Separation): (b: bool)
    requires Valid(e)
    ensures b <==> |e.variants| >= 2 && SampledEnough(e) && WinnerLocked(e, sep).Some?
    ensures |e.variants| < 2 ==> !b
  {
    if |e.variants| < 2 then false
    else if !SampledEnough(e) then false
    else WinnerLocked(e, sep).Some?
  }

  /** `GetWinner`: the leader's name when it is separated. */
  function GetWinner(e: Experiment, sep: Separation): (r: Option<string>)
    requires Valid(e)
    ensures r.Some? <==> WinnerLocked(e, sep).Some?
    ensures r.Some? ==> r.value == e.variants[Best(e)].name
  {
    match WinnerLocked(e, sep)
    case None => None
    case Some(i) => Some(e.variants[i].name)
  }

  /** The position of the first variant called `name`. */
  function FindVariant(vs: seq<Variant>, name: string): (r: Option<nat>)
    ensures r.Some? ==> r.value < |vs| && vs[r.value].name == name
    ensures r.Some? ==> forall j :: 0 <= j < r.value ==> vs[j].name != name
    ensures r.None? <==> forall j :: 0 <= j < |vs| ==> vs[j].name != name
    decreases |vs|
  {
    if |vs| == 0 then None
    else if vs[0].name == name then Some(0)
    else
      var rest := FindVariant(vs[1..], name);
      assert forall j :: 1 <= j < |vs| ==> vs[j] == vs[1..][j - 1];
      if rest.None? then None else Some(rest.value + 1)
  }

  /** The counting part of `RecordSuccess`: the first variant of that name
      gets one more event, and one more success when `success` holds. */
  function Count(e: Experiment, name: string, success: bool): (r: Experiment)
    requires Valid(e)
    ensures Valid(r)
    ensures r.variants == e.variants && r.winnerFired == e.winnerFired && r.minSampleSize == e.minSampleSize
    ensures FindVariant(e.variants, name).None? ==> r == e
    ensures FindVariant(e.variants, name).Some? ==>
      var i := FindVariant(e.variants, name).value;
      r.totals == e.totals[i := e.totals[i] + 1]
      && r.successes == e.successes[i := e.successes[i] + if success then 1 else 0]
  {
    match FindVariant(e.variants, name)
    case None => e
    case Some(i) =>
      e.(totals := e.totals[i := e.totals[i] + 1],
         successes := e.successes[i := e.successes[i] + if success then 1 else 0])
  }

  /** The callback invocation: the winner's name and prompt. */
  datatype Fired = Fired(name: string, prompt: Option<Prompt>)

  /** The experiment after a call, and the callback fired during it, if any. */
  datatype Recorded = Recorded(exp: Experiment, fired: Option<Fired>)

  /** `RecordSuccess` as the code does it: after counting, the callback
      fires as soon as `winnerLocked` reports a leader, without the
      sample-size and variant-count gate of `HasWinner`. */
  function RecordSuccessAsWritten(e: Experiment, name: string, success: bool, sep: Separation): (r: Recorded)
    requires Valid(e)
    ensures Valid(r.exp)
    ensures r.exp.(winnerFired := e.winnerFired) == Count(e, name, success)
    ensures r.fired.Some? ==> !e.winnerFired && r.exp.winnerFired
  {
    var c := Count(e, name, success);
    if FindVariant(e.variants, name).None? || c.winnerFired || !c.hasCallback then Recorded(c, None)
    else match WinnerLocked(c, sep)
      case None => Recorded(c, None)
      case Some(i) => Recorded(c.(winnerFired := true), Some(Fired(c.variants[i].name, c.variants[i].prompt)))
  }

  /** With two variants and a minimum sample of 100 events, a single
      success of the first variant fires the callback, although `HasWinner`
      is false: the second variant has no event yet. */
  lemma WinnerFiresBeforeSampleSize(a: Variant, b: Variant, sep: Separation)
    requires a.name != b.name
    ensures var e := WithOnWinner(WithMinSampleSize(AddVariant(AddVariant(NewExperiment("exp"), a.name, a.prompt, a.weight),
                                                                 b.name, b.prompt, b.weight), 100), true);
      var r := RecordSuccessAsWritten(e, a.name, true, sep);
      r.fired == Some(Fired(a.name, a.prompt)) && !HasWinner(r.exp, sep)
  {
    var e := WithOnWinner(WithMinSampleSize(AddVariant(AddVariant(NewExperiment("exp"), a.name, a.prompt, a.weight),
                                                         b.name, b.prompt, b.weight), 100), true);
    assert FindVariant(e.variants, a.name) == Some(0);
    var c := Count(e, a.name, true);
    assert c.totals == [1, 0] && c.successes == [1, 0];
    assert Rate(c, 0) == 1.0;
    assert Best(c) == 0;
    assert !SampledEnough(c) by { assert c.totals[1] < c.minSampleSize; }
  }

  /** `RecordSuccess` as its documentation promises: the callback fires,
      once, when `HasWinner` becomes true (`RecordSuccessFires`). */
  function RecordSuccess(e: Experiment, name: string, success: bool, sep: Separation): (r: Recorded)
    requires Valid(e)
    ensures Valid(r.exp)
    ensures r.exp.(winnerFired := e.winnerFired) == Count(e, name, success)
    ensures e.winnerFired ==> r.fired.None? && r.exp.winnerFired
    ensures r.exp.winnerFired <==> e.winnerFired || r.fired.Some?
  {
    var c := Count(e, name, success);
    if FindVariant(e.variants, name).None? || c.winnerFired || !c.hasCallback || !HasWinner(c, sep) then Recorded(c, None)
    else
      var i := WinnerLocked(c, sep).value;
      Recorded(c.(winnerFired := true), Some(Fired(c.variants[i].name, c.variants[i].prompt)))
  }

  /** The callback fires exactly when a known variant's outcome makes
      `HasWinner` true for the first time and a callback is set, and it is
      given the leader. */
  lemma RecordSuccessFires(e: Experiment, name: string, success: bool, sep: Separation, r: Recorded)
    requires Valid(e) && r == RecordSuccess(e, name, success, sep)
    ensures r.fired.Some? <==>
      FindVariant(e.variants, name).Some? && e.hasCallback && !e.winnerFired && HasWinner(Count(e, name, success), sep)
    ensures r.fired.Some? ==> HasWinner(r.exp, sep)
    ensures r.fired.Some? ==> r.fired.value == Fired(r.exp.variants[Best(r.exp)].name, r.exp.variants[Best(r.exp)].prompt)
  {
  }

  /** A series of outcomes, each by variant name and success. */
  function RecordAll(e: Experiment, events: seq<(string, bool)>, sep: Separation): (r: Recorded)
    requires Valid(e)
    ensures Valid(r.exp)
    decreases |events|
  {
    if |events| == 0 then Recorded(e, None)
    else
      var prev := RecordAll(e, events[..|events| - 1], sep);
      var last := events[|events| - 1];
      var step := RecordSuccess(prev.exp, last.0, last.1, sep);
      Recorded(step.exp, if prev.fired.Some? then prev.fired else step.fired)
  }

  /** The number of callback invocations over a series of outcomes. */
  function Firings(e: Experiment, events: seq<(string, bool)>, sep: Separation): nat
    requires Valid(e)
    decreases |events|
  {
    if |events| == 0 then 0
    else
      var prev := RecordAll(e, events[..|events| - 1], sep);
      Firings(e, events[..|events| - 1], sep)
        + if RecordSuccess(prev.exp, events[|events| - 1].0, events[|events| - 1].1, sep).fired.Some? then 1 else 0
  }

  /** The callback fires at most once per experiment, and never again once
      it has fired. */
  lemma {:induction false} FiresAtMostOnce(e: Experiment, events: seq<(string, bool)>, sep: Separation)
    requires Valid(e)
    ensures Firings(e, events, sep) <= 1
    ensures e.winnerFired ==> Firings(e, events, sep) == 0
    ensures Firings(e, events, sep) == 1 ==> RecordAll(e, events, sep).exp.winnerFired
    ensures Firings(e, events, sep) == 0 ==> RecordAll(e, events, sep).exp.winnerFired == e.winnerFired
    decreases |events|
  {
    if |events| > 0 {
      FiresAtMostOnce(e, events[..|events| - 1], sep);
    }
  }

  /** The sum of the weights. */
  function Sum(ws: seq<real>): real {
    if |ws| == 0 then 0.0 else Sum(ws[..|ws| - 1]) + ws[|ws| - 1]
  }

  /** The running weight sum up to and including index `j`. */
  function Through(ws: seq<real>, j: int): real
    requires 0 <= j < |ws|
  {
    Sum(ws[..j + 1])
  }

  /** `selectWeightedIndex`, with `u` the draw of `rand.Float64`: the first
      index whose running weight sum reaches `u` times the total, the last
      index when rounding leaves none, and 0 when the total is not positive. */
  method SelectWeightedIndex(weights: seq<real>, u: real) returns (idx: int)
    ensures Sum(weights) <= 0.0 ==> idx == 0
    ensures |weights| > 0 ==> 0 <= idx < |weights|
    ensures Sum(weights) > 0.0 && 0 <= idx < |weights| ==>
      forall j :: 0 <= j < idx ==> Through(weights, j) < u * Sum(weights)
    ensures Sum(weights) > 0.0 && 0 <= idx < |weights| - 1 ==> u * Sum(weights) <= Through(weights, idx)
  {
    var sum := 0.0;
    var i := 0;
    while i < |weights|
      invariant 0 <= i <= |weights| && sum == Sum(weights[..i])
    {
      assert weights[..i + 1][..i] == weights[..i];
      sum := sum + weights[i];
      i := i + 1;
    }
    assert weights[..|weights|] == weights;
    if sum <= 0.0 {
      return 0;
    }
    var r := u * sum;
    i := 0;
    while i < |weights|
      invariant 0 <= i <= |weights|
      invariant r == u * sum - Sum(weights[..i])
      invariant forall j :: 0 <= j < i ==> Through(weights, j) < u * sum
    {
      assert weights[..i + 1][..i] == weights[..i];
      r := r - weights[i];
      if r <= 0.0 {
        return i;
      }
      i := i + 1;
    }
    return |weights| - 1;
  }

  /** `r` is what rendering variant `i` gives: its rendering and its name,
      or the render error. */
  predicate RendersVariant(e: Experiment, ctx: Ctx, input: Input, i: int, r: Result<Option<(Rendered, string)>, Error>)
    requires forall i :: 0 <= i < |e.variants| ==> e.variants[i].prompt.Some?
  {
    0 <= i < |e.variants|
    && var rp := RenderPrompt(e.variants[i].prompt.value, ctx, input);
    r == (if rp.Success? then Success(Some((rp.value, e.variants[i].name))) else Failure(rp.error))
  }

  /** `Execute`: a rendered variant chosen by weight, with its name; an
      experiment without variants yields nothing and no error.  A nil
      variant prompt would make the Go code panic, so every prompt is set. */
  method Execute(e: Experiment, ctx: Ctx, input: Input, u: real) returns (r: Result<Option<(Rendered, string)>, Error>)
    requires Valid(e)
    requires forall i :: 0 <= i < |e.variants| ==> e.variants[i].prompt.Some?
    ensures |e.variants| == 0 ==> r == Success(None)
    ensures |e.variants| > 0 ==> exists i :: RendersVariant(e, ctx, input, i, r)
  {
    if |e.variants| == 0 {
      return Success(None);
    }
    var weights := seq(|e.variants|, i requires 0 <= i < |e.variants| => e.variants[i].weight);
    var idx := SelectWeightedIndex(weights, u);
    var v := e.variants[idx];
    var rendered := RenderPrompt(v.prompt.value, ctx, input);
    if rendered.Failure? {
      r := Failure(rendered.error);
    } else {
      r := Success(Some((rendered.value, v.name)));
    }
    assert RendersVariant(e, ctx, input, idx, r);
  }

  /** `Promote`: the prompt of the first variant with that name, or nil. */
  function Promote(e: Experiment, name: string): (r: Option<Prompt>)
    ensures FindVariant(e.variants, name).None? ==> r.None?
    ensures FindVariant(e.variants, name).Some? ==> r == e.variants[FindVariant(e.variants, name).value].prompt
  {
    match FindVariant(e.variants, name)
    case None => None
    case Some(i) => e.variants[i].prompt
  }

  /** `Stats`: names, successes and totals, position by position. */
  function Stats(e: Experiment): (r: (seq<string>, seq<int>, seq<int>))
    requires Valid(e)
    ensures |r.0| == |r.1| == |r.2| == |e.variants|
    ensures forall i :: 0 <= i < |e.variants| ==>
      r.0[i] == e.variants[i].name && r.1[i] == e.successes[i] && r.2[i] == e.totals[i] && r.1[i] <= r.2[i]
  {
    (seq(|e.variants|, i requires 0 <= i < |e.variants| => e.variants[i].name), e.successes, e.totals)
  }

  /** Recording for an unknown variant changes nothing. */
  lemma UnknownVariantIgnored(e: Experiment, name: string, success: bool, sep: Separation)
    requires Valid(e) && forall i :: 0 <= i < |e.variants| ==> e.variants[i].name != name
    ensures RecordSuccess(e, name, success, sep) == Recorded(e, None)
  {
  }

  /** A recorded outcome raises the event count of its variant by one, and
      the success count by one exactly for a success. */
  lemma RecordCounts(e: Experiment, i: nat, success: bool, sep: Separation)
    requires Valid(e) && i < |e.variants|
    requires forall j :: 0 <= j < i ==> e.variants[j].name != e.variants[i].name
    ensures var r := RecordSuccess(e, e.variants[i].name, success, sep).exp;
      r.totals[i] == e.totals[i] + 1 && r.successes[i] == e.successes[i] + (if success then 1 else 0)
  {
    assert FindVariant(e.variants, e.variants[i].name) == Some(i);
  }
}

=== FILE: prompts.dfy ===
/** Prompts (core/prompt.go): a versioned template with declared variables,
    few-shot examples and metadata, the input validation against the declared
    variables, and the copy that registries hand out. */
module Prompts {
  import opened Wrappers
  import opened Errors
  import opened Variables

  /** `core.Input`: variable name to dynamic value. */
  type Input = map<string, Value>

  datatype Example = Example(input: map<string, Value>, output: string, weight: real)

  /** `core.Rendered`. */
  datatype Rendered = Rendered(system: string, user: string, input: Input)

  /** Go's `text/template` parse-and-execute, which this model leaves abstract:
      given the engine's delimiters and function names, a template text and the
      data map it either yields the rendered text or fails. */
  type TemplateRunner = (TemplateConfig, string, map<string, Value>) -> Result<string, Error>

  datatype TemplateConfig = TemplateConfig(leftDelim: string, rightDelim: string, funcNames: set<string>)

  /** `template.Engine`, the one `core.Renderer` of the repository. */
  datatype Engine = Engine(config: TemplateConfig, run: TemplateRunner)

  /** `core.Prompt`.  `metadata` is `None` for a nil Go map; `renderer` is the
      unexported renderer field; times are instants in nanoseconds. */
  datatype Prompt = Prompt(
    id: string,
    version: string,
    name: string,
    description: string,
    system: string,
    template: string,
    variables: seq<Variable>,
    examples: seq<Example>,
    metadata: Option<map<string, Value>>,
    createdAt: int,
    updatedAt: int,
    renderer: Option<Engine>)

  /** A prompt with only an id, a version and a template, as the tests build them. */
  function Bare(id: string, version: string, template: string): Prompt {
    Prompt(id, version, "", "", "", template, [], [], None, 0, 0, None)
  }

  /** `vars[i]` is the last declaration of its name. */
  predicate LastDeclaration(vars: seq<Variable>, i: int) {
    0 <= i < |vars| && forall j :: i < j < |vars| ==> vars[j].name != vars[i].name
  }

  /** `VariableMap`: each declared name to its last declaration. */
  function VariableMap(vars: seq<Variable>): (m: map<string, Variable>)
    ensures forall i :: 0 <= i < |vars| ==> vars[i].name in m
    ensures forall n :: n in m ==> m[n] in vars && m[n].name == n
    ensures forall i :: LastDeclaration(vars, i) ==> m[vars[i].name] == vars[i]
    decreases |vars|
  {
    if |vars| == 0 then map[]
    else
      var init, last := vars[..|vars| - 1], vars[|vars| - 1];
      assert vars == init + [last];
      VariableMapStep(init, last, VariableMap(init));
      VariableMap(init)[last.name := last]
  }

  /** Declaring one more variable keeps the three properties of the map. */
  lemma VariableMapStep(init: seq<Variable>, last: Variable, m0: map<string, Variable>)
    requires forall i :: 0 <= i < |init| ==> init[i].name in m0
    requires forall n :: n in m0 ==> m0[n] in init && m0[n].name == n
    requires forall i :: LastDeclaration(init, i) ==> m0[init[i].name] == init[i]
    ensures var vars, m := init + [last], m0[last.name := last];
      forall i :: 0 <= i < |vars| ==> vars[i].name in m
    ensures var vars, m := init + [last], m0[last.name := last];
      forall n :: n in m ==> m[n] in vars && m[n].name == n
    ensures var vars, m := init + [last], m0[last.name := last];
      forall i :: LastDeclaration(vars, i) ==> m[vars[i].name] == vars[i]
  {
    var vars, m := init + [last], m0[last.name := last];
    forall i | 0 <= i < |vars|
      ensures vars[i].name in m
    {
      if i < |init| {
        assert vars[i] == init[i];
      }
    }
    forall n | n in m
      ensures m[n] in vars && m[n].name == n
    {
      if n == last.name {
        assert vars[|init|] == last;
      } else {
        assert m[n] == m0[n] && m0[n] in init;
      }
    }
    forall i | LastDeclaration(vars, i)
      ensures m[vars[i].name] == vars[i]
    {
      if i < |init| {
        assert vars[|init|] == last;
        assert vars[i] == init[i] && init[i].name != last.name;
        forall j | i < j < |init|
          ensures init[j].name != init[i].name
        {
          assert vars[j] == init[j];
        }
        assert LastDeclaration(init, i);
      }
    }
  }

  /** A single declaration is the whole variable map. */
  lemma SingleVariableMap(v: Variable)
    ensures VariableMap([v]) == map[v.name := v]
  {
    assert [v][..0] == [];
  }

  /** The value a declared variable is validated against: the input's value
      when the key is present, the variable's default otherwise. */
  function ValueFor(input: Input, v: Variable): Value {
    if v.name in input then input[v.name] else v.default
  }

  /** `%q` of a name (escaping of special characters is not modelled). */
  function Quote(s: string): string {
    "\"" + s + "\""
  }

  /** Declared variable `v` accepts what `input` gives it. */
  predicate Passes(v: Variable, input: Input) {
    Validate(v, ValueFor(input, v)).None?
  }

  /** Every entry of a variable map passes. */
  predicate AllPass(vm: map<string, Variable>, input: Input) {
    forall n :: n in vm ==> Passes(vm[n], input)
  }

  /** The error reported for a variable that does not pass. */
  function Reported(v: Variable, input: Input): Error
    requires !Passes(v, input)
  {
    Wrap("variable " + Quote(v.name), Validate(v, ValueFor(input, v)).value)
  }

  /** Checks the declared variables one after another (each through its last
      declaration) and reports the first failure, wrapped with its name. */
  function ValidateFrom(vars: seq<Variable>, vm: map<string, Variable>, input: Input): (r: Option<Error>)
    requires forall i :: 0 <= i < |vars| ==> vars[i].name in vm
    ensures r.None? <==> forall i :: 0 <= i < |vars| ==> Passes(vm[vars[i].name], input)
    ensures r.Some? ==> exists i :: FailsAt(vars, vm, input, i) && r.value == Reported(vm[vars[i].name], input)
    decreases |vars|
  {
    if |vars| == 0 then None
    else
      var v := vm[vars[0].name];
      if !Passes(v, input) then
        assert FailsAt(vars, vm, input, 0);
        Some(Reported(v, input))
      else
        var r := ValidateFrom(vars[1..], vm, input);
        assert forall i :: 1 <= i < |vars| ==> vars[i] == vars[1..][i - 1];
        assert forall i :: FailsAt(vars[1..], vm, input, i) ==> FailsAt(vars, vm, input, i + 1);
        r
  }

  predicate FailsAt(vars: seq<Variable>, vm: map<string, Variable>, input: Input, i: int) {
    0 <= i < |vars| && vars[i].name in vm && !Passes(vm[vars[i].name], input)
  }

  /** `ValidateInput`: nil exactly when every declared variable (in its last
      declaration) accepts its input value or, for a missing key, its default;
      otherwise the error names a variable that does not pass and wraps that
      variable's own error.  Go visits the variables in map order, so which
      failure is reported is unspecified; the model visits them in declaration
      order, one of the possible orders, and promises only what holds for all
      of them. */
  function ValidateInput(p: Prompt, input: Input): (r: Option<Error>)
    ensures r.None? <==> AllPass(VariableMap(p.variables), input)
    ensures r.Some? ==> exists n :: n in VariableMap(p.variables) && !Passes(VariableMap(p.variables)[n], input)
                                    && r.value == Reported(VariableMap(p.variables)[n], input)
  {
    var r := ValidateFrom(p.variables, VariableMap(p.variables), input);
    ValidateFromReports(p.variables, input);
    r
  }

  /** Checking every declaration through the variable map is the same as
      checking every entry of the map, and a reported failure is an entry's. */
  lemma ValidateFromReports(vars: seq<Variable>, input: Input)
    ensures var vm := VariableMap(vars);
      ValidateFrom(vars, vm, input).None? <==> AllPass(vm, input)
    ensures var vm := VariableMap(vars); var r := ValidateFrom(vars, vm, input);
      r.Some? ==> exists n :: n in vm && !Passes(vm[n], input) && r.value == Reported(vm[n], input)
  {
    var vm := VariableMap(vars);
    var r := ValidateFrom(vars, vm, input);
    if r.Some? {
      var i :| FailsAt(vars, vm, input, i) && r.value == Reported(vm[vars[i].name], input);
      var n := vars[i].name;
      assert n in vm && !Passes(vm[n], input) && r.value == Reported(vm[n], input);
    } else {
      forall n | n in vm
        ensures Passes(vm[n], input)
      {
        var i :| 0 <= i < |vars| && vars[i] == vm[n];
        assert vm[vars[i].name] == vm[n];
      }
    }
  }

  /** The index of the last declaration named `n`, at or after a known one. */
  function LastIndexOf(vars: seq<Variable>, n: string, i: nat): (k: nat)
    requires i < |vars| && vars[i].name == n
    ensures i <= k < |vars| && vars[k].name == n && LastDeclaration(vars, k)
    decreases |vars| - i
  {
    if exists j :: i < j < |vars| && vars[j].name == n then
      var j :| i < j < |vars| && vars[j].name == n;
      LastIndexOf(vars, n, j)
    else i
  }

  /** Input keys that no variable declares never make validation fail. */
  lemma {:induction false} UndeclaredKeysIgnored(p: Prompt, input: Input, k: string, x: Value)
    requires forall i :: 0 <= i < |p.variables| ==> p.variables[i].name != k
    ensures ValidateInput(p, input[k := x]).None? <==> ValidateInput(p, input).None?
  {
    var vm := VariableMap(p.variables);
    forall n | n in vm
      ensures Passes(vm[n], input[k := x]) == Passes(vm[n], input)
    {
      var i :| 0 <= i < |p.variables| && p.variables[i] == vm[n];
      assert ValueFor(input[k := x], vm[n]) == ValueFor(input, vm[n]);
    }
    assert AllPass(vm, input[k := x]) == AllPass(vm, input);
  }

  /** The package test: `a` is a required string and `b` an int defaulting to
      10; the empty input fails, and inputs giving `a` pass. */
  lemma ValidateInputExample()
    ensures var p := Bare("", "", "").(variables := [
              Variable("a", TypeString, true, Nil, None, ""),
              Variable("b", TypeInt, false, IntVal(GoInt, 10), None, "")]);
      ValidateInput(p, map[]).Some?
      && ValidateInput(p, map["a" := Str("x"), "b" := IntVal(GoInt, 5)]).None?
      && ValidateInput(p, map["a" := Str("x")]).None?
  {
    var p := Bare("", "", "").(variables := [
              Variable("a", TypeString, true, Nil, None, ""),
              Variable("b", TypeInt, false, IntVal(GoInt, 10), None, "")]);
    var vm := VariableMap(p.variables);
    assert LastDeclaration(p.variables, 0) && LastDeclaration(p.variables, 1);
    assert vm["a"] == p.variables[0];
    assert Validate(vm["a"], ValueFor(map[], vm["a"])).Some?;
  }

  /** `Copy`: every field is kept, the renderer is dropped and the metadata
      becomes a map with the same entries (empty for a nil map). */
  function Copy(p: Prompt): (q: Prompt)
    ensures q.id == p.id && q.version == p.version && q.name == p.name
    ensures q.description == p.description && q.system == p.system && q.template == p.template
    ensures q.variables == p.variables && q.examples == p.examples
    ensures q.createdAt == p.createdAt && q.updatedAt == p.updatedAt
    ensures q.renderer.None?
    ensures q.metadata.Some?
    ensures p.metadata.Some? ==> q.metadata.value == p.metadata.value
    ensures p.metadata.None? ==> q.metadata.value == map[]
  {
    p.(metadata := Some(p.metadata.GetOr(map[])), renderer := None)
  }

  /** Copying a copy changes nothing, so a registry's stored copy and the copy
      it hands out agree. */
  lemma CopyIdempotent(p: Prompt)
    ensures Copy(Copy(p)) == Copy(p)
  {
  }
}

=== FILE: provider.dfy ===
/** The provider-neutral request and response types (provider/provider.go) and
    `StreamToWriter`, which copies a stream of chunks to a writer. */
module Provider {
  import opened Wrappers
  import opened Errors
  import opened Variables

  datatype CompletionRequest = CompletionRequest(
    prompt: string,
    system: string,
    model: string,
    temperature: real,
    maxTokens: int,
    stopTokens: seq<string>,
    topP: real,
    metadata: Option<map<string, Value>>)

  datatype TokenUsage = TokenUsage(promptTokens: int, completionTokens: int, totalTokens: int)

  datatype CompletionResponse = CompletionResponse(
    content: string,
    model: string,
    usage: TokenUsage,
    finishReason: string,
    metadata: Option<map<string, Value>>)

  datatype StreamChunk = StreamChunk(content: string, done: bool, usage: Option<TokenUsage>, err: Option<Error>)

  datatype ModelInfo = ModelInfo(id: string, contextSize: int, supportsStreaming: bool)

  /** A request carrying only prompt, system text and model. */
  function Request(prompt: string, system: string, model: string): CompletionRequest {
    CompletionRequest(prompt, system, model, 0.0, 0, [], 0.0, None)
  }

  /** The contents of the chunks, one after another. */
  function Concat(chunks: seq<StreamChunk>): string {
    if |chunks| == 0 then "" else Concat(chunks[..|chunks| - 1]) + chunks[|chunks| - 1].content
  }

  /** `StreamToWriter` over a stream that delivers `chunks` and is then closed.
      Go's `select` between the context and the channel is the oracle
      `ctxWins`: at the `i`-th receive it is `Some(ctx.Err())` when the context
      branch is taken.  `writeErr(i)` is the writer's answer to the `i`-th
      write; a failing write is taken to write nothing, so a partial write
      of `n > 0` bytes before the error is not modelled.  The result is what
      reached the writer, the error returned, and the index of the receive
      at which the loop stopped. */
  method StreamToWriter(chunks: seq<StreamChunk>, ctxWins: nat -> Option<Error>, writeErr: nat -> Option<Error>)
    returns (written: string, err: Option<Error>, stop: nat)
    ensures stop <= |chunks|
    ensures forall j :: 0 <= j < stop ==>
      ctxWins(j).None? && chunks[j].err.None? && writeErr(j).None? && !chunks[j].done
    ensures ctxWins(stop).Some? ==> err == ctxWins(stop) && written == Concat(chunks[..stop])
    ensures ctxWins(stop).None? && stop == |chunks| ==> err.None? && written == Concat(chunks)
    ensures ctxWins(stop).None? && stop < |chunks| && chunks[stop].err.Some? ==>
      err == chunks[stop].err && written == Concat(chunks[..stop])
    ensures ctxWins(stop).None? && stop < |chunks| && chunks[stop].err.None? && writeErr(stop).Some? ==>
      err == writeErr(stop) && written == Concat(chunks[..stop])
    ensures ctxWins(stop).None? && stop < |chunks| && chunks[stop].err.None? && writeErr(stop).None? ==>
      chunks[stop].done && err.None? && written == Concat(chunks[..stop + 1])
  {
    written := "";
    var i := 0;
    while true
      invariant i <= |chunks|
      invariant written == Concat(chunks[..i])
      invariant forall j :: 0 <= j < i ==>
        ctxWins(j).None? && chunks[j].err.None? && writeErr(j).None? && !chunks[j].done
      decreases |chunks| - i
    {
      if ctxWins(i).Some? {
        return written, ctxWins(i), i;
      }
      if i == |chunks| {
        assert chunks[..i] == chunks;
        return written, None, i;
      }
      var chunk := chunks[i];
      if chunk.err.Some? {
        return written, chunk.err, i;
      }
      if writeErr(i).Some? {
        return written, writeErr(i), i;
      }
      assert chunks[..i + 1][..i] == chunks[..i];
      written := written + chunk.content;
      if chunk.done {
        return written, None, i;
      }
      i := i + 1;
    }
  }

  /** The position of the first chunk that ends the stream, or the length. */
  function FirstDone(chunks: seq<StreamChunk>): (k: nat)
    ensures k <= |chunks|
    ensures forall j :: 0 <= j < k ==> !chunks[j].done
    ensures k < |chunks| ==> chunks[k].done
  {
    if |chunks| == 0 then 0
    else if chunks[0].done then 0
    else 1 + FirstDone(chunks[1..])
  }

  /** Without cancellation and failures, everything up to and including the
      first chunk marked done reaches the writer, and nothing after it. */
  method StreamWithoutFailures(chunks: seq<StreamChunk>) returns (written: string, err: Option<Error>)
    requires forall j :: 0 <= j < |chunks| ==> chunks[j].err.None?
    ensures err.None?
    ensures FirstDone(chunks) < |chunks| ==> written == Concat(chunks[..FirstDone(chunks) + 1])
    ensures FirstDone(chunks) == |chunks| ==> written == Concat(chunks)
  {
    var stop;
    written, err, stop := StreamToWriter(chunks, _ => None, _ => None);
    assert stop == FirstDone(chunks);
  }
}

=== FILE: registry.dfy ===
/** The in-memory prompt registry (registry/memory.go): prompts by id and
    version, a deployment stage per version, a production pointer per id, and
    tags per version.  The Go registry is a mutable struct behind a mutex; here
    each operation returns the next registry value. */
module Registry {
  import opened Wrappers
  import opened Errors
  import opened Prompts

  /** A deployment stage; any string is accepted, three are named. */
  type Stage = string

  const StageDev: Stage := "dev"
  const StageStaging: Stage := "staging"
  const StageProduction: Stage := "production"

  /** The identity of a stored version. */
  datatype VersionKey = VersionKey(id: string, version: string)

  datatype MemoryRegistry = MemoryRegistry(
    prompts: map<string, map<string, Prompt>>,
    production: map<string, string>,
    stages: map<string, map<string, Stage>>,
    tags: map<VersionKey, seq<string>>)

  function NewMemoryRegistry(): MemoryRegistry {
    MemoryRegistry(map[], map[], map[], map[])
  }

  predicate Stored(reg: MemoryRegistry, id: string, version: string) {
    id in reg.prompts && version in reg.prompts[id]
  }

  /** What every operation keeps: a stored prompt sits under its own non-empty
      id and version and has a stage; stages, the production pointer and tags
      only name stored versions. */
  ghost predicate Valid(reg: MemoryRegistry) {
    StagesMatch(reg) && EntriesNamed(reg) && ReferencesStored(reg)
  }

  /** Exactly the stored versions have a stage. */
  ghost predicate StagesMatch(reg: MemoryRegistry) {
    && reg.stages.Keys == reg.prompts.Keys
    && (forall id :: id in reg.prompts ==> reg.stages[id].Keys == reg.prompts[id].Keys)
  }

  /** Every stored prompt sits under its own non-empty id and version. */
  ghost predicate EntriesNamed(reg: MemoryRegistry) {
    forall id, v :: Stored(reg, id, v) ==>
      id != "" && v != "" && reg.prompts[id][v].id == id && reg.prompts[id][v].version == v
  }

  /** The production entries and the tags name stored versions. */
  ghost predicate ReferencesStored(reg: MemoryRegistry) {
    && (forall id :: id in reg.production ==> Stored(reg, id, reg.production[id]))
    && (forall k :: k in reg.tags ==> Stored(reg, k.id, k.version))
  }

  lemma NewIsValid()
    ensures Valid(NewMemoryRegistry())
    ensures forall id, v :: !Stored(NewMemoryRegistry(), id, v)
  {
  }

  predicate HasStage(reg: MemoryRegistry, id: string, version: string) {
    id in reg.stages && version in reg.stages[id]
  }

  /** In a valid registry exactly the stored versions have a stage, so `Store`
      gives dev to a new version and keeps the stage of a replaced one. */
  lemma StoreStage(reg: MemoryRegistry, p: Prompt)
    requires Valid(reg) && p.id != "" && p.version != ""
    ensures !Stored(reg, p.id, p.version) ==> Store(reg, Some(p)).reg.stages[p.id][p.version] == StageDev
    ensures Stored(reg, p.id, p.version) ==> Store(reg, Some(p)).reg.stages[p.id][p.version] == reg.stages[p.id][p.version]
  {
  }

  /** An operation's next state and its error. */
  datatype Update = Update(reg: MemoryRegistry, err: Option<Error>)

  const NilPrompt := Message("prompt is nil")
  const MissingIdentity := Message("prompt id and version are required")

  /** `Store`: saves a copy under the prompt's id and version, replacing an
      earlier one; a new version starts at stage dev, a replaced one keeps its
      stage.  A nil prompt or an empty id or version is refused and nothing
      changes. */
  function Store(reg: MemoryRegistry, prompt: Option<Prompt>): (u: Update)
    ensures prompt.None? ==> u == Update(reg, Some(NilPrompt))
    ensures prompt.Some? && (prompt.value.id == "" || prompt.value.version == "") ==> u == Update(reg, Some(MissingIdentity))
    ensures u.err.None? <==> prompt.Some? && prompt.value.id != "" && prompt.value.version != ""
    ensures u.err.None? ==> var p := prompt.value;
      Stored(u.reg, p.id, p.version) && u.reg.prompts[p.id][p.version] == Copy(p)
    ensures u.err.None? ==> var p := prompt.value;
      p.id in u.reg.stages && p.version in u.reg.stages[p.id]
    ensures u.err.None? ==> var p := prompt.value;
      u.reg.stages[p.id][p.version] == if HasStage(reg, p.id, p.version) then reg.stages[p.id][p.version] else StageDev
    ensures u.err.None? ==> u.reg.production == reg.production && u.reg.tags == reg.tags
    ensures u.err.None? ==> forall id, v :: (id, v) != (prompt.value.id, prompt.value.version) ==>
      (Stored(u.reg, id, v) <==> Stored(reg, id, v))
    ensures u.err.None? ==> forall id, v :: Stored(reg, id, v) && (id, v) != (prompt.value.id, prompt.value.version) ==>
      Stored(u.reg, id, v) && u.reg.prompts[id][v] == reg.prompts[id][v]
    ensures Valid(reg) ==> Valid(u.reg)
  {
    if prompt.None? then Update(reg, Some(NilPrompt))
    else
      var p := prompt.value;
      if p.id == "" || p.version == "" then Update(reg, Some(MissingIdentity))
      else
        PutKeepsValid(reg, p);
        Update(Put(reg, p), None)
  }

  /** The registry with a copy of `p` under its id and version, keeping the
      version's stage or giving it dev. */
  function Put(reg: MemoryRegistry, p: Prompt): MemoryRegistry {
    var versions := if p.id in reg.prompts then reg.prompts[p.id] else map[];
    var stages := if p.id in reg.stages then reg.stages[p.id] else map[];
    var stage := if p.version in stages then stages[p.version] else StageDev;
    reg.(prompts := reg.prompts[p.id := versions[p.version := Copy(p)]],
         stages := reg.stages[p.id := stages[p.version := stage]])
  }

  lemma PutKeepsValid(reg: MemoryRegistry, p: Prompt)
    requires p.id != "" && p.version != ""
    ensures Valid(reg) ==> Valid(Put(reg, p))
  {
    if Valid(reg) {
      PutKeepsStages(reg, p);
      PutKeepsEntries(reg, p);
      PutKeepsReferences(reg, p);
    }
  }

  lemma PutKeepsStages(reg: MemoryRegistry, p: Prompt)
    requires StagesMatch(reg)
    ensures StagesMatch(Put(reg, p))
  {
    var r := Put(reg, p);
    forall id | id in r.prompts
      ensures r.stages[id].Keys == r.prompts[id].Keys
    {
      if id != p.id {
        assert r.stages[id] == reg.stages[id] && r.prompts[id] == reg.prompts[id];
      }
    }
  }

  lemma PutKeepsEntries(reg: MemoryRegistry, p: Prompt)
    requires p.id != "" && p.version != "" && EntriesNamed(reg)
    ensures EntriesNamed(Put(reg, p))
  {
    var r := Put(reg, p);
    forall id, v | Stored(r, id, v)
      ensures id != "" && v != "" && r.prompts[id][v].id == id && r.prompts[id][v].version == v
    {
      if id != p.id || v != p.version {
        assert Stored(reg, id, v) && r.prompts[id][v] == reg.prompts[id][v];
      }
    }
  }

  lemma PutKeepsReferences(reg: MemoryRegistry, p: Prompt)
    requires ReferencesStored(reg)
    ensures ReferencesStored(Put(reg, p))
  {
    var r := Put(reg, p);
    assert r.production == reg.production && r.tags == reg.tags;
    forall id, v | Stored(reg, id, v)
      ensures Stored(r, id, v)
    {
    }
  }

  /** `Get`: a copy of the stored version, or not found. */
  function Get(reg: MemoryRegistry, id: string, version: string): (r: Result<Prompt, Error>)
    ensures r.Success? <==> Stored(reg, id, version)
    ensures r.Success? ==> r.value == Copy(reg.prompts[id][version])
    ensures r.Failure? ==> r.error == PromptNotFound
  {
    if id !in reg.prompts || version !in reg.prompts[id] then Failure(PromptNotFound)
    else Success(Copy(reg.prompts[id][version]))
  }

  /** `GetProduction`: the version the production pointer names, when that
      version is stored. */
  function GetProduction(reg: MemoryRegistry, id: string): (r: Result<Prompt, Error>)
    ensures r.Success? <==> id in reg.production && Stored(reg, id, reg.production[id])
    ensures r.Success? ==> r == Get(reg, id, reg.production[id])
    ensures r.Failure? ==> r.error == PromptNotFound
  {
    if id !in reg.production then Failure(PromptNotFound)
    else Get(reg, id, reg.production[id])
  }

  /** In a valid registry the production pointer always names a stored
      version, so `GetProduction` fails only when there is no pointer. */
  lemma ProductionNeverDangles(reg: MemoryRegistry, id: string)
    requires Valid(reg)
    ensures GetProduction(reg, id).Success? <==> id in reg.production
  {
  }

  /** `Promote`: sets the stage of a stored version; promoting to production
      also moves the production pointer to it.  A missing version is not
      found and nothing changes. */
  function Promote(reg: MemoryRegistry, id: string, version: string, stage: Stage): (u: Update)
    ensures !Stored(reg, id, version) ==> u == Update(reg, Some(PromptNotFound))
    ensures Stored(reg, id, version) ==> u.err.None? && u.reg.prompts == reg.prompts && u.reg.tags == reg.tags
    ensures Stored(reg, id, version) ==> id in u.reg.stages && version in u.reg.stages[id] && u.reg.stages[id][version] == stage
    ensures Stored(reg, id, version) && stage == StageProduction ==> u.reg.production == reg.production[id := version]
    ensures stage != StageProduction ==> u.reg.production == reg.production
    ensures forall i, v :: (i, v) != (id, version) && i in reg.stages && v in reg.stages[i] ==>
      i in u.reg.stages && v in u.reg.stages[i] && u.reg.stages[i][v] == reg.stages[i][v]
    ensures Valid(reg) ==> Valid(u.reg)
  {
    if !Stored(reg, id, version) then Update(reg, Some(PromptNotFound))
    else
      var stages := if id in reg.stages then reg.stages[id] else map[];
      var r := reg.(stages := reg.stages[id := stages[version := stage]]);
      if stage == StageProduction then Update(r.(production := reg.production[id := version]), None)
      else Update(r, None)
  }

  /** Promoting a stored version to production makes it the one
      `GetProduction` returns. */
  lemma PromoteThenGetProduction(reg: MemoryRegistry, id: string, version: string)
    requires Stored(reg, id, version)
    ensures GetProduction(Promote(reg, id, version, StageProduction).reg, id) == Get(reg, id, version)
  {
  }

  /** `Delete`: removes a stored version with its stage and tags, and clears
      the production pointer if it named this version. */
  function Delete(reg: MemoryRegistry, id: string, version: string): (u: Update)
    ensures !Stored(reg, id, version) ==> u == Update(reg, Some(PromptNotFound))
    ensures Stored(reg, id, version) ==> u.err.None? && !Stored(u.reg, id, version)
    ensures Stored(reg, id, version) ==> VersionKey(id, version) !in u.reg.tags
    ensures Stored(reg, id, version) ==> forall i, v :: (i, v) != (id, version) ==>
      (Stored(u.reg, i, v) <==> Stored(reg, i, v))
    ensures Stored(reg, id, version) ==> forall i, v :: (i, v) != (id, version) && Stored(reg, i, v) ==>
      Stored(u.reg, i, v) && u.reg.prompts[i][v] == reg.prompts[i][v]
    ensures Stored(reg, id, version) && id in reg.production && reg.production[id] == version ==>
      u.reg.production == reg.production - {id}
    ensures Stored(reg, id, version) && (id !in reg.production || reg.production[id] != version) ==>
      u.reg.production == reg.production
    ensures forall k :: k != VersionKey(id, version) && k in reg.tags ==> k in u.reg.tags && u.reg.tags[k] == reg.tags[k]
    ensures Valid(reg) ==> Valid(u.reg)
  {
    if !Stored(reg, id, version) then Update(reg, Some(PromptNotFound))
    else
      RemoveKeepsValid(reg, id, version);
      Update(Remove(reg, id, version), None)
  }

  /** The registry without the version, its stage, its tags, and the
      production pointer when it named the version. */
  function Remove(reg: MemoryRegistry, id: string, version: string): MemoryRegistry
    requires Stored(reg, id, version)
  {
    var production := if id in reg.production && reg.production[id] == version then reg.production - {id}
                      else reg.production;
    var stages := if id in reg.stages then reg.stages[id := reg.stages[id] - {version}] else reg.stages;
    MemoryRegistry(reg.prompts[id := reg.prompts[id] - {version}], production, stages,
                   reg.tags - {VersionKey(id, version)})
  }

  lemma RemoveKeepsValid(reg: MemoryRegistry, id: string, version: string)
    requires Stored(reg, id, version)
    ensures Valid(reg) ==> Valid(Remove(reg, id, version))
  {
    if Valid(reg) {
      RemoveKeepsStages(reg, id, version);
      RemoveKeepsEntries(reg, id, version);
      RemoveKeepsReferences(reg, id, version);
    }
  }

  /** What survives a removal was stored before, unchanged. */
  lemma RemoveShrinks(reg: MemoryRegistry, id: string, version: string, i: string, v: string)
    requires Stored(reg, id, version) && Stored(Remove(reg, id, version), i, v)
    ensures Stored(reg, i, v) && (i, v) != (id, version)
    ensures Remove(reg, id, version).prompts[i][v] == reg.prompts[i][v]
  {
  }

  lemma RemoveKeepsStages(reg: MemoryRegistry, id: string, version: string)
    requires Stored(reg, id, version) && StagesMatch(reg)
    ensures StagesMatch(Remove(reg, id, version))
  {
    var r := Remove(reg, id, version);
    forall i | i in r.prompts
      ensures r.stages[i].Keys == r.prompts[i].Keys
    {
      if i != id {
        assert r.stages[i] == reg.stages[i] && r.prompts[i] == reg.prompts[i];
      }
    }
  }

  lemma RemoveKeepsEntries(reg: MemoryRegistry, id: string, version: string)
    requires Stored(reg, id, version) && EntriesNamed(reg)
    ensures EntriesNamed(Remove(reg, id, version))
  {
    var r := Remove(reg, id, version);
    forall i, v | Stored(r, i, v)
      ensures i != "" && v != "" && r.prompts[i][v].id == i && r.prompts[i][v].version == v
    {
      RemoveShrinks(reg, id, version, i, v);
    }
  }

  lemma RemoveKeepsReferences(reg: MemoryRegistry, id: string, version: string)
    requires Stored(reg, id, version) && ReferencesStored(reg)
    ensures ReferencesStored(Remove(reg, id, version))
  {
    var r := Remove(reg, id, version);
    forall i | i in r.production
      ensures Stored(r, i, r.production[i])
    {
      assert i in reg.production && r.production[i] == reg.production[i];
      assert i != id || reg.production[i] != version;
    }
    forall k | k in r.tags
      ensures Stored(r, k.id, k.version)
    {
      assert k in reg.tags && k != VersionKey(id, version);
    }
  }

  /** `Tag`: replaces the tag list of a stored version. */
  function Tag(reg: MemoryRegistry, id: string, version: string, tags: seq<string>): (u: Update)
    ensures !Stored(reg, id, version) ==> u == Update(reg, Some(PromptNotFound))
    ensures Stored(reg, id, version) ==> u.err.None? && u.reg.tags == reg.tags[VersionKey(id, version) := tags]
    ensures u.reg.(tags := reg.tags) == reg
    ensures Valid(reg) ==> Valid(u.reg)
  {
    if !Stored(reg, id, version) then Update(reg, Some(PromptNotFound))
    else Update(reg.(tags := reg.tags[VersionKey(id, version) := tags]), None)
  }

  /** The tags of a version; none when it was never tagged. */
  function TagsOf(reg: MemoryRegistry, id: string, version: string): seq<string> {
    if VersionKey(id, version) in reg.tags then reg.tags[VersionKey(id, version)] else []
  }

  /** Tagging one version leaves the tags every other version reports alone. */
  lemma TagIsolated(reg: MemoryRegistry, id: string, version: string, tags: seq<string>, id2: string, version2: string)
    requires Stored(reg, id, version) && (id2, version2) != (id, version)
    ensures TagsOf(Tag(reg, id, version, tags).reg, id, version) == tags
    ensures TagsOf(Tag(reg, id, version, tags).reg, id2, version2) == TagsOf(reg, id2, version2)
  {
  }

  /** A stored prompt reads back as stored, and storing again changes nothing
      that `Get` can see. */
  lemma StoreThenGet(reg: MemoryRegistry, p: Prompt)
    requires p.id != "" && p.version != ""
    ensures Get(Store(reg, Some(p)).reg, p.id, p.version) == Success(Copy(p))
  {
    CopyIdempotent(p);
  }

  /** Storing a version twice keeps the stage it was given in between. */
  lemma RestoreKeepsStage(reg: MemoryRegistry, p: Prompt, stage: Stage)
    requires p.id != "" && p.version != ""
    ensures var r := Promote(Store(reg, Some(p)).reg, p.id, p.version, stage).reg;
      Store(r, Some(p)).reg.stages[p.id][p.version] == stage
  {
  }

  // ---------------------------------------------------------------------------
  // Listing

  /** `contains`. */
  function Contains(slice: seq<string>, s: string): (b: bool)
    ensures b <==> exists i :: 0 <= i < |slice| && slice[i] == s
  {
    if |slice| == 0 then false else slice[0] == s || Contains(slice[1..], s)
  }

  /** `hasAll`: every needed tag is among the tags present. */
  function HasAll(have: seq<string>, need: seq<string>): (b: bool)
    ensures b <==> forall i :: 0 <= i < |need| ==> Contains(have, need[i])
    ensures |need| == 0 ==> b
  {
    if |need| == 0 then true else Contains(have, need[0]) && HasAll(have, need[1..])
  }

  /** `Filter`; the empty stage and empty lists do not filter. */
  datatype Filter = Filter(ids: seq<string>, stage: Stage, tags: seq<string>, limit: int, offset: int)

  /** The version passes the id, stage and tag filters. */
  predicate Matches(reg: MemoryRegistry, f: Filter, k: VersionKey) {
    && (|f.ids| == 0 || Contains(f.ids, k.id))
    && (f.stage == "" || (k.id in reg.stages && k.version in reg.stages[k.id] && reg.stages[k.id][k.version] == f.stage))
    && (|f.tags| == 0 || HasAll(TagsOf(reg, k.id, k.version), f.tags))
  }

  /** A limit of zero or less means 1000. */
  function EffectiveLimit(limit: int): (n: nat)
    ensures n > 0
    ensures limit > 0 ==> n == limit
  {
    if limit <= 0 then 1000 else limit
  }

  /** Every entry of the walk is a stored version. */
  predicate AllStored(reg: MemoryRegistry, entries: seq<VersionKey>) {
    forall i :: 0 <= i < |entries| ==> Stored(reg, entries[i].id, entries[i].version)
  }

  /** `entries` is an order in which the maps can be walked: every stored
      version exactly once. */
  ghost predicate Enumerates(reg: MemoryRegistry, entries: seq<VersionKey>) {
    && AllStored(reg, entries)
    && (forall id, v :: Stored(reg, id, v) ==> VersionKey(id, v) in entries)
    && (forall i, j :: 0 <= i < j < |entries| ==> entries[i] != entries[j])
  }

  /** Copies of the matching versions among `entries`, in order. */
  function Selected(reg: MemoryRegistry, f: Filter, entries: seq<VersionKey>): (s: seq<Prompt>)
    requires forall i :: 0 <= i < |entries| ==> Stored(reg, entries[i].id, entries[i].version)
    ensures |s| <= |entries|
    decreases |entries|
  {
    if |entries| == 0 then []
    else
      var k := entries[|entries| - 1];
      assert Stored(reg, k.id, k.version);
      var front := Selected(reg, f, entries[..|entries| - 1]);
      if Matches(reg, f, k) then front + [Copy(reg.prompts[k.id][k.version])] else front
  }

  lemma {:induction false} SelectedMembers(reg: MemoryRegistry, f: Filter, entries: seq<VersionKey>, p: Prompt)
    requires forall i :: 0 <= i < |entries| ==> Stored(reg, entries[i].id, entries[i].version)
    requires p in Selected(reg, f, entries)
    ensures exists i :: 0 <= i < |entries| && Matches(reg, f, entries[i]) && p == Copy(reg.prompts[entries[i].id][entries[i].version])
    decreases |entries|
  {
    var front := entries[..|entries| - 1];
    if p in Selected(reg, f, front) {
      SelectedMembers(reg, f, front, p);
      var i :| 0 <= i < |front| && Matches(reg, f, front[i]) && p == Copy(reg.prompts[front[i].id][front[i].version]);
      assert entries[i] == front[i];
    }
  }

  /** The page `List` returns: the selection after skipping `offset` (a
      negative offset skips nothing), cut to `limit`. */
  function Page(s: seq<Prompt>, offset: int, limit: nat): (r: seq<Prompt>)
    ensures |r| <= limit
  {
    var skip := if offset <= 0 then 0 else if offset <= |s| then offset else |s|;
    var rest := s[skip..];
    if |rest| <= limit then rest else rest[..limit]
  }

  /** `List`: walks the stored versions in the order `entries`, skips the
      first `offset` matches and returns copies of at most `limit` of the
      rest. */
  method List(reg: MemoryRegistry, f: Filter, entries: seq<VersionKey>) returns (out: seq<Prompt>)
    requires AllStored(reg, entries)
    ensures out == Page(Selected(reg, f, entries), f.offset, EffectiveLimit(f.limit))
  {
    var limit := EffectiveLimit(f.limit);
    var skip: nat := if f.offset > 0 then f.offset else 0;
    ghost var skip0 := skip;
    ghost var sel: seq<Prompt> := [];
    out := [];
    var i := 0;
    while i < |entries|
      invariant 0 <= i <= |entries|
      invariant sel == Selected(reg, f, entries[..i])
      invariant skip == if skip0 <= |sel| then 0 else skip0 - |sel|
      invariant out == if skip0 <= |sel| then sel[skip0..] else []
      invariant |out| < limit
    {
      var k := entries[i];
      SelectedStep(reg, f, entries, i);
      if Matches(reg, f, k) {
        var c := Copy(reg.prompts[k.id][k.version]);
        PageStep(sel, out, skip, skip0, c);
        sel := sel + [c];
        if skip > 0 {
          skip := skip - 1;
        } else {
          out := out + [c];
          if |out| >= limit {
            SelectedPrefix(reg, f, entries, i + 1);
            PageOfPrefix(sel, Selected(reg, f, entries), f.offset, limit, skip0);
            return;
          }
        }
      }
      i := i + 1;
    }
    assert entries[..i] == entries;
    PageOfAll(sel, out, f.offset, limit, skip0);
  }

  /** Once the walk is over, what was collected is the page. */
  lemma PageOfAll(sel: seq<Prompt>, out: seq<Prompt>, offset: int, limit: nat, skip0: nat)
    requires skip0 == if offset > 0 then offset else 0
    requires out == if skip0 <= |sel| then sel[skip0..] else []
    requires |out| < limit
    ensures out == Page(sel, offset, limit)
  {
  }

  /** One more match either uses up one skipped place or joins the page. */
  lemma PageStep(sel: seq<Prompt>, out: seq<Prompt>, skip: nat, skip0: nat, c: Prompt)
    requires skip == if skip0 <= |sel| then 0 else skip0 - |sel|
    requires out == if skip0 <= |sel| then sel[skip0..] else []
    ensures skip > 0 ==> skip - 1 == (if skip0 <= |sel| + 1 then 0 else skip0 - (|sel| + 1))
    ensures skip > 0 ==> out == if skip0 <= |sel| + 1 then (sel + [c])[skip0..] else []
    ensures skip == 0 ==> skip0 <= |sel| + 1 && out + [c] == (sel + [c])[skip0..]
  {
    if skip == 0 {
      assert (sel + [c])[skip0..] == sel[skip0..] + [c];
    }
  }

  lemma SelectedStep(reg: MemoryRegistry, f: Filter, entries: seq<VersionKey>, i: nat)
    requires i < |entries|
    requires forall j :: 0 <= j < |entries| ==> Stored(reg, entries[j].id, entries[j].version)
    ensures Stored(reg, entries[i].id, entries[i].version)
    ensures Selected(reg, f, entries[..i + 1]) == Selected(reg, f, entries[..i]) +
      if Matches(reg, f, entries[i]) then [Copy(reg.prompts[entries[i].id][entries[i].version])] else []
  {
    assert entries[..i + 1][..i] == entries[..i];
  }

  /** A full page taken from a prefix of the selection is the page of the
      whole selection. */
  lemma PageOfPrefix(sel: seq<Prompt>, full: seq<Prompt>, offset: int, limit: nat, skip0: nat)
    requires sel <= full
    requires skip0 == if offset > 0 then offset else 0
    requires skip0 <= |sel| && |sel[skip0..]| == limit
    ensures sel[skip0..] == Page(full, offset, limit)
  {
    assert full[skip0..][..limit] == sel[skip0..];
  }

  /** The selection of a prefix of the walk is a prefix of the selection. */
  lemma SelectedPrefix(reg: MemoryRegistry, f: Filter, entries: seq<VersionKey>, n: nat)
    requires n <= |entries|
    requires forall i :: 0 <= i < |entries| ==> Stored(reg, entries[i].id, entries[i].version)
    ensures Selected(reg, f, entries[..n]) <= Selected(reg, f, entries)
    decreases |entries| - n
  {
    if n < |entries| {
      SelectedPrefix(reg, f, entries, n + 1);
      assert entries[..n + 1][..n] == entries[..n];
    } else {
      assert entries[..n] == entries;
    }
  }

  /** Everything `List` returns is a copy of a stored version that passes the
      filters, and there are at most `limit` (or 1000) of them. */
  lemma ListReturnsMatches(reg: MemoryRegistry, f: Filter, entries: seq<VersionKey>, p: Prompt)
    requires Enumerates(reg, entries)
    requires p in Page(Selected(reg, f, entries), f.offset, EffectiveLimit(f.limit))
    ensures exists id, v :: Stored(reg, id, v) && Matches(reg, f, VersionKey(id, v)) && p == Copy(reg.prompts[id][v])
  {
    var s := Selected(reg, f, entries);
    assert p in s;
    SelectedMembers(reg, f, entries, p);
    var i :| 0 <= i < |entries| && Matches(reg, f, entries[i]) && p == Copy(reg.prompts[entries[i].id][entries[i].version]);
    assert Stored(reg, entries[i].id, entries[i].version);
  }

  /** With no filter, no offset and room enough, `List` returns every stored
      version, whatever the walk order. */
  lemma {:induction false} UnfilteredListsAll(reg: MemoryRegistry, entries: seq<VersionKey>)
    requires forall i :: 0 <= i < |entries| ==> Stored(reg, entries[i].id, entries[i].version)
    ensures |Selected(reg, Filter([], "", [], 0, 0), entries)| == |entries|
    decreases |entries|
  {
    if |entries| > 0 {
      UnfilteredListsAll(reg, entries[..|entries| - 1]);
    }
  }

  /** `VersionInfo`. */
  datatype VersionInfo = VersionInfo(id: string, version: string, stage: Stage, tags: seq<string>, createdAt: int, updatedAt: int)

  /** `versions` is an order in which the versions of `id` can be walked:
      every stored version exactly once. */
  predicate WalksVersions(reg: MemoryRegistry, id: string, versions: seq<string>)
    requires id in reg.prompts
  {
    && (forall i :: 0 <= i < |versions| ==> versions[i] in reg.prompts[id])
    && (forall v :: v in reg.prompts[id] ==> v in versions)
    && (forall i, j :: 0 <= i < j < |versions| ==> versions[i] != versions[j])
  }

  /** `ListVersions`: one entry per stored version of the id, in the walk
      order `versions`; an unknown id gives none. */
  function ListVersions(reg: MemoryRegistry, id: string, versions: seq<string>): (infos: seq<VersionInfo>)
    requires id in reg.prompts ==> WalksVersions(reg, id, versions)
    ensures id !in reg.prompts ==> infos == []
    ensures id in reg.prompts ==> |infos| == |versions|
    ensures id in reg.prompts ==> forall i :: 0 <= i < |versions| ==>
      infos[i].id == id && infos[i].version == versions[i] && infos[i].tags == TagsOf(reg, id, versions[i])
      && infos[i].createdAt == reg.prompts[id][versions[i]].createdAt
      && infos[i].updatedAt == reg.prompts[id][versions[i]].updatedAt
    ensures id in reg.prompts && id in reg.stages ==> forall i :: 0 <= i < |versions| ==>
      infos[i].stage == if versions[i] in reg.stages[id] then reg.stages[id][versions[i]] else ""
    ensures id in reg.prompts && id !in reg.stages ==> forall i :: 0 <= i < |versions| ==> infos[i].stage == StageDev
  {
    if id !in reg.prompts then []
    else
      seq(|versions|, i requires 0 <= i < |versions| =>
        var v := versions[i];
        var st := if id !in reg.stages then StageDev else if v in reg.stages[id] then reg.stages[id][v] else "";
        VersionInfo(id, v, st, TagsOf(reg, id, v), reg.prompts[id][v].createdAt, reg.prompts[id][v].updatedAt))
  }

  /** Every stored version of a known id is listed, and none twice. */
  lemma ListVersionsComplete(reg: MemoryRegistry, id: string, versions: seq<string>, v: string)
    requires id in reg.prompts && WalksVersions(reg, id, versions)
    ensures var infos := ListVersions(reg, id, versions);
      (v in reg.prompts[id] <==> exists i :: 0 <= i < |infos| && infos[i].version == v)
      && forall i, j :: 0 <= i < j < |infos| ==> infos[i].version != infos[j].version
  {
    var infos := ListVersions(reg, id, versions);
    if v in reg.prompts[id] {
      var i :| 0 <= i < |versions| && versions[i] == v;
      assert infos[i].version == v;
    }
  }

  /** Two versions stored under one id are both listed. */
  lemma TwoVersionsListed(reg: MemoryRegistry, p1: Prompt, p2: Prompt)
    requires Valid(reg) && reg.prompts == map[]
    requires p1.id == "p1" && p1.version == "1.0.0" && p2.id == "p1" && p2.version == "2.0.0"
    ensures var r := Store(Store(reg, Some(p1)).reg, Some(p2)).reg;
      r.prompts["p1"].Keys == {"1.0.0", "2.0.0"}
      && |ListVersions(r, "p1", ["1.0.0", "2.0.0"])| == 2
  {
  }

  // ---------------------------------------------------------------------------
  // The tag key as written

  /** The tag map key of memory.go: id and version joined by a colon. */
  function KeyAsWritten(id: string, version: string): (k: string)
    ensures |k| == |id| + 1 + |version| && k[|id|] == ':'
  {
    id + ":" + version
  }

  /** Tags kept under the joined key, as memory.go keeps them. */
  function TagAsWritten(tags: map<string, seq<string>>, id: string, version: string, t: seq<string>): (r: map<string, seq<string>>)
    ensures KeyAsWritten(id, version) in r && r[KeyAsWritten(id, version)] == t
  {
    tags[KeyAsWritten(id, version) := t]
  }

  function TagsOfAsWritten(tags: map<string, seq<string>>, id: string, version: string): seq<string> {
    if KeyAsWritten(id, version) in tags then tags[KeyAsWritten(id, version)] else []
  }

  /** Version "c" of prompt "a:b" and version "b:c" of prompt "a" share a tag
      key: tagging one tags the other (and deleting one drops the other's
      tags), which the version-keyed registry above does not do. */
  lemma TagKeyCollision()
    ensures KeyAsWritten("a:b", "c") == KeyAsWritten("a", "b:c")
    ensures TagsOfAsWritten(TagAsWritten(map[], "a", "b:c", ["prod"]), "a:b", "c") == ["prod"]
  {
  }

  /** The key the registry above uses tells every two versions apart. */
  lemma VersionKeyInjective(id1: string, v1: string, id2: string, v2: string)
    requires (id1, v1) != (id2, v2)
    ensures VersionKey(id1, v1) != VersionKey(id2, v2)
  {
  }
}

=== FILE: strings.dfy ===
/** The few pieces of Go's `strings`, `strconv` and `unicode` packages the
    modelled code relies on.  A Go string is modelled as its sequence of Unicode
    code points (`seq<char>`); byte lengths are computed where the code reads
    them. */
module Strings {

  /** `unicode.IsSpace`: the ASCII white space characters plus the Unicode
      White_Space property (U+0085, U+00A0, U+1680, U+2000..U+200A, U+2028,
      U+2029, U+202F, U+205F, U+3000). */
  predicate IsSpace(c: char) {
    c == '\t' || c == '\n' || c == '\U{000B}' || c == '\U{000C}' || c == '\r' || c == ' '
    || c == '\U{0085}' || c == '\U{00A0}' || c == '\U{1680}'
    || ('\U{2000}' <= c <= '\U{200A}')
    || c == '\U{2028}' || c == '\U{2029}' || c == '\U{202F}' || c == '\U{205F}' || c == '\U{3000}'
  }

  predicate AllSpace(s: string) {
    forall i :: 0 <= i < |s| ==> IsSpace(s[i])
  }

  /** Number of white space characters `s` starts with. */
  function LeadingSpaces(s: string): (n: nat)
    ensures n <= |s| && AllSpace(s[..n])
    ensures n < |s| ==> !IsSpace(s[n])
  {
    if |s| > 0 && IsSpace(s[0]) then
      var n := 1 + LeadingSpaces(s[1..]);
      assert forall i :: 1 <= i < n ==> s[..n][i] == s[1..][..n - 1][i - 1];
      n
    else 0
  }

  /** Number of white space characters `s` ends with. */
  function TrailingSpaces(s: string): (n: nat)
    ensures n <= |s| && AllSpace(s[|s| - n..])
    ensures n < |s| ==> !IsSpace(s[|s| - n - 1])
  {
    if |s| > 0 && IsSpace(s[|s| - 1]) then
      var t := s[..|s| - 1];
      var n := 1 + TrailingSpaces(t);
      assert s[|s| - n..] == t[|t| - (n - 1)..] + [s[|s| - 1]];
      n
    else 0
  }

  /** `strings.TrimSpace`: `s` without its leading and trailing white space. */
  function TrimSpace(s: string): (r: string)
    ensures |r| == 0 || (!IsSpace(r[0]) && !IsSpace(r[|r| - 1]))
    ensures exists i :: 0 <= i <= |s| - |r| && r == s[i..i + |r|]
                        && AllSpace(s[..i]) && AllSpace(s[i + |r|..])
  {
    var l := LeadingSpaces(s);
    var t := s[l..];
    var n := TrailingSpaces(t);
    var r := t[..|t| - n];
    assert r == s[l..l + |r|];
    DropDrop(s, l, |t| - n);
    assert |r| > 0 ==> r[0] == s[l] && r[|r| - 1] == t[|t| - n - 1];
    assert 0 <= l <= |s| - |r| && AllSpace(s[..l]) && AllSpace(s[l + |r|..]);
    r
  }

  lemma DropDrop<T>(s: seq<T>, a: nat, b: nat)
    requires a + b <= |s|
    ensures s[a..][b..] == s[a + b..]
  {
  }

  /** `sub` occurs in `s` starting at index `i`. */
  predicate OccursAt(s: string, sub: string, i: nat) {
    i + |sub| <= |s| && s[i..i + |sub|] == sub
  }

  /** `strings.Contains`. */
  predicate Contains(s: string, sub: string) {
    exists i: nat :: i <= |s| && OccursAt(s, sub, i)
  }

  /** `strings.Index` for one character: the first position of `c`. */
  function IndexOfChar(s: string, c: char): (i: nat)
    requires c in s
    ensures i < |s| && s[i] == c && c !in s[..i]
  {
    if s[0] == c then 0
    else
      var i := 1 + IndexOfChar(s[1..], c);
      assert s[..i] == [s[0]] + s[1..][..i - 1];
      i
  }

  /** `strings.Join` with a one-character separator. */
  function Join(parts: seq<string>, sep: char): string {
    if |parts| == 0 then ""
    else if |parts| == 1 then parts[0]
    else parts[0] + [sep] + Join(parts[1..], sep)
  }

  /** `strings.Split` with a one-character separator: the pieces between the
      separators, so `Split("", sep) == [""]`. */
  function Split(s: string, sep: char): (parts: seq<string>)
    ensures |parts| >= 1
    ensures Join(parts, sep) == s
    ensures forall k :: 0 <= k < |parts| ==> sep !in parts[k]
    decreases |s|
  {
    if sep !in s then [s]
    else
      var i := IndexOfChar(s, sep);
      var rest := Split(s[i + 1..], sep);
      var parts := [s[..i]] + rest;
      assert parts[1..] == rest;
      assert s == s[..i] + [sep] + s[i + 1..];
      parts
  }

  predicate IsDigit(c: char) {
    '0' <= c <= '9'
  }

  predicate AllDigits(s: string) {
    forall i :: 0 <= i < |s| ==> IsDigit(s[i])
  }

  function DigitValue(c: char): nat
    requires IsDigit(c)
  {
    (c as int) - ('0' as int)
  }

  /** The number a string of decimal digits denotes (empty reads as 0). */
  function DecimalValue(s: string): nat
    requires AllDigits(s)
  {
    if |s| == 0 then 0 else 10 * DecimalValue(s[..|s| - 1]) + DigitValue(s[|s| - 1])
  }

  /** `strconv.Itoa` for non-negative numbers. */
  function NatToString(n: nat): (s: string)
    ensures |s| >= 1 && AllDigits(s)
  {
    var d := (('0' as int) + n % 10) as char;
    if n < 10 then [d] else NatToString(n / 10) + [d]
  }

  lemma {:induction false} NatToStringRoundTrip(n: nat)
    ensures DecimalValue(NatToString(n)) == n
  {
    var s := NatToString(n);
    if n >= 10 {
      NatToStringRoundTrip(n / 10);
      assert s[..|s| - 1] == NatToString(n / 10);
    }
  }

  /** `unicode.ToUpper` for the letters whose upper case is ASCII: the ASCII
      lower-case letters, the long s (U+017F) and the dotless i (U+0131).  Every
      other code point is left as it is. */
  function ToUpperRune(c: char): char {
    if 'a' <= c <= 'z' then ((c as int) - 32) as char
    else if c == '\U{017F}' then 'S'
    else if c == '\U{0131}' then 'I'
    else c
  }

  /** `strings.ToUpper`, one code point at a time, exact on ASCII letters,
      `ſ` and `ı` only (`ToUpperRune` leaves every other code point as it is). */
  function ToUpper(s: string): (r: string)
    ensures |r| == |s|
    ensures forall i :: 0 <= i < |s| ==> r[i] == ToUpperRune(s[i])
  {
    seq(|s|, i requires 0 <= i < |s| => ToUpperRune(s[i]))
  }

  /** Number of bytes of the UTF-8 encoding of one code point. */
  function Utf8Width(c: char): nat {
    if (c as int) < 0x80 then 1
    else if (c as int) < 0x800 then 2
    else if (c as int) < 0x10000 then 3
    else 4
  }

  /** `len(s)` of a Go string: the length of its UTF-8 encoding. */
  function Utf8Len(s: string): (n: nat)
    ensures |s| <= n <= 4 * |s|
  {
    if |s| == 0 then 0 else Utf8Width(s[0]) + Utf8Len(s[1..])
  }
}

=== FILE: suite.dfy ===
/** Test suites (evaluator/suite.go): every case is run through the executor,
    or only rendered when there is none, and the output is scored by each
    evaluator in turn. */
module Suite {
  import opened Wrappers
  import opened Errors
  import opened Strings
  import opened Variables
  import opened Prompts
  import opened Template
  import opened Provider
  import opened Executor
  import opened Scores
  import opened Evaluators

  datatype TestSuite = TestSuite(
    name: string,
    prompt: Option<Prompt>,
    exec: Option<Executor>,
    cases: seq<Case>,
    evals: seq<Evaluator>,
    version: string)

  /** `NewTestSuite`: no prompt, executor or cases, and the exact match as
      the only evaluator. */
  function NewTestSuite(name: string): (s: TestSuite)
    ensures s.name == name && s.evals == [ExactMatch]
    ensures s.prompt.None? && s.exec.None? && s.cases == [] && s.version == ""
  {
    TestSuite(name, None, None, [], [ExactMatch], "")
  }

  /** `WithPrompt`: sets the prompt under test and its version label;
      nothing else changes. */
  function WithPrompt(s: TestSuite, p: Option<Prompt>, version: string): (r: TestSuite)
    ensures r.prompt == p && r.version == version
    ensures r.(prompt := s.prompt, version := s.version) == s
  {
    s.(prompt := p, version := version)
  }

  /** `WithExecutor`: sets the executor that produces the actual output;
      nothing else changes. */
  function WithExecutor(s: TestSuite, e: Option<Executor>): (r: TestSuite)
    ensures r.exec == e && r.(exec := s.exec) == s
  {
    s.(exec := e)
  }

  /** `AddCase`: appends a case; nothing else changes. */
  function AddCase(s: TestSuite, name: string, input: map<string, Value>, expected: Expected): (r: TestSuite)
    ensures r.cases == s.cases + [Case(name, input, expected)]
    ensures r.(cases := s.cases) == s
  {
    s.(cases := s.cases + [Case(name, input, expected)])
  }

  /** `WithEvaluator`: appends an evaluator after those already there. */
  function WithEvaluator(s: TestSuite, ev: Evaluator): (r: TestSuite)
    ensures r.evals == s.evals + [ev]
    ensures r.(evals := s.evals) == s
  {
    s.(evals := s.evals + [ev])
  }

  datatype CaseResult = CaseResult(
    caseName: string,
    pass: bool,
    actual: string,
    expected: Expected,
    scores: seq<Score>,
    err: Option<Error>)

  /** `Report`, without the wall-clock duration. */
  datatype Report = Report(
    suite: string,
    promptId: string,
    version: string,
    total: nat,
    passed: nat,
    failed: nat,
    results: seq<CaseResult>)

  /** The world of a run: the context and the provider as case `i` sees them. */
  datatype Env = Env(ctxAt: nat -> Ctx, provider: nat -> Completer)

  /** The evaluator loop of `runCase`. */
  datatype Scoring = Scoring(scores: seq<Score>, err: Option<Error>, allPass: bool)

  /** Evaluator `k` is the first one that returns an error. */
  predicate FirstEvalError(evals: seq<Evaluator>, actual: string, expected: Expected, k: int) {
    0 <= k < |evals| && Evaluate(evals[k], actual, expected).Failure?
    && forall i :: 0 <= i < k ==> Evaluate(evals[i], actual, expected).Success?
  }

  /** Every evaluator returns a score. */
  predicate AllSucceed(evals: seq<Evaluator>, actual: string, expected: Expected) {
    forall i :: 0 <= i < |evals| ==> Evaluate(evals[i], actual, expected).Success?
  }

  /** Every evaluator returns a passing score. */
  predicate AllPass(evals: seq<Evaluator>, actual: string, expected: Expected) {
    AllSucceed(evals, actual, expected)
    && forall i :: 0 <= i < |evals| ==> Evaluate(evals[i], actual, expected).value.pass
  }

  /** `scores` are the scores of the first evaluators, in order. */
  predicate ScoresOf(evals: seq<Evaluator>, actual: string, expected: Expected, scores: seq<Score>) {
    |scores| <= |evals|
    && forall i :: 0 <= i < |scores| ==>
         Evaluate(evals[i], actual, expected).Success? && scores[i] == Evaluate(evals[i], actual, expected).value
  }

  /** The loop stopped at the first evaluator error, keeping the scores before it. */
  predicate StoppedAtError(evals: seq<Evaluator>, actual: string, expected: Expected, r: Scoring) {
    exists k :: FirstEvalError(evals, actual, expected, k)
      && r.err == Some(Evaluate(evals[k], actual, expected).error) && |r.scores| == k
  }

  /** Every evaluator in order; the first error stops the loop and keeps the
      scores gathered before it (`EvalAllFacts` states what it gathers). */
  function EvalAll(evals: seq<Evaluator>, actual: string, expected: Expected): (r: Scoring)
    ensures |r.scores| <= |evals|
    ensures r.err.None? ==> |r.scores| == |evals|
    decreases |evals|
  {
    if |evals| == 0 then Scoring([], None, true)
    else
      var first := Evaluate(evals[0], actual, expected);
      if first.Failure? then Scoring([], Some(first.error), false)
      else
        var rest := EvalAll(evals[1..], actual, expected);
        Scoring([first.value] + rest.scores, rest.err, first.value.pass && rest.allPass)
  }

  /** The loop fails iff some evaluator fails, and keeps the scores it got. */
  lemma {:induction false} EvalAllScores(evals: seq<Evaluator>, actual: string, expected: Expected)
    ensures EvalAll(evals, actual, expected).err.None? <==> AllSucceed(evals, actual, expected)
    ensures ScoresOf(evals, actual, expected, EvalAll(evals, actual, expected).scores)
    decreases |evals|
  {
    if |evals| > 0 && Evaluate(evals[0], actual, expected).Success? {
      var tail := evals[1..];
      EvalAllScores(tail, actual, expected);
      var r := EvalAll(evals, actual, expected);
      var rest := EvalAll(tail, actual, expected);
      assert r.scores == [Evaluate(evals[0], actual, expected).value] + rest.scores;
      assert r.err == rest.err;
      SucceedCons(evals, actual, expected);
      forall i | 0 <= i < |r.scores|
        ensures Evaluate(evals[i], actual, expected).Success? && r.scores[i] == Evaluate(evals[i], actual, expected).value
      {
        if i > 0 {
          assert evals[i] == tail[i - 1];
          assert r.scores[i] == rest.scores[i - 1];
        }
      }
    }
  }

  lemma SucceedCons(evals: seq<Evaluator>, actual: string, expected: Expected)
    requires |evals| > 0
    ensures AllSucceed(evals, actual, expected) <==>
      Evaluate(evals[0], actual, expected).Success? && AllSucceed(evals[1..], actual, expected)
  {
    var tail := evals[1..];
    if Evaluate(evals[0], actual, expected).Success? && AllSucceed(tail, actual, expected) {
      forall i | 0 < i < |evals|
        ensures Evaluate(evals[i], actual, expected).Success?
      {
        assert evals[i] == tail[i - 1];
      }
    }
    if AllSucceed(evals, actual, expected) {
      forall i | 0 <= i < |tail|
        ensures Evaluate(tail[i], actual, expected).Success?
      {
        assert tail[i] == evals[i + 1];
      }
    }
  }

  /** Without an error, the case passes iff every score passes. */
  lemma {:induction false} EvalAllPasses(evals: seq<Evaluator>, actual: string, expected: Expected)
    requires EvalAll(evals, actual, expected).err.None?
    ensures EvalAll(evals, actual, expected).allPass <==> AllPass(evals, actual, expected)
    decreases |evals|
  {
    if |evals| > 0 {
      EvalAllPasses(evals[1..], actual, expected);
      AllPassCons(evals, actual, expected);
    }
  }

  lemma AllPassCons(evals: seq<Evaluator>, actual: string, expected: Expected)
    requires |evals| > 0
    ensures AllPass(evals, actual, expected) <==>
      Evaluate(evals[0], actual, expected).Success? && Evaluate(evals[0], actual, expected).value.pass
      && AllPass(evals[1..], actual, expected)
  {
    var tail := evals[1..];
    if AllPass(evals, actual, expected) {
      forall i | 0 <= i < |tail|
        ensures Evaluate(tail[i], actual, expected).Success? && Evaluate(tail[i], actual, expected).value.pass
      {
        assert tail[i] == evals[i + 1];
      }
    }
  }

  /** An error is the first evaluator's error, with the scores before it kept. */
  lemma {:induction false} EvalAllStops(evals: seq<Evaluator>, actual: string, expected: Expected)
    requires EvalAll(evals, actual, expected).err.Some?
    ensures StoppedAtError(evals, actual, expected, EvalAll(evals, actual, expected))
    decreases |evals|
  {
    var first := Evaluate(evals[0], actual, expected);
    if first.Failure? {
      assert FirstEvalError(evals, actual, expected, 0);
    } else {
      var rest := EvalAll(evals[1..], actual, expected);
      EvalAllStops(evals[1..], actual, expected);
      var k :| FirstEvalError(evals[1..], actual, expected, k)
        && rest.err == Some(Evaluate(evals[1..][k], actual, expected).error) && |rest.scores| == k;
      assert forall i :: 1 <= i < |evals| ==> evals[i] == evals[1..][i - 1];
      assert FirstEvalError(evals, actual, expected, k + 1);
    }
  }

  /** Everything the evaluator loop promises. */
  lemma EvalAllFacts(evals: seq<Evaluator>, actual: string, expected: Expected)
    ensures var r := EvalAll(evals, actual, expected);
      (r.err.None? <==> AllSucceed(evals, actual, expected))
      && ScoresOf(evals, actual, expected, r.scores)
      && (r.err.None? ==> (r.allPass <==> AllPass(evals, actual, expected)))
      && (r.err.Some? ==> StoppedAtError(evals, actual, expected, r))
  {
    EvalAllScores(evals, actual, expected);
    if EvalAll(evals, actual, expected).err.None? {
      EvalAllPasses(evals, actual, expected);
    } else {
      EvalAllStops(evals, actual, expected);
    }
  }

  /** The output a case is scored on: the executor's content, or the
      rendered user text when there is no executor. */
  function ActualOutput(s: TestSuite, env: Env, i: nat, c: Case): (r: Result<string, Error>)
    requires s.prompt.Some?
    ensures s.exec.None? ==> r == (var rp := RenderPrompt(s.prompt.value, env.ctxAt(i), c.input);
                                   if rp.Success? then Success(rp.value.user) else Failure(rp.error))
  {
    if s.exec.Some? then
      var req := ExecuteRequest(s.prompt, c.input, "", 0.0, 0, [], 0);
      var run := Outcome(s.exec.value, env.ctxAt(i), req, env.provider(i)).result;
      if run.Failure? then Failure(run.error) else Success(run.value.content)
    else
      var rp := RenderPrompt(s.prompt.value, env.ctxAt(i), c.input);
      if rp.Failure? then Failure(rp.error) else Success(rp.value.user)
  }

  /** `runCase`: a case passes iff its output was produced and every
      evaluator returned a passing score; an evaluator error keeps the
      scores gathered before it. */
  function RunCase(s: TestSuite, env: Env, i: nat, c: Case): (r: CaseResult)
    requires s.prompt.Some?
    ensures r.caseName == c.name && r.expected == c.expected
    ensures var out := ActualOutput(s, env, i, c);
      r.pass <==> out.Success? && AllPass(s.evals, out.value, c.expected)
    ensures var out := ActualOutput(s, env, i, c);
      out.Failure? ==> r.err == Some(out.error) && r.scores == []
    ensures var out := ActualOutput(s, env, i, c);
      out.Success? ==> r.actual == out.value && ScoresOf(s.evals, out.value, c.expected, r.scores)
    ensures var out := ActualOutput(s, env, i, c);
      out.Success? && r.err.Some? ==> StoppedAtError(s.evals, out.value, c.expected, Scoring(r.scores, r.err, false))
  {
    var out := ActualOutput(s, env, i, c);
    if out.Failure? then CaseResult(c.name, false, "", c.expected, [], Some(out.error))
    else
      EvalAllFacts(s.evals, out.value, c.expected);
      var ev := EvalAll(s.evals, out.value, c.expected);
      CaseResult(c.name, ev.err.None? && ev.allPass, out.value, c.expected, ev.scores, ev.err)
  }

  /** The number of passing results. */
  function PassCount(results: seq<CaseResult>): (n: nat)
    ensures n <= |results|
  {
    if |results| == 0 then 0 else PassCount(results[..|results| - 1]) + if results[|results| - 1].pass then 1 else 0
  }

  lemma PassCountSnoc(results: seq<CaseResult>, res: CaseResult)
    ensures PassCount(results + [res]) == PassCount(results) + if res.pass then 1 else 0
  {
    assert (results + [res])[..|results|] == results;
  }

  /** The results of the first `n` cases, in order. */
  function CaseResults(s: TestSuite, env: Env, n: nat): (rs: seq<CaseResult>)
    requires s.prompt.Some? && n <= |s.cases|
    ensures |rs| == n
  {
    if n == 0 then [] else CaseResults(s, env, n - 1) + [RunCase(s, env, n - 1, s.cases[n - 1])]
  }

  lemma {:induction false} CaseResultsAt(s: TestSuite, env: Env, n: nat, j: nat)
    requires s.prompt.Some? && j < n <= |s.cases|
    ensures CaseResults(s, env, n)[j] == RunCase(s, env, j, s.cases[j])
  {
    if j < n - 1 {
      CaseResultsAt(s, env, n - 1, j);
    }
  }

  const NoPrompt := Message("evaluator: prompt is required")

  /** `Run`: one result per case, in order, with the passes and failures
      counted; a suite without a prompt is refused. */
  method Run(s: TestSuite, env: Env) returns (r: Result<Report, Error>)
    ensures s.prompt.None? ==> r == Failure(NoPrompt)
    ensures s.prompt.Some? ==> r.Success?
    ensures r.Success? ==> r.value.suite == s.name && r.value.promptId == s.prompt.value.id && r.value.version == s.version
    ensures r.Success? ==> r.value.total == |s.cases| == |r.value.results|
    ensures r.Success? ==> forall i :: 0 <= i < |s.cases| ==> r.value.results[i] == RunCase(s, env, i, s.cases[i])
    ensures r.Success? ==> r.value.passed == PassCount(r.value.results)
    ensures r.Success? ==> r.value.passed + r.value.failed == r.value.total
  {
    if s.prompt.None? {
      return Failure(NoPrompt);
    }
    var results: seq<CaseResult> := [];
    var passed, failed := 0, 0;
    var i := 0;
    while i < |s.cases|
      invariant 0 <= i <= |s.cases| && results == CaseResults(s, env, i)
      invariant passed == PassCount(results) && passed + failed == i
    {
      var res := RunCase(s, env, i, s.cases[i]);
      PassCountSnoc(results, res);
      results := results + [res];
      if res.pass {
        passed := passed + 1;
      } else {
        failed := failed + 1;
      }
      i := i + 1;
    }
    forall j | 0 <= j < |s.cases|
      ensures results[j] == RunCase(s, env, j, s.cases[j])
    {
      CaseResultsAt(s, env, |s.cases|, j);
    }
    return Success(Report(s.name, s.prompt.value.id, s.version, |s.cases|, passed, failed, results));
  }

  /** A suite made by `NewTestSuite` without an executor checks that the
      rendered text equals the expected output up to surrounding white space. */
  lemma DefaultSuiteComparesRendering(name: string, p: Prompt, env: Env, i: nat, c: Case)
    requires RenderPrompt(p, env.ctxAt(i), c.input).Success?
    ensures var s := WithPrompt(NewTestSuite(name), Some(p), "");
      RunCase(s, env, i, c).pass <==>
        TrimSpace(RenderPrompt(p, env.ctxAt(i), c.input).value.user) == TrimSpace(c.expected.output)
  {
  }

  /** Adding an evaluator can only turn passing cases into failing ones. */
  lemma MoreEvaluatorsPassLess(s: TestSuite, ev: Evaluator, env: Env, i: nat, c: Case)
    requires s.prompt.Some?
    ensures RunCase(WithEvaluator(s, ev), env, i, c).pass ==> RunCase(s, env, i, c).pass
  {
    var s2 := WithEvaluator(s, ev);
    if RunCase(s2, env, i, c).pass {
      assert forall k :: 0 <= k < |s.evals| ==> s2.evals[k] == s.evals[k];
    }
  }
}

=== FILE: template.dfy ===
/** The template engine (template/engine.go): the `core.Renderer` that checks a
    prompt's input, fills in variable defaults and executes the system and user
    templates.  Go's `text/template` itself is the engine's `run` function. */
module Template {
  import opened Wrappers
  import opened Errors
  import opened Variables
  import opened Prompts

  const DefaultLeftDelim := "{{"
  const DefaultRightDelim := "}}"

  /** The names of the functions every engine starts with. */
  const DefaultFuncNames: set<string> := {"join", "upper", "lower", "trim", "default", "json"}

  /** The engine's functional options; a function map is known by its names. */
  datatype EngineOption =
    | WithDelims(left: string, right: string)
    | WithFuncMap(names: set<string>)

  predicate LastWithDelims(opts: seq<EngineOption>, i: int) {
    0 <= i < |opts| && opts[i].WithDelims? && forall j :: i < j < |opts| ==> !opts[j].WithDelims?
  }

  function ApplyEngineOption(c: TemplateConfig, o: EngineOption): TemplateConfig {
    match o
    case WithDelims(l, r) => c.(leftDelim := l, rightDelim := r)
    case WithFuncMap(names) => c.(funcNames := c.funcNames + names)
  }

  function ApplyEngineOptions(c: TemplateConfig, opts: seq<EngineOption>): (r: TemplateConfig)
    ensures (forall i :: 0 <= i < |opts| ==> !opts[i].WithDelims?) ==>
      r.leftDelim == c.leftDelim && r.rightDelim == c.rightDelim
    ensures forall i :: LastWithDelims(opts, i) ==>
      r.leftDelim == opts[i].left && r.rightDelim == opts[i].right
    ensures forall f :: f in r.funcNames <==>
      f in c.funcNames || exists i :: 0 <= i < |opts| && opts[i].WithFuncMap? && f in opts[i].names
    decreases |opts|
  {
    if |opts| == 0 then c
    else
      var r := ApplyEngineOptions(ApplyEngineOption(c, opts[0]), opts[1..]);
      assert forall j :: 1 <= j < |opts| ==> opts[j] == opts[1..][j - 1];
      r
  }

  /** `NewEngine`: delimiters `{{` and `}}` unless an option sets others (the
      last one wins), and the default functions plus every added one. */
  function NewEngine(run: TemplateRunner, opts: seq<EngineOption>): (e: Engine)
    ensures e.run == run
    ensures (forall i :: 0 <= i < |opts| ==> !opts[i].WithDelims?) ==>
      e.config.leftDelim == "{{" && e.config.rightDelim == "}}"
    ensures forall i :: LastWithDelims(opts, i) ==>
      e.config.leftDelim == opts[i].left && e.config.rightDelim == opts[i].right
    ensures DefaultFuncNames <= e.config.funcNames
    ensures forall f :: f in e.config.funcNames <==>
      f in DefaultFuncNames || exists i :: 0 <= i < |opts| && opts[i].WithFuncMap? && f in opts[i].names
  {
    Engine(ApplyEngineOptions(TemplateConfig(DefaultLeftDelim, DefaultRightDelim, DefaultFuncNames), opts), run)
  }

  /** The template function `default`: the fallback for nil and the empty
      string, the value itself otherwise. */
  function DefaultFunc(def: Value, val: Value): (r: Value)
    ensures val == Nil || val == Str("") ==> r == def
    ensures val != Nil && val != Str("") ==> r == val
  {
    if val == Nil || val == Str("") then def else val
  }

  /** `vars[i]` is the last declaration named `n` with a non-nil default. */
  predicate LastWithDefault(vars: seq<Variable>, n: string, i: int) {
    0 <= i < |vars| && vars[i].name == n && vars[i].default != Nil
    && forall j :: i < j < |vars| ==> !(vars[j].name == n && vars[j].default != Nil)
  }

  /** The first loop of `Render`: declared names take the input's value when
      the key is present and the declaration's default when it is not nil. */
  function DefaultsLoop(vars: seq<Variable>, input: Input): (data: map<string, Value>)
    ensures forall k :: k in data ==> k in input || exists i :: HasDefault(vars, k, i)
    ensures forall k :: k !in input && (exists i :: HasDefault(vars, k, i)) ==> k in data
    ensures forall i :: 0 <= i < |vars| && LastWithDefault(vars, vars[i].name, i) && vars[i].name !in input ==> vars[i].name in data && data[vars[i].name] == vars[i].default
    decreases |vars|
  {
    if |vars| == 0 then map[]
    else
      var prefix, v := vars[..|vars| - 1], vars[|vars| - 1];
      assert vars == prefix + [v];
      DefaultsStep(prefix, v, input, DefaultsLoop(prefix, input));
      VisitDeclaration(DefaultsLoop(prefix, input), v, input)
  }

  /** `vars[i]` is a declaration named `n` with a non-nil default. */
  predicate HasDefault(vars: seq<Variable>, n: string, i: int) {
    0 <= i < |vars| && vars[i].name == n && vars[i].default != Nil
  }

  /** One iteration of the loop: the input's value when the key is present,
      otherwise the default when it is not nil. */
  function VisitDeclaration(acc: map<string, Value>, v: Variable, input: Input): map<string, Value> {
    if v.name in input then acc[v.name := input[v.name]]
    else if v.default != Nil then acc[v.name := v.default]
    else acc
  }

  /** One more declaration keeps the three properties of the loop's map. */
  lemma DefaultsStep(prefix: seq<Variable>, v: Variable, input: Input, acc: map<string, Value>)
    requires forall k :: k in acc ==> k in input || exists i :: HasDefault(prefix, k, i)
    requires forall k :: k !in input && (exists i :: HasDefault(prefix, k, i)) ==> k in acc
    requires forall i :: 0 <= i < |prefix| && LastWithDefault(prefix, prefix[i].name, i) && prefix[i].name !in input ==> prefix[i].name in acc && acc[prefix[i].name] == prefix[i].default
    ensures var vars, data := prefix + [v], VisitDeclaration(acc, v, input);
      forall k :: k in data ==> k in input || exists i :: HasDefault(vars, k, i)
    ensures var vars, data := prefix + [v], VisitDeclaration(acc, v, input);
      forall k :: k !in input && (exists i :: HasDefault(vars, k, i)) ==> k in data
    ensures var vars, data := prefix + [v], VisitDeclaration(acc, v, input);
      forall i :: 0 <= i < |vars| && LastWithDefault(vars, vars[i].name, i) && vars[i].name !in input ==> vars[i].name in data && data[vars[i].name] == vars[i].default
  {
    var vars, data := prefix + [v], VisitDeclaration(acc, v, input);
    forall k, i | HasDefault(prefix, k, i)
      ensures HasDefault(vars, k, i)
    {
      assert vars[i] == prefix[i];
    }
    forall k | k !in input && (exists i :: HasDefault(vars, k, i))
      ensures k in data
    {
      var i :| HasDefault(vars, k, i);
      if i < |prefix| {
        assert vars[i] == prefix[i] && HasDefault(prefix, k, i);
      }
    }
    forall k | k in data
      ensures k in input || exists i :: HasDefault(vars, k, i)
    {
      if k == v.name && v.name !in input && k !in acc {
        assert HasDefault(vars, k, |prefix|);
      }
    }
    forall i | 0 <= i < |vars| && LastWithDefault(vars, vars[i].name, i) && vars[i].name !in input
      ensures vars[i].name in data && data[vars[i].name] == vars[i].default
    {
      if i < |prefix| {
        assert vars[i] == prefix[i];
        assert vars[|prefix|] == v;
        forall j | i < j < |prefix|
          ensures !(prefix[j].name == prefix[i].name && prefix[j].default != Nil)
        {
          assert vars[j] == prefix[j];
        }
        assert LastWithDefault(prefix, prefix[i].name, i);
      }
    }
  }

  /** The data a prompt's templates are executed with: every input entry, and
      for each declared name missing from the input the default of its last
      declaration with a non-nil default, if there is one. */
  function RenderData(vars: seq<Variable>, input: Input): (data: map<string, Value>)
    ensures forall k :: k in input ==> k in data && data[k] == input[k]
    ensures forall k :: k in data && k !in input ==> exists i :: LastWithDefault(vars, k, i)
    ensures forall i :: 0 <= i < |vars| && LastWithDefault(vars, vars[i].name, i) && vars[i].name !in input ==>
      vars[i].name in data && data[vars[i].name] == vars[i].default
  {
    var d := DefaultsLoop(vars, input) + input;
    forall k | k in d && k !in input
      ensures exists i :: LastWithDefault(vars, k, i)
    {
      var i :| 0 <= i < |vars| && vars[i].name == k && vars[i].default != Nil;
      var j := LastDefaultIndex(vars, k, i);
    }
    d
  }

  /** The last declaration named `n` with a non-nil default, at or after a known one. */
  function LastDefaultIndex(vars: seq<Variable>, n: string, i: nat): (k: nat)
    requires i < |vars| && vars[i].name == n && vars[i].default != Nil
    ensures i <= k && LastWithDefault(vars, n, k)
    decreases |vars| - i
  {
    if exists j :: i < j < |vars| && vars[j].name == n && vars[j].default != Nil then
      var j :| i < j < |vars| && vars[j].name == n && vars[j].default != Nil;
      LastDefaultIndex(vars, n, j)
    else i
  }

  /** `execute`: an empty template renders as the empty string without being
      parsed; any other one goes through `text/template`. */
  function ExecuteTemplate(e: Engine, tpl: string, data: map<string, Value>): (r: Result<string, Error>)
    ensures tpl == "" ==> r == Success("")
    ensures tpl != "" ==> r == e.run(e.config, tpl, data)
  {
    if tpl == "" then Success("") else e.run(e.config, tpl, data)
  }

  /** `Engine.Render`. */
  function Render(e: Engine, ctx: Ctx, p: Prompt, input: Input): (r: Result<Rendered, Error>)
    ensures ctx.Done? ==> r == Failure(ctx.err)
    ensures ctx.Live? && ValidateInput(p, input).Some? ==>
      r == Failure(Wrap2(ValidationFailed, ": ", ValidateInput(p, input).value))
    ensures r.Success? ==> r.value.input == input
  {
    if ctx.Done? then Failure(ctx.err)
    else
      var invalid := ValidateInput(p, input);
      if invalid.Some? then Failure(Wrap2(ValidationFailed, ": ", invalid.value))
      else
        var data := RenderData(p.variables, input);
        var system := ExecuteTemplate(e, p.system, data);
        if system.Failure? then Failure(Wrap2(RenderFailed, " system: ", system.error))
        else
          var user := ExecuteTemplate(e, p.template, data);
          if user.Failure? then Failure(Wrap2(RenderFailed, " template: ", user.error))
          else Success(Rendered(system.value, user.value, input))
  }

  /** Rendering succeeds exactly when the context is live, the input validates
      and both templates execute, and then yields their texts.  Every failure
      after the context check is marked with the matching sentinel error and
      still carries the underlying one. */
  lemma RenderOutcome(e: Engine, ctx: Ctx, p: Prompt, input: Input)
    ensures var data := RenderData(p.variables, input);
      Render(e, ctx, p, input).Success? <==>
        ctx.Live? && AllPass(VariableMap(p.variables), input)
        && ExecuteTemplate(e, p.system, data).Success? && ExecuteTemplate(e, p.template, data).Success?
    ensures var data := RenderData(p.variables, input);
      Render(e, ctx, p, input).Success? ==>
        Render(e, ctx, p, input).value
          == Rendered(ExecuteTemplate(e, p.system, data).value, ExecuteTemplate(e, p.template, data).value, input)
    ensures ctx.Live? && !AllPass(VariableMap(p.variables), input) ==>
      Is(Render(e, ctx, p, input).error, ValidationFailed)
    ensures ctx.Live? && AllPass(VariableMap(p.variables), input) && Render(e, ctx, p, input).Failure? ==>
      Is(Render(e, ctx, p, input).error, RenderFailed)
  {
  }

  /** A prompt whose templates are both empty renders to two empty texts
      whatever `text/template` would do, once its input validates. */
  lemma EmptyTemplatesRender(e: Engine, p: Prompt, input: Input)
    requires p.system == "" && p.template == ""
    requires AllPass(VariableMap(p.variables), input)
    ensures Render(e, Live, p, input) == Success(Rendered("", "", input))
  {
  }

  /** `Prompt.Render` in core: without a renderer it fails with
      `ErrNoRenderer`, otherwise it is the engine's `Render`. */
  function RenderPrompt(p: Prompt, ctx: Ctx, input: Input): (r: Result<Rendered, Error>)
    ensures p.renderer.None? ==> r == Failure(NoRenderer)
    ensures p.renderer.Some? ==> r == Render(p.renderer.value, ctx, p, input)
  {
    match p.renderer
    case None => Failure(NoRenderer)
    case Some(e) => Render(e, ctx, p, input)
  }

  /** A copied prompt has no renderer, so rendering the copy always fails with
      `ErrNoRenderer`, even when the original renders. */
  lemma CopyCannotRender(p: Prompt, ctx: Ctx, input: Input)
    ensures RenderPrompt(Copy(p), ctx, input) == Failure(NoRenderer)
  {
  }
}

=== FILE: variables.dfy ===
/** Template variables (core/variable.go): a declared name and type, whether
    the variable is required, its default, and an optional custom validation
    function, together with the type check `Validate` performs on a dynamic
    Go value. */
module Variables {
  import opened Wrappers
  import opened Errors

  /** The Go integer kinds the `int` variable type accepts. */
  datatype IntKind = GoInt | GoInt8 | GoInt16 | GoInt32 | GoInt64
                   | GoUint | GoUint8 | GoUint16 | GoUint32 | GoUint64

  datatype FloatKind = GoFloat32 | GoFloat64

  /** A Go `interface{}` value, as far as the modelled code inspects it: nil,
      the dynamic types `Validate` distinguishes, and every other dynamic type
      (slices, maps, structs, ...) as `Other`. */
  datatype Value =
    | Nil
    | Str(s: string)
    | IntVal(ikind: IntKind, i: int)
    | FloatVal(fkind: FloatKind, r: real)
    | BoolVal(b: bool)
    | Other(description: string)

  const TypeString := "string"
  const TypeInt := "int"
  const TypeFloat := "float"
  const TypeBool := "bool"
  const TypeAny := "any"

  /** A custom validation: `None` accepts the value, `Some(e)` rejects it. */
  type ValidationFunc = Value -> Option<Error>

  /** `core.Variable`.  `typ` is a plain string, as `VariableType` is in Go,
      so unrecognised type names are representable. */
  datatype Variable = Variable(
    name: string,
    typ: string,
    required: bool,
    default: Value,
    validation: Option<ValidationFunc>,
    description: string)

  /** Whether the type check of variable type `typ` lets the non-nil `value`
      through: `string` takes strings, `int` every integer kind, `float` the
      two float kinds, `bool` booleans; `any` and unrecognised names take
      everything. */
  predicate TypeAccepts(typ: string, value: Value) {
    if typ == TypeString then value.Str?
    else if typ == TypeInt then value.IntVal?
    else if typ == TypeFloat then value.FloatVal?
    else if typ == TypeBool then value.BoolVal?
    else true
  }

  /** The message of the type-check error for a declared type. */
  function TypeMismatch(typ: string): string {
    if typ == TypeString then "expected string"
    else if typ == TypeInt then "expected integer"
    else if typ == TypeFloat then "expected float"
    else "expected bool"
  }

  /** `Variable.Validate`: nil is checked against `required` only; a non-nil
      value must pass the type check first and the custom validation after. */
  function Validate(v: Variable, value: Value): (r: Option<Error>)
    ensures value == Nil ==>
      r == (if v.required then Some(Invalid(v.name, "required field is missing")) else None)
    ensures value != Nil && !TypeAccepts(v.typ, value) ==>
      r == Some(Invalid(v.name, TypeMismatch(v.typ)))
    ensures value != Nil && TypeAccepts(v.typ, value) ==>
      r == (if v.validation.Some? then v.validation.value(value) else None)
  {
    if value == Nil then
      if v.required then Some(Invalid(v.name, "required field is missing")) else None
    else
      var typeError :=
        match v.typ
        case "string" => if value.Str? then None else Some("expected string")
        case "int" => if value.IntVal? then None else Some("expected integer")
        case "float" => if value.FloatVal? then None else Some("expected float")
        case "bool" => if value.BoolVal? then None else Some("expected bool")
        case _ => None;
      if typeError.Some? then Some(Invalid(v.name, typeError.value))
      else if v.validation.Some? then v.validation.value(value)
      else None
  }

  /** A variable passes exactly when a nil value is optional, or a non-nil value
      has an accepted type and satisfies the custom validation. */
  lemma ValidateAcceptsIff(v: Variable, value: Value)
    ensures Validate(v, value).None? <==>
      (value == Nil && !v.required)
      || (value != Nil && TypeAccepts(v.typ, value)
          && (v.validation.None? || v.validation.value(value).None?))
  {
  }

  /** The type check ignores the custom validation: a value of the wrong type
      is rejected with the type error whatever the validation would say. */
  lemma ValidationRunsAfterTypeCheck(v: Variable, value: Value, f: ValidationFunc)
    requires value != Nil && !TypeAccepts(v.typ, value)
    ensures Validate(v.(validation := Some(f)), value) == Validate(v.(validation := None), value)
  {
  }

  /** The unit tests of the package, stated over the model: a required string
      rejects nil and 42 and accepts "hello"; an int variable accepts an int and
      an int64 and rejects the string "1"; a float variable rejects an int. */
  lemma ValidateExamples()
    ensures var s := Variable("x", TypeString, true, Nil, None, "");
      Validate(s, Nil).Some? && Validate(s, Str("hello")).None? && Validate(s, IntVal(GoInt, 42)).Some?
    ensures var n := Variable("n", TypeInt, false, Nil, None, "");
      Validate(n, IntVal(GoInt, 1)).None? && Validate(n, IntVal(GoInt64, 2)).None? && Validate(n, Str("1")).Some?
    ensures Validate(Variable("f", TypeFloat, false, Nil, None, ""), IntVal(GoInt, 1)).Some?
    ensures Validate(Variable("a", TypeAny, false, Nil, None, ""), Other("[]int{1}")).None?
  {
  }

  /** The functional options of the variable constructors. */
  datatype VariableOption =
    | Required
    | Default(value: Value)
    | WithValidation(fn: Option<ValidationFunc>)
    | WithDescription(text: string)

  function ApplyOption(v: Variable, o: VariableOption): Variable {
    match o
    case Required => v.(required := true)
    case Default(x) => v.(default := x)
    case WithValidation(fn) => v.(validation := fn)
    case WithDescription(text) => v.(description := text)
  }

  /** `opts[i]` is the last option of its kind in `opts`. */
  predicate LastDefault(opts: seq<VariableOption>, i: int) {
    0 <= i < |opts| && opts[i].Default? && forall j :: i < j < |opts| ==> !opts[j].Default?
  }

  predicate LastWithDescription(opts: seq<VariableOption>, i: int) {
    0 <= i < |opts| && opts[i].WithDescription? && forall j :: i < j < |opts| ==> !opts[j].WithDescription?
  }

  predicate LastWithValidation(opts: seq<VariableOption>, i: int) {
    0 <= i < |opts| && opts[i].WithValidation? && forall j :: i < j < |opts| ==> !opts[j].WithValidation?
  }

  /** Applies the options in order.  `Required` only ever sets the flag, and for
      the other options the last one given wins. */
  function ApplyOptions(v: Variable, opts: seq<VariableOption>): (r: Variable)
    ensures r.name == v.name && r.typ == v.typ
    ensures r.required <==> v.required || exists i :: 0 <= i < |opts| && opts[i].Required?
    ensures (forall i :: 0 <= i < |opts| ==> !opts[i].Default?) ==> r.default == v.default
    ensures forall i :: LastDefault(opts, i) ==> r.default == opts[i].value
    ensures (forall i :: 0 <= i < |opts| ==> !opts[i].WithDescription?) ==> r.description == v.description
    ensures forall i :: LastWithDescription(opts, i) ==> r.description == opts[i].text
    ensures (forall i :: 0 <= i < |opts| ==> !opts[i].WithValidation?) ==> r.validation == v.validation
    ensures forall i :: LastWithValidation(opts, i) ==> r.validation == opts[i].fn
    decreases |opts|
  {
    if |opts| == 0 then v
    else
      var r := ApplyOptions(ApplyOption(v, opts[0]), opts[1..]);
      assert forall j :: 1 <= j < |opts| ==> opts[j] == opts[1..][j - 1];
      r
  }

  /** The shared body of `String`, `Int`, `Float`, `Bool` and `Any`. */
  function NewVariable(typ: string, opts: seq<VariableOption>): (r: Variable)
    ensures r.name == "" && r.typ == typ
    ensures r.required <==> exists i :: 0 <= i < |opts| && opts[i].Required?
    ensures (forall i :: 0 <= i < |opts| ==> !opts[i].Default?) ==> r.default == Nil
    ensures (forall i :: 0 <= i < |opts| ==> !opts[i].WithValidation?) ==> r.validation.None?
  {
    ApplyOptions(Variable("", typ, false, Nil, None, ""), opts)
  }

  function String(opts: seq<VariableOption>): Variable { NewVariable(TypeString, opts) }
  function Int(opts: seq<VariableOption>): Variable { NewVariable(TypeInt, opts) }
  function Float(opts: seq<VariableOption>): Variable { NewVariable(TypeFloat, opts) }
  function Bool(opts: seq<VariableOption>): Variable { NewVariable(TypeBool, opts) }
  function Any(opts: seq<VariableOption>): Variable { NewVariable(TypeAny, opts) }

  /** `String(Required())` declares a required string variable that rejects nil. */
  lemma StringRequiredExample()
    ensures String([Required]).required && String([Required]).typ == TypeString
    ensures Validate(String([Required]).(name := "text"), Nil).Some?
  {
    assert [Required][0].Required?;
  }

  /** `CoerceToString`.  Nil and strings are handled here; every other value is
      rendered by `fmt.Sprint` (or its `String` method), which is the parameter
      `format`. */
  function CoerceToString(value: Value, format: Value -> string): (r: string)
    ensures value == Nil ==> r == ""
    ensures value.Str? ==> r == value.s
  {
    match value
    case Nil => ""
    case Str(s) => s
    case _ => format(value)
  }
}

=== FILE: wrappers.dfy ===
/** Failure-compatible wrappers shared by every module: `Option` stands for a
    Go value that may be nil, `Result` for a `(value, error)` return pair. */
module Wrappers {

  datatype Option<+T> = None | Some(value: T) {

    /** The wrapped value, or `default` when there is none. */
    function GetOr(default: T): T {
      match this
      case Some(v) => v
      case None => default
    }
  }

  datatype Result<+T, +E> = Success(value: T) | Failure(error: E) {

    predicate IsFailure() {
      Failure?
    }

    function PropagateFailure<U>(): Result<U, E>
      requires Failure?
    {
      Failure(error)
    }

    function Extract(): T
      requires Success?
    {
      value
    }
  }

  /** The index of the last element of `s` that satisfies `p`, if there is
      one: where a series of options is applied in order, the option that
      decides a field. */
  function LastWhere<T>(s: seq<T>, p: T -> bool): (r: Option<nat>)
    ensures r.Some? ==> r.value < |s| && p(s[r.value]) && forall j :: r.value < j < |s| ==> !p(s[j])
    ensures r.None? ==> forall j :: 0 <= j < |s| ==> !p(s[j])
  {
    if |s| == 0 then None
    else if p(s[|s| - 1]) then Some(|s| - 1)
    else LastWhere(s[..|s| - 1], p)
  }
}
